=== FILE: README.md ===
# EmotiPlay core, modelled in Dafny

EmotiPlay recognises emotions from a camera and plays matching music. This project models the logic at the centre of that pipeline and proves properties of it:

- **Browser side**
  - the camera hook: start, stop, frame capture, auto-stop;
  - the polling detection hook: in-flight guard, outcome handling, start and stop;
  - the WebSocket streaming client: label table, message decoding, reconnect back-off;
  - the bounded emotion history and its statistics;
  - the playlist client's key table and result branching;
  - the statistics, filters, relative-time text and CSV exports of the chart, analytics page, history page and history panel.
- **Server side**
  - the per-person `EmotionTracker`: sliding window, recency-weighted vote, result cache, timeout clean-up;
  - box clamping;
  - `get_current_data`.

One Dafny module stands for one source file. A few shared modules hold what several files do alike:

- `Seqs`: filter, reverse, first-appearance keys, the two arg-max tie rules.
- `Text`: decimal rendering, `parseInt`, `join`/`split`.
- `Csv`: comma/newline documents.
- `RelativeTime`: the `formatTime` shared by two files.
- `Rounding`: `Math.round(100·c/t)` as `⌊(200c+t)/(2t)⌋`.
- `Vocabulary`: the six-emotion type of the hooks and pages, and the seven-emotion type of the stream and playlist clients.

Objects whose fields the source updates in place are classes with `modifies` clauses: the history hook, the detection hook, the camera hook, the WebSocket client and `EmotionTracker`. Loops that accumulate become methods with invariants, each proved against a specification function:

- the statistics tally of `getStats`;
- the scoring loop, eviction loop and clean-up loop of the tracker.

Network results, browser answers (`getUserMedia`, `play()`, `toDataURL`), clock readings and calendar boundaries are parameters. Timers are flags or maps that explicit tick and fire methods advance.

Where the design description and the code differ, the model follows the code:

- `addEmotion` always appends. There is no dedup and no minimum interval.
- The history's dominant class on a tie is the later key, not the first one.
- The reconnect delay is `min(1000·2^n, 10000)` with `n` already incremented, so the first delay is 2000 ms.
- `disconnect` sets no stop flag. A reconnect still follows the socket's close (see Findings).
- Stopping the detection hook neither cancels an in-flight request nor ignores its late outcome.
- A rejected `play()` leaves the granted stream held.
- `playEmotion`/`pauseMusic` are `false` for an OK response whose body cannot be parsed or is `null`.
- A zero `total_weight` in the tracker is modelled as the `ZeroDivisionError` outcome, not as a precondition.

## Model

| member | source | states |
|---|---|---|
| EmotionHistoryHook.EmotionHistory.constructor | frontend/hooks/use-emotion-history.ts:32-35 | the history starts empty with capacity `maxSize` (500 by default) |
| EmotionHistoryHook.EmotionHistory.AddEmotion | frontend/hooks/use-emotion-history.ts:37-43 | the new history is the last `maxSize` entries of old ++ [e]; for capacity ≥ 1 `e` is last, below capacity nothing is dropped, at capacity exactly the oldest entry is dropped; the length bound is preserved |
| EmotionHistoryHook.EmotionHistory.ClearHistory | frontend/hooks/use-emotion-history.ts:47-49 | the history becomes empty |
| EmotionHistoryHook.EmotionHistory.GetStats | frontend/hooks/use-emotion-history.ts:51-86 | empty history gives total 0, empty maps, no dominant, confidence 0; otherwise total = length, the distribution holds exactly the classes present with their occurrence counts (each ≥ 1), percentages share its keys and equal count/total·100, the dominant is a latest maximum, the average is the mean confidence |
| EmotionHistoryHook.Tally | frontend/hooks/use-emotion-history.ts:62-68 | the `forEach` loop yields the classes in first-appearance order, their exact occurrence counts and the confidence sum |
| EmotionHistoryHook.CountStep | frontend/hooks/use-emotion-history.ts:66 | one count update keeps the key order and the counts equal to those of the readings seen so far, one reading longer |
| EmotionHistoryHook.ReduceKeepsLatestMaximum | frontend/hooks/use-emotion-history.ts:75-77 | the strict-`>` reduce picks a class of maximal count with no later class equal to it |
| EmotionHistoryHook.TieGoesToLaterKey | frontend/hooks/use-emotion-history.ts:75-77 | with counts {feliz: 2, triste: 2} inserted feliz first, triste is the dominant class and feliz is not |
| EmotionHistoryHook.CountsSumToTotal | frontend/hooks/use-emotion-history.ts:62-68 | the distribution counts sum to the history length |
| EmotionHistoryHook.PercentagesSumTo100 | frontend/hooks/use-emotion-history.ts:70-73 | for a non-empty history the unrounded percentages sum to exactly 100 |
| EmotionHistoryHook.StatsPercentagesSumTo100 | frontend/hooks/use-emotion-history.ts:51-86 | for any statistics meeting `getStats`' postconditions on a non-empty history, the percentages read in key order sum to exactly 100 |
| Seqs.PercentOfCount | frontend/hooks/use-emotion-history.ts:72 | count/total·100 equals count·(100/total), the form the sum lemma uses |
| EmotionHistoryHook.SliceFromEnd | frontend/hooks/use-emotion-history.ts:41 | `slice(-n)` is a suffix: of length min(n, len) for n ≥ 1, everything for n = 0, all but the first −n entries for n < 0 |
| EmotionHistoryHook.AppendWindow | frontend/hooks/use-emotion-history.ts:39-42 | appending then slicing to m ≥ 1 ends in the new entry and drops at most the oldest entry |
| EmotionHistoryHook.ZeroCapacityNeverEvicts | frontend/hooks/use-emotion-history.ts:41 | with `maxSize` 0, `slice(-0)` keeps every entry, so the history grows without bound |
| EmotionHistoryHook.EmotionHistory.GetRecentHistory | frontend/hooks/use-emotion-history.ts:88-93 | the last min(count, len) entries in insertion order for count ≥ 1; the whole history for count = 0 |
| EmotionHistoryHook.RecentZeroIsEverything | frontend/hooks/use-emotion-history.ts:90 | `slice(-0)` returns the whole sequence |
| EmotionHistoryHook.EmotionHistory.FilterByEmotion | frontend/hooks/use-emotion-history.ts:95-100 | exactly the entries of that class, as an order-preserving subsequence |
| EmotionHistoryHook.EmotionHistory.FilterByTimeRange | frontend/hooks/use-emotion-history.ts:102-110 | exactly the entries with start ≤ timestamp ≤ end, as an order-preserving subsequence |
| EmotionHistoryHook.FilterMembers | frontend/hooks/use-emotion-history.ts:97 | an element is in the filter result iff it is in the input and passes |
| StreamClient.DecodeLabel | frontend/lib/websocket.ts:26-34 | a wire label in the table decodes to its entry, and any other label to neutral |
| StreamClient.DecodeLabelRoundTrip | frontend/lib/websocket.ts:26-34 | every Spanish emotion has a wire label that decodes back to it |
| StreamClient.WireLabelsAreLabelsOfMembers | frontend/lib/websocket.ts:26-34 | every wire label is the label of the emotion it decodes to |
| StreamClient.DecodeLabelInjective | frontend/lib/websocket.ts:26-34 | distinct wire labels decode to distinct emotions |
| StreamClient.DecodeLabelAsWritten | frontend/lib/websocket.ts:78 | the lookup as written, `emotionMapping[tag] \|\| 'neutral'`, where inherited object properties are found too |
| StreamClient.InheritedLabelEscapesFallback | frontend/lib/websocket.ts:78 | the label "toString" yields an inherited function, not 'neutral' |
| StreamClient.DecodeLabelAgreesAsWritten | frontend/lib/websocket.ts:26-34 | outside the inherited names the written lookup and the corrected decode agree |
| StreamClient.OnMessage | frontend/lib/websocket.ts:63-92 | an unparsable message has no effect; the frame callback fires iff registered and the frame is truthy; the emotion callback fires iff the first person has an emotion and positive confidence, carrying the decoded label and the confidence unchanged |
| StreamClient.LaterPersonsIgnored | frontend/lib/websocket.ts:73-86 | only `emotions[0]` matters: the persons after it never change the effects |
| StreamClient.FrameIndependentOfPersons | frontend/lib/websocket.ts:68-70 | the frame effect does not depend on the persons list |
| StreamClient.ReconnectDelay | frontend/lib/websocket.ts:114 | the delay never exceeds 10000 ms |
| StreamClient.ReconnectDelayMonotone | frontend/lib/websocket.ts:114 | more attempts never give a shorter delay |
| StreamClient.ReconnectDelaySchedule | frontend/lib/websocket.ts:107-122 | the five delays are 2000, 4000, 8000, 10000, 10000 |
| StreamClient.EmotionWebSocket.constructor | frontend/lib/websocket.ts:36-46 | no socket, no timers, zero attempts |
| StreamClient.EmotionWebSocket.Connect | frontend/lib/websocket.ts:48-104 | stores the callbacks and, unless the constructor throws, makes a fresh connecting socket current, so the client is not yet connected; the attempts and timers are unchanged |
| StreamClient.EmotionWebSocket.SocketOpened | frontend/lib/websocket.ts:58-61 | `onopen` resets the attempt counter to 0; when the opened socket is the current one the client is connected |
| StreamClient.EmotionWebSocket.SocketClosed | frontend/lib/websocket.ts:98-101 | `onclose` schedules a reconnect exactly as `attemptReconnect` does; when the closed socket is the current one the client is no longer connected |
| StreamClient.EmotionWebSocket.AttemptReconnect | frontend/lib/websocket.ts:107-123 | at ≥ 5 attempts nothing is scheduled and the counter is unchanged; otherwise the counter is incremented, it stays ≤ 5, and one timer with delay `min(1000·2^n, 10000)` is scheduled |
| StreamClient.EmotionWebSocket.FireReconnect | frontend/lib/websocket.ts:118-121 | a due timer is consumed and reconnects with the stored callbacks |
| StreamClient.EmotionWebSocket.Disconnect | frontend/lib/websocket.ts:125-136 | clears the pending timer, closes and forgets the socket, and keeps the attempt counter; the client is not connected afterwards; no stop flag is set |
| StreamClient.EmotionWebSocket.DisconnectAndStay | frontend/lib/websocket.ts:125-136 | corrected disconnect: sets the stop flag and clears every timer; the client is not connected afterwards |
| StreamClient.EmotionWebSocket.IsConnected | frontend/lib/websocket.ts:138-140 | connected exactly when there is a current socket and it is open; `Connect` leaves it false, opening the current socket makes it true, closing it or either disconnect makes it false |
| StreamClient.DisconnectThenReconnect | frontend/lib/websocket.ts:125-136 | after connect, open and `disconnect()` the client is not connected, yet the old socket's close event schedules a timer that opens a new socket |
| DetectionHook.HttpErrorMessage | frontend/hooks/use-emotion-detection.ts:59-61 | the message starts with "HTTP error! status: " |
| DetectionHook.HttpErrorMessageNamesStatus | frontend/hooks/use-emotion-detection.ts:59-61 | the status parses back from the message |
| DetectionHook.Judge | frontend/hooks/use-emotion-detection.ts:59-92 | success with a face gives a reading with the server's class, confidence and scores; a non-OK status and a thrown error give the corresponding messages; any other answer fails with the server's `error.message` when it is non-empty, else with "No se detectó ningún rostro" |
| DetectionHook.FailureMessageNonEmpty | frontend/hooks/use-emotion-detection.ts:80-88 | every failure message is non-empty unless an error was thrown with an empty message |
| DetectionHook.EmotionDetection.constructor | frontend/hooks/use-emotion-detection.ts:33-40 | interval 2000 by default; no reading, not detecting, no error, nothing in flight |
| DetectionHook.EmotionDetection.DetectEmotion | frontend/hooks/use-emotion-detection.ts:42-47 | a request is issued iff none is in flight; nothing else changes |
| DetectionHook.EmotionDetection.CompleteDetection | frontend/hooks/use-emotion-detection.ts:63-95 | a detection sets `currentEmotion`, clears `error` and is passed to `onDetection`; a failure keeps `currentEmotion`, sets `error` and is passed to `onError`; the in-flight flag is cleared on every path |
| DetectionHook.EmotionDetection.Tick | frontend/hooks/use-emotion-detection.ts:114-119 | a tick sends iff the captured frame is non-empty and nothing is in flight |
| DetectionHook.EmotionDetection.StartDetection | frontend/hooks/use-emotion-detection.ts:107-125 | a no-op when already detecting; otherwise it starts, clears the error, ticks once at once and starts the interval |
| DetectionHook.EmotionDetection.StopDetection | frontend/hooks/use-emotion-detection.ts:128-134 | clears the interval and stops; the reading, the error and the in-flight flag are untouched |
| DetectionHook.EmotionDetection.Unmount | frontend/hooks/use-emotion-detection.ts:136-142 | only the interval is cleared |
| DetectionHook.StopDetectionIdempotent | frontend/hooks/use-emotion-detection.ts:128-134 | stopping twice equals stopping once |
| CameraHook.ConstraintsOf | frontend/hooks/use-camera.ts:23 | defaults 640×480 and the user-facing camera, each overridden by its option |
| CameraHook.Camera.constructor | frontend/hooks/use-camera.ts:25-31 | no stream, inactive, no error, no permission |
| CameraHook.Camera.StopCamera | frontend/hooks/use-camera.ts:33-42 | stops the held stream, forgets and detaches it, deactivates; never touches the error or the permission |
| CameraHook.Camera.StartCamera | frontend/hooks/use-camera.ts:44-71 | a granted stream is held and grants permission; the camera becomes active only if a video element exists and `play()` resolves; a rejection at either step sets the message (or the default) and withdraws the permission; `isActive` is never cleared |
| CameraHook.Camera.CaptureFrame | frontend/hooks/use-camera.ts:73-95 | null unless video, canvas and activity are all present; otherwise the canvas takes the video size and the result is the JPEG (quality 0.8) encoding, or null without a 2D context |
| CameraHook.Camera.VisibilityChange | frontend/hooks/use-camera.ts:103-114 | hiding the page while active stops the camera: the held stream's tracks join the stopped set, the video is detached and the camera is inactive; otherwise nothing changes; the canvas size, error and permission never change |
| CameraHook.Camera.Unmount | frontend/hooks/use-camera.ts:97-101 | unmounting stops the camera and its stream |
| CameraHook.StopThenCapture | frontend/hooks/use-camera.ts:33-42 | stopping is idempotent and a stopped camera captures nothing |
| Tracker.DropStale | backend/model/emotion_detector.py:64-68 | after eviction the deque is empty or its front is at or after the cutoff |
| Tracker.DropStaleIsSuffix | backend/model/emotion_detector.py:66-68 | only front entries are popped |
| Tracker.DropStaleKeepsNewest | backend/model/emotion_detector.py:64-68 | the newest entry survives when it is at or after the cutoff |
| Tracker.DropStaleSorted | backend/model/emotion_detector.py:64-68 | on a sorted deque eviction keeps exactly the entries at or after the cutoff, still sorted |
| Tracker.AddKeepsWindow | backend/model/emotion_detector.py:59-68 | adding at non-decreasing times keeps the deque sorted and inside the window, and with a non-negative window the new entry is kept, last |
| Tracker.EvictStale | backend/model/emotion_detector.py:66-68 | the `while`/`popleft` loop computes `DropStale` |
| Tracker.Scores | backend/model/emotion_detector.py:81-89 | the score map has exactly the labels present |
| Tracker.ScoresSumToTotal | backend/model/emotion_detector.py:81-89 | the per-label scores add up to `total_weight` |
| Tracker.Vote | backend/model/emotion_detector.py:81-89 | the scoring loop yields the labels in deque order, their scores and the total weight |
| Tracker.Accumulate | backend/model/emotion_detector.py:84-89 | one loop pass adds the weight to its label's score and to the total |
| Tracker.KeysStep | backend/model/emotion_detector.py:87 | the dictionary's key order gains the label only when the dictionary lacks it |
| Tracker.ScoresStep | backend/model/emotion_detector.py:87 | the label's score grows by the weight from its previous value, or from zero for a new label; other scores are unchanged |
| Tracker.TotalStep | backend/model/emotion_detector.py:88 | the total weight grows by the entry's weight |
| Tracker.Winner | backend/model/emotion_detector.py:93 | `max(..., key=...)` picks a present label of maximal score, and no earlier label has an equal score |
| Tracker.Elect | backend/model/emotion_detector.py:91-97 | a zero total is a `ZeroDivisionError`; otherwise the winner is reported with confidence ≤ 1 |
| Tracker.Smooth | backend/model/emotion_detector.py:84-97 | a zero window divides by zero; otherwise the vote uses weight confidence·(1 − age/window) |
| Tracker.ElectedConfidenceAlwaysOne | backend/model/emotion_detector.py:94-95 | as written, whenever the total weight is positive the reported confidence is 1.0 |
| Tracker.WinnerAtLeastMean | backend/model/emotion_detector.py:91-95 | the winner's score is at least the mean score per label |
| Tracker.OneReadingReportedAsCertain | backend/model/emotion_detector.py:84-97 | one fresh reading of confidence 0.6 is reported with confidence 1.0 |
| Tracker.WeightedMeanConfidence | backend/model/emotion_detector.py:94-95 | corrected confidence: in [0, 1] for every deque of probabilities, stale readings included; times the label's summed live decay factors it gives the label's summed live weights (a recency-weighted mean), and it is 0 when the label has no reading inside the window |
| Tracker.LiveDecay | backend/model/emotion_detector.py:85-86 | corrected decay factor: never negative, positive exactly for a reading younger than the window, and then equal to `1 - age/window` |
| Tracker.LiveScoreBounds | backend/model/emotion_detector.py:84-88 | corrected: a label's live weights sum to between 0 and its live decay factors |
| Tracker.SmoothCorrected | backend/model/emotion_detector.py:77-95 | corrected vote: always a result with confidence in [0, 1]; no emotion and confidence 0 exactly when no reading lies inside the window; otherwise a present label of maximal live weight with its weighted mean confidence |
| Tracker.AllStaleCorrected | backend/model/emotion_detector.py:77-95 | corrected, a deque whose readings are all at least a window old gives no emotion and confidence 0, where the source scores them with negative weights |
| Tracker.TotalZero | backend/model/emotion_detector.py:88 | weights that vanish on every reading have a zero total |
| Tracker.FreshCorrectedAgrees | backend/model/emotion_detector.py:84-95 | with every reading inside the window the corrected vote elects the as-written winner, and its confidence is the winner's summed weights over its summed decay factors |
| Tracker.ScoresAgree | backend/model/emotion_detector.py:84-88 | weights that agree on every reading give the same scores, total and score map |
| Tracker.TotalPositive | backend/model/emotion_detector.py:88 | positive weights on a non-empty deque give a positive total |
| Tracker.TwoReadings | backend/model/emotion_detector.py:84-93 | two readings with different labels: two keys in order, each scoring its own weight, and the heavier one wins |
| Tracker.TwoReadingsElect | backend/model/emotion_detector.py:84-95 | as written, on two such readings with a non-zero total, the heavier label is reported with `min(1, w_b / ((w_a + w_b)/2))` |
| Tracker.StaleReadingsWeighNegative | backend/model/emotion_detector.py:84-95 | as written, two readings older than the window weigh −0.18 and −0.06, and the vote reports "Sad" with confidence 0.5 |
| Tracker.StaleReadingGivesNegativeConfidence | backend/model/emotion_detector.py:84-95 | as written, a stale reading beside a live one makes the reported confidence negative |
| Tracker.StaleReadingsCorrected | backend/model/emotion_detector.py:77-95 | corrected, the two stale readings give no emotion and confidence 0 |
| Tracker.WeightedMeanBounds | backend/model/emotion_detector.py:84-88 | weights bounded by non-negative decay factors give a score between 0 and the decay sum, and that sum is positive for a present label when every factor is |
| Tracker.OneReadingWeightedMean | backend/model/emotion_detector.py:84-97 | for the single 0.6 reading the corrected confidence is 0.6, and the corrected vote reports ("Happy", 0.6) |
| Tracker.Expired | backend/model/emotion_detector.py:101-106 | exactly the ids whose last-seen time is more than `timeout` ago |
| Tracker.CollectExpired | backend/model/emotion_detector.py:103-106 | the collection loop over the dictionary's keys gathers exactly the expired ids |
| Tracker.EmotionTracker.constructor | backend/model/emotion_detector.py:52-57 | window 5 s and update interval 1 s by default; all three dictionaries empty |
| Tracker.EmotionTracker.AddDetection | backend/model/emotion_detector.py:59-68 | appends at the back of that id's deque, records the time, evicts stale front entries; other ids are untouched (the copy at `backend/model/example.py:55-67` is the same) |
| Tracker.EmotionTracker.GetSmoothedEmotion | backend/model/emotion_detector.py:70-99 | a cached answer younger than `update_interval` is returned with no state change; an absent or empty deque gives (None, 0.0) without caching; otherwise the vote's answer is returned and cached with the current time (the copy at `backend/model/example.py:69-104` is the same) |
| Tracker.EmotionTracker.CleanupOldTrackers | backend/model/emotion_detector.py:101-114 | removes exactly the expired ids from all three dictionaries and leaves the others unchanged (the copy at `backend/model/example.py:106-119` is the same) |
| Tracker.EmotionTracker.Forget | backend/model/emotion_detector.py:107-114 | one id's guarded deletions from the three dictionaries |
| Tracker.Without | backend/model/emotion_detector.py:107-114 | deleting a key from the dictionary order removes exactly that key and keeps the order free of repeats |
| Tracker.ClampBox | backend/model/emotion_detector.py:273-277 | the box is clamped to the frame: x1, y1 ≥ 0, x2 ≤ width, y2 ≤ height, and coordinates already inside are kept |
| Tracker.Trunc | backend/model/emotion_detector.py:273 | `int()` truncates toward zero |
| Tracker.PersonRecord | backend/model/emotion_detector.py:299-306 | the record carries the id, the clamped box, the smoothed label and confidence, and the face flag |
| Tracker.UntrackedPersonNotReported | backend/model/emotion_detector.py:295-306 | a person with no readings reaches the browser without an emotion callback |
| Tracker.CurrentData | backend/model/emotion_detector.py:415-422 | an empty list before the first frame, else a copy of the people list |
| SpotifyClient.PlaylistKey | frontend/lib/spotify-client.ts:9-17 | every emotion has a non-empty lowercase key from the seven playlist keys |
| SpotifyClient.PlaylistKeyInjective | frontend/lib/spotify-client.ts:9-17 | distinct emotions get distinct keys |
| SpotifyClient.PlaylistKeysCovered | frontend/lib/spotify-client.ts:9-17 | every playlist key belongs to some emotion |
| SpotifyClient.WireLabelToPlaylistKey | frontend/lib/spotify-client.ts:9-17 | a wire label decoded by the stream client reaches the backend as its own lowercase form |
| SpotifyClient.BackendUrl | frontend/lib/spotify-client.ts:19 | the configured URL when set and non-empty, else http://localhost:8000 |
| SpotifyClient.PlayRequestBody | frontend/lib/spotify-client.ts:34 | the JSON body `{"emotion": key}`; `PlayRequestBodyNamesKey` and `PlayRequestBodyInjective` show it names the key and tells emotions apart |
| SpotifyClient.PlayRequestBodyNamesKey | frontend/lib/spotify-client.ts:31-35 | the posted JSON holds the key between a fixed prefix and suffix |
| SpotifyClient.PlayRequestBodyInjective | frontend/lib/spotify-client.ts:31-35 | distinct emotions post distinct bodies |
| SpotifyClient.PlayEmotion | frontend/lib/spotify-client.ts:25-51 | true iff an OK response with a readable non-null body arrives; false on every failure, never throwing |
| SpotifyClient.PauseMusic | frontend/lib/spotify-client.ts:57-77 | the same true/false contract as `playEmotion` |
| SpotifyClient.GetDevices | frontend/lib/spotify-client.ts:83-101 | the devices of an OK response, `[]` when they are absent, `[]` on any failure |
| SpotifyClient.WrappersAgree | frontend/lib/spotify-client.ts:25-101 | the three wrappers agree on which outcomes fail |
| Rounding.RoundPercent | frontend/components/emotion-chart.tsx:113 | 0 when the total is 0; otherwise the integer nearest to 100·count/total with halves rounded up, and at most 100 when count ≤ total |
| Rounding.RoundPercentExamples | frontend/components/emotion-chart.tsx:113 | 1/3 → 33, 1/2 → 50, 1/8 → 13, 5/5 → 100, 0/7 → 0, total 0 → 0 |
| EmotionChart.EmotionCounts | frontend/components/emotion-chart.tsx:100-107 | a count for exactly the emotions present, each equal to its number of occurrences and ≥ 1 |
| EmotionChart.ChartData | frontend/components/emotion-chart.tsx:110-117 | one item per present emotion in first-appearance order, with its count and its rounded percentage ≤ 100 |
| EmotionChart.ChartDataCoversPresent | frontend/components/emotion-chart.tsx:110-117 | an emotion has an item iff it occurs, and no emotion has two |
| EmotionChart.ChartCountsSumToLength | frontend/components/emotion-chart.tsx:100-109 | the item counts sum to `data.length` |
| EmotionChart.EmptyChartIffNoData | frontend/components/emotion-chart.tsx:190 | the chart is empty iff the data is |
| EmotionChart.PieData | frontend/components/emotion-chart.tsx:119-122 | mirrors the chart items in order with value = count |
| EmotionChart.PieValuesSumToLength | frontend/components/emotion-chart.tsx:119-122 | the pie values sum to `data.length` |
| EmotionChart.MaxPercentage | frontend/components/emotion-chart.tsx:208-212 | the largest item percentage (0 without items), attained by some item |
| EmotionChart.MaxPercentageAtMost100 | frontend/components/emotion-chart.tsx:208-212 | the "Mayor %" figure never exceeds 100 |
| Analytics.TotalIsSumOfTotals | frontend/app/analytics/page.tsx:92-103 | the grand total summed row by row equals the sum of the six column totals |
| Analytics.TotalBoundsColumn | frontend/app/analytics/page.tsx:92-103 | no column total exceeds the grand total |
| Analytics.TotalDetections | frontend/app/analytics/page.tsx:92-94 | `totalDetections` bounds every row's sum and is zero exactly when every row is empty |
| Analytics.EmotionTotal | frontend/app/analytics/page.tsx:96-103 | one entry of `emotionTotals`: a column summed from the first row; `ColumnTotalBoundsCells`, `TotalIsSumOfTotals` and `TotalBoundsColumn` state its properties |
| Analytics.ColumnTotalBoundsCells | frontend/app/analytics/page.tsx:96-103 | a column total of `emotionTotals` bounds every cell of its column and is zero exactly when every cell is |
| Analytics.EmotionTotals | frontend/app/analytics/page.tsx:96-103 | a total for every emotion, equal to its column sum |
| Analytics.MostCommonEmotion | frontend/app/analytics/page.tsx:105-107 | a maximal total, and every later key in feliz…amor order has a strictly smaller one |
| Analytics.TiesGoToLastKey | frontend/app/analytics/page.tsx:105-107 | with all totals equal the answer is amor |
| Analytics.DistributionPercentage | frontend/app/analytics/page.tsx:267 | 0 when there are no detections; otherwise the nearest integer to 100·count/total, and at most 100 |
| Analytics.ViewOf | frontend/app/analytics/page.tsx:54-56 | dataset, x-axis key, title and CSV label header all follow the time range alone |
| Analytics.RowFields | frontend/app/analytics/page.tsx:66-72 | seven fields: the row's label, then the six counts in key order |
| Analytics.CountFieldReadsBack | frontend/app/analytics/page.tsx:66-72 | each count field parses back to its count |
| Analytics.CsvContent | frontend/app/analytics/page.tsx:62-73 | the export opens with the header line and, with no rows, is just that line |
| Analytics.CsvRoundTrip | frontend/app/analytics/page.tsx:62-73 | with plain labels the export splits into the header and one line per row, in order, each into its seven fields |
| Csv.DocumentReadsBack | frontend/app/analytics/page.tsx:62-73 | a comma/newline document with plain fields splits back into its lines and fields |
| Csv.Document | frontend/app/analytics/page.tsx:62-73 | the comma/newline document opens with its first line's fields joined by commas |
| HistoryPage.FilteredHistory | frontend/app/history/page.tsx:108-162 | exactly the records passing the emotion and date filters, in reverse order of the record list |
| HistoryPage.FiltersCompose | frontend/app/history/page.tsx:112-158 | the emotion filter followed by the date filter, each skipped on "all", keeps exactly what one filter by both conditions keeps, in the same order |
| HistoryPage.FilteredHistoryKeepsOrder | frontend/app/history/page.tsx:108-162 | read back to front, the result is an order-preserving subsequence of the records |
| HistoryPage.InactiveFiltersKeepEverything | frontend/app/history/page.tsx:112-158 | with no active filter, or "custom" with an empty date, the list is every record, newest first |
| HistoryPage.DateFilterShapes | frontend/app/history/page.tsx:120-156 | "today", "week" and "month" are lower bounds only; "yesterday" and a custom day exclude their end; an invalid custom date keeps nothing |
| HistoryPage.ClearFilters | frontend/app/history/page.tsx:166-172 | after clearing no filter is active and the custom date is empty |
| HistoryPage.HasActiveFilters | frontend/app/history/page.tsx:172 | a filter is active when the emotion or the date choice is not "all"; `ClearFilters` makes it false and `InactiveFiltersKeepEverything` shows an inactive selection keeps every record |
| HistoryPage.LeadingMinutes | frontend/app/history/page.tsx:221-222 | `parseInt` of the text before the first space; an empty duration or one that starts with a space is `NaN` |
| HistoryPage.LeadingMinutesOfRendered | frontend/app/history/page.tsx:220-223 | a duration like "2m 15s" counts as its leading minutes, except a lone 0 followed by "x" or "X" |
| HistoryPage.HexLeadingMinutes | frontend/app/history/page.tsx:221-222 | a duration starting "0x" or "0X" counts as the hexadecimal value of the digits that follow, as `parseInt` reads it |
| HistoryPage.TotalDuration | frontend/app/history/page.tsx:220-223 | the sum is a number iff every duration has a leading integer; one `NaN` poisons it |
| HistoryPage.TotalDurationExamples | frontend/app/history/page.tsx:220-223 | "2m 15s" and "4m 05s" total 6; a duration starting with a space makes the total `NaN` |
| HistoryPage.AverageConfidence | frontend/app/history/page.tsx:225-227 | 0 for an empty list; otherwise average × length = the confidence sum |
| HistoryPage.AverageConfidenceBounds | frontend/app/history/page.tsx:225-227 | confidences in [0, 1] average to a value in [0, 1] |
| HistoryPage.RecordFields | frontend/app/history/page.tsx:193-200 | six fields, with the emotion's label second and the duration last |
| HistoryPage.IdFieldReadsBack | frontend/app/history/page.tsx:193-200 | the id field parses back to the id |
| HistoryPage.CsvContent | frontend/app/history/page.tsx:191-201 | the export opens with the header line, character for character as the page writes it (U+8D38 where "Emoción" and "Duración" have 'ó'), and, with nothing listed, is just that line |
| HistoryPage.CsvReadsBack | frontend/app/history/page.tsx:191-201 | with plain formatted fields the export is the header plus one line per listed record, each splitting into that record's fields |
| RelativeTime.Bucket | frontend/app/history/page.tsx:174-185 | "Ahora" iff under a minute (negative differences included); minutes, hours and days are floor quotients in 1…59, 1…23 and ≥ 1 |
| RelativeTime.FormatTime | frontend/app/history/page.tsx:174-185 | "Ahora" exactly when under a minute has passed; otherwise "Hace ", then the elapsed time floored to whole minutes (under an hour), hours (under a day) or days, then "m", "h" or "d" |
| RelativeTime.RenderReadsBack | frontend/components/emotion-history.tsx:94-105 | "Ahora" only for under a minute; otherwise the count after "Hace " parses back and the unit is the last character |
| RelativeTime.RenderInjective | frontend/components/emotion-history.tsx:94-105 | distinct buckets render as distinct texts |
| RelativeTime.BucketMonotone | frontend/components/emotion-history.tsx:94-105 | a larger difference never falls in an earlier bucket |
| HistoryPanel.ReversedData | frontend/components/emotion-history.tsx:92 | the reverse of `data`; reversing it again gives `data` back |
| HistoryPanel.ReversedDataNewestFirst | frontend/components/emotion-history.tsx:92 | data handed over oldest first is listed newest first |
| HistoryPanel.ItemFields | frontend/components/emotion-history.tsx:112-118 | four fields with the emotion's label first |
| HistoryPanel.CsvContent | frontend/components/emotion-history.tsx:111-119 | the export opens with the header line and, with no data, is just that line |
| HistoryPanel.CsvReadsBack | frontend/components/emotion-history.tsx:111-119 | the header "Emoción,Confianza,Fecha,Hora" and then one line per item, in the original order of `data` |
| HistoryPanel.EnabledExportHasData | frontend/components/emotion-history.tsx:146 | an export that can be started is not already running and writes at least one reading |
| HistoryPanel.ExportDisabled | frontend/components/emotion-history.tsx:146 | the button is disabled while an export runs or when there is no data; `EnabledExportHasData` gives its consequence |
| Vocabulary.LabelIsPlainAndInjective | frontend/components/emotion-history.tsx:72-79 | labels are distinct and contain no comma or line break |
| Seqs.Keys | frontend/components/emotion-chart.tsx:100-107 | the distinct elements in first-appearance order: a dictionary's key order |
| Seqs.KeysCountsSum | frontend/hooks/use-emotion-history.ts:62-68 | occurrence counts over the distinct keys sum to the length |
| Seqs.SumPercentages | frontend/hooks/use-emotion-history.ts:70-73 | a table of count/total·100 over the keys sums to the counts scaled by 100/total |
| Seqs.Filter | frontend/hooks/use-emotion-history.ts:97 | the result only holds passing elements of the input |
| Seqs.FilterSubsequence | frontend/hooks/use-emotion-history.ts:95-110 | a filter result is an order-preserving subsequence |
| Seqs.FilterFilter | frontend/app/history/page.tsx:112-156 | two filters in a row are one filter on the conjunction |
| Seqs.Reverse | frontend/app/history/page.tsx:161 | element i of the result is element len−1−i of the input |
| Seqs.ReverseReverse | frontend/app/history/page.tsx:161 | reversing twice is the identity |
| Seqs.LastMaxIndex | frontend/app/analytics/page.tsx:105-107 | the index of a maximum with no equal value after it |
| Seqs.FirstMaxIndex | backend/model/emotion_detector.py:93 | the index of a maximum with no equal value before it |
| Text.NatToString | frontend/hooks/use-emotion-detection.ts:60 | a non-empty run of digits without a leading zero |
| Text.NatToStringValue | frontend/hooks/use-emotion-detection.ts:60 | the digits denote the number |
| Text.ParseIntPrefix | frontend/app/history/page.tsx:222 | `parseInt` without a radix: a number needs a digit, only a leading "-" makes it negative, and text starting with a decimal digit that is not a "0x" prefix always reads as a number |
| Text.ParseIntPrefixOfRendered | frontend/app/history/page.tsx:222 | `parseInt` reads back a rendered number followed by any non-digit, except a lone 0 followed by "x" or "X" |
| Text.ParseHexThen | frontend/app/history/page.tsx:222 | after "0x" or "0X", a run of hexadecimal digits followed by a non-hex character reads as the run's value |
| Text.ParseIntPrefixExamples | frontend/app/history/page.tsx:222 | "0x1A" reads as 26 and "0xg" as `NaN` |
| Text.SplitJoin | frontend/app/analytics/page.tsx:62-73 | splitting a join recovers the parts when no part contains the separator |
| Text.JoinSplit | frontend/app/analytics/page.tsx:62-73 | no piece of a split holds the separator, and joining the pieces gives the string back |
| Text.Join | frontend/app/analytics/page.tsx:72-73 | `join`: the first part opens the result |
| Text.Split | frontend/app/history/page.tsx:221 | `split` on one character always yields at least one piece |

## Left out

- JSX, icons, colours, animations and routing: presentational.
- Real network and device I/O: `fetch`, the WebSocket constructor, `getUserMedia`, `play()` and `toDataURL` are outcome parameters.
- Timers are flags or maps advanced by explicit methods, not real time.
- Concurrency (the server's detection thread and its lock) is left out.
- Machine learning and computer vision (the emotion model, YOLO, ByteTrack, face cascades, drawing, JPEG/base64 encoding) are foreign calls and are left out.
- The per-frame loop of `process_frame` is not modelled. Only its box clamping and person record are modelled.
- Calendar arithmetic (`setDate`, `setMonth`, `new Date(customDate)`) is an input: the day boundaries.
- The locale formatting of dates and times and `toFixed` are formatter parameters.
- The Blob and download side of the CSV exports is left out.
- The mock data of the history and analytics pages is not reproduced.
- `startDetection` captures `isDetecting` from its render. The stale-closure effects of React state are not modelled: state updates are immediate.
- The interval that `startDetection` leaves running when `stopDetection` runs is not modelled: the interval is one flag.
- Floating-point rounding is not modelled: confidences, weights and percentages are exact reals.
- `Math.round` on exact rationals is modelled as `⌊(200c+t)/(2t)⌋`.
- The `if not emotion_scores` branch of `get_smoothed_emotion` cannot be reached: the deque is non-empty there.
- StreamClient.OnMessage: composes the corrected lookup `DecodeLabel`, so a label that names an inherited `Object.prototype` member (such as "toString") is reported as neutral. The lookup as written, which passes the inherited member on, is modelled separately by `DecodeLabelAsWritten` (see Findings). The backend only sends its seven labels.
- Text.ParseIntPrefix: does not skip leading white space other than what `split(' ')` already removed. Pieces starting with a tab or line break are read as `NaN`, where `parseInt` skips them.
- Tracker.EmotionTracker.CleanupOldTrackers: takes the timeout as a parameter; the source's default `timeout=10.0` (emotion_detector.py:101) is not modelled, because every caller passes 10.0 explicitly (line 350).
- Tracker.WeightedMeanConfidence: requires each reading's confidence to lie in [0, 1]. Every reading the tracker holds is the maximum of a softmax (emotion_detector.py:225-226), so this excludes nothing the source stores; readings of any age are admitted.
- Tracker.Smooth: the vote takes the weight function as a parameter. The decay `1 − age/window` is fixed by `WeightAt`, and its division is not unfolded inside the vote proofs.
- HistoryPage.RecordFields: `emotionLabels[record.emotion]` is total here because records carry the six-emotion type.
- The page's records are its own mock list, so an unknown emotion string cannot occur.

## Findings

| source | as written | input that shows it | evidently intended | confidence | as-written member | corrected member |
|---|---|---|---|---|---|---|
| backend/model/emotion_detector.py:94-95 | `avg_confidence = scores[best] / (total_weight / len(scores))`, capped at 1.0. The winner's score is at least the mean score, so the result is 1.0 whenever the total weight is positive, as it is when every reading lies inside the window. Otherwise other values arise: see the next row; a zero total raises `ZeroDivisionError` | one reading `(10.0, "Happy", 0.6)` smoothed at time 10 with a 5 s window reports confidence 1.0 | a confidence in [0, 1] reflecting the readings, such as the winner's recency-weighted mean confidence (0.6 here) | high, not executed | Tracker.ElectedConfidenceAlwaysOne | Tracker.WeightedMeanConfidence |
| backend/model/emotion_detector.py:84-88 | `weight = confidence * (1 - age / window_seconds)` is negative for a reading older than the window. Old readings are evicted only when a new one is added (lines 64-68), and a person's deque is scored on every frame (line 295) until cleanup after 10 s (line 350), so a face unseen for 5 to 10 s is scored on stale readings | readings `(0.0, "Happy", 0.9)` and `(0.5, "Sad", 0.6)` at time 6 in a 5 s window weigh −0.18 and −0.06, and "Sad" is reported with confidence 0.5; `(0.0, "Happy", 0.9)` and `(4.5, "Sad", 0.5)` at time 9 give a negative confidence | a reading outside the window counts zero; with none inside it there is no emotion (None, 0.0); otherwise the live winner with its weighted mean confidence in [0, 1] | high, not executed | Tracker.StaleReadingsWeighNegative | Tracker.SmoothCorrected |
| frontend/lib/websocket.ts:125-136 | `disconnect()` closes the socket but leaves `onclose` attached and sets no stop flag, so the close schedules a reconnect | connect, then disconnect, then the socket's close event: a reconnect timer is pending and fires a new connection | an explicit disconnect suppresses any further reconnect | high, not executed | StreamClient.EmotionWebSocket.Disconnect | StreamClient.EmotionWebSocket.DisconnectAndStay |
| frontend/lib/websocket.ts:78 | `emotionMapping[person.emotion] \|\| 'neutral'` also finds properties inherited by every object | the wire label "toString" yields a function instead of 'neutral' | every label outside the table falls back to 'neutral' | medium, not executed | StreamClient.DecodeLabelAsWritten | StreamClient.DecodeLabel |

=== FILE: analytics.dfy ===
/** The statistics of the analytics page, `frontend/app/analytics/page.tsx`:
    the six per-emotion columns of the selected dataset, their totals, the
    most common emotion, the distribution percentages and the CSV export. */
module Analytics {
  import opened Wrappers
  import opened Vocabulary
  import Seqs
  import Text
  import Rounding
  import Csv

  /** One row of `dailyData` or `weeklyData`: the `time` or `day` period and
      the six counts. */
  datatype Row = Row(period: string, feliz: nat, triste: nat, neutral: nat, enojado: nat, sorprendido: nat, amor: nat)

  datatype TimeRange = Day | Week

  /** The key order of `emotionTotals`, which `Object.entries` follows. */
  const KeyOrder: seq<Emotion> := [Feliz, Triste, Neutral, Enojado, Sorprendido, Amor]

  /** `item[e]`. */
  function Column(r: Row, e: Emotion): nat {
    match e
    case Feliz => r.feliz
    case Triste => r.triste
    case Neutral => r.neutral
    case Enojado => r.enojado
    case Sorprendido => r.sorprendido
    case Amor => r.amor
  }

  /** The summand of `totalDetections` for one row. */
  function RowSum(r: Row): nat {
    r.feliz + r.triste + r.neutral + r.enojado + r.sorprendido + r.amor
  }

  /** `totalDetections`: the row sums added from the front. It bounds every
      row's sum and is zero exactly when every row is. */
  function TotalDetections(rows: seq<Row>): (t: nat)
    ensures forall i :: 0 <= i < |rows| ==> RowSum(rows[i]) <= t
    ensures t == 0 <==> forall i :: 0 <= i < |rows| ==> RowSum(rows[i]) == 0
  {
    if rows == [] then 0 else TotalDetections(rows[..|rows| - 1]) + RowSum(rows[|rows| - 1])
  }

  /** `emotionTotals[e]`: one column added from the front. */
  function EmotionTotal(rows: seq<Row>, e: Emotion): nat {
    if rows == [] then 0 else EmotionTotal(rows[..|rows| - 1], e) + Column(rows[|rows| - 1], e)
  }

  /** Adding all cells row by row or column by column gives the same number:
      `totalDetections` is the sum of the six `emotionTotals`. */
  lemma {:induction false} TotalIsSumOfTotals(rows: seq<Row>)
    ensures TotalDetections(rows) ==
      EmotionTotal(rows, Feliz) + EmotionTotal(rows, Triste) + EmotionTotal(rows, Neutral) +
      EmotionTotal(rows, Enojado) + EmotionTotal(rows, Sorprendido) + EmotionTotal(rows, Amor)
  {
    if rows != [] {
      TotalIsSumOfTotals(rows[..|rows| - 1]);
    }
  }

  /** A column total bounds every cell of its column and is zero exactly
      when every cell is. */
  lemma {:induction false} ColumnTotalBoundsCells(rows: seq<Row>, e: Emotion)
    ensures forall i :: 0 <= i < |rows| ==> Column(rows[i], e) <= EmotionTotal(rows, e)
    ensures EmotionTotal(rows, e) == 0 <==> forall i :: 0 <= i < |rows| ==> Column(rows[i], e) == 0
  {
    if rows != [] {
      ColumnTotalBoundsCells(rows[..|rows| - 1], e);
    }
  }

  /** No column total exceeds the grand total. */
  lemma {:induction false} TotalBoundsColumn(rows: seq<Row>, e: Emotion)
    ensures EmotionTotal(rows, e) <= TotalDetections(rows)
  {
    if rows != [] {
      TotalBoundsColumn(rows[..|rows| - 1], e);
    }
  }

  /** `emotionTotals` as a dictionary. */
  function EmotionTotals(rows: seq<Row>): (m: map<Emotion, int>)
    ensures forall e :: e in m && m[e] == EmotionTotal(rows, e)
  {
    assert forall e :: e in KeyOrder by {
      forall e ensures e in KeyOrder {
        assert KeyOrder[IndexOf(e)] == e;
      }
    }
    map e | e in KeyOrder :: EmotionTotal(rows, e)
  }

  /** `mostCommonEmotion`: the `reduce` over `Object.entries(emotionTotals)`
      keeps the accumulator only when strictly greater, so the result has a
      maximal total and every later key has a strictly smaller one. */
  function MostCommonEmotion(rows: seq<Row>): (best: Emotion)
    ensures forall e :: EmotionTotal(rows, e) <= EmotionTotal(rows, best)
    ensures forall i, j :: 0 <= i < j < |KeyOrder| && KeyOrder[i] == best ==>
      EmotionTotal(rows, KeyOrder[j]) < EmotionTotal(rows, best)
  {
    var totals := EmotionTotals(rows);
    var i := Seqs.LastMaxIndex(KeyOrder, totals);
    assert forall e :: e in KeyOrder by {
      forall e ensures e in KeyOrder {
        assert KeyOrder[IndexOf(e)] == e;
      }
    }
    assert Seqs.Distinct(KeyOrder);
    KeyOrder[i]
  }

  /** With all totals equal, the last key, `amor`, is named most common. */
  lemma TiesGoToLastKey()
    ensures MostCommonEmotion([]) == Amor
  {
  }

  /** One entry of the distribution list: the rounded share of all
      detections. */
  function DistributionPercentage(rows: seq<Row>, e: Emotion): (p: nat)
    ensures p <= 100
    ensures TotalDetections(rows) == 0 ==> p == 0
    ensures TotalDetections(rows) > 0 ==>
      2 * TotalDetections(rows) * p <= 200 * EmotionTotal(rows, e) + TotalDetections(rows) < 2 * TotalDetections(rows) * (p + 1)
  {
    TotalBoundsColumn(rows, e);
    Rounding.RoundPercent(EmotionTotal(rows, e), TotalDetections(rows))
  }

  /** What the selected range shows: the dataset, its x-axis key, the chart
      title and the first CSV column header. */
  datatype View = View(data: seq<Row>, xAxisKey: string, title: string, labelHeader: string)

  /** `currentData`, `xAxisKey` and `title`: all three follow `timeRange`
      alone, as does the CSV's first header. */
  function ViewOf(range: TimeRange, daily: seq<Row>, weekly: seq<Row>): (v: View)
    ensures range == Day ==> v == View(daily, "time", "Tendencias Diarias", "Hora")
    ensures range == Week ==> v == View(weekly, "day", "Tendencias Semanales", "Día")
  {
    if range == Day then View(daily, "time", "Tendencias Diarias", "Hora")
    else View(weekly, "day", "Tendencias Semanales", "Día")
  }

  /** The seven fields of a CSV line. */
  function RowFields(r: Row): (fields: seq<string>)
    ensures |fields| == 7 && fields[0] == r.period
    ensures forall i :: 1 <= i < 7 ==> fields[i] == Text.NatToString(Column(r, KeyOrder[i - 1]))
  {
    [r.period, Text.NatToString(r.feliz), Text.NatToString(r.triste), Text.NatToString(r.neutral),
     Text.NatToString(r.enojado), Text.NatToString(r.sorprendido), Text.NatToString(r.amor)]
  }

  /** The seven column headers of the CSV. */
  function HeaderFields(labelHeader: string): seq<string> {
    [labelHeader, "Feliz", "Triste", "Neutral", "Enojado", "Sorprendido", "Amor"]
  }

  /** `csvContent`: the header line and one comma-joined line per row,
      joined with newlines; nothing is quoted. The header line comes first,
      and with no data it is the whole export. */
  function CsvContent(v: View): (c: string)
    ensures Text.Join(HeaderFields(v.labelHeader), ',') <= c
    ensures v.data == [] ==> c == Text.Join(HeaderFields(v.labelHeader), ',')
  {
    Csv.Document(ExportLines(v))
  }

  /** The fields of the export, line by line. */
  function ExportLines(v: View): (lines: seq<seq<string>>)
    ensures |lines| == |v.data| + 1 && lines[0] == HeaderFields(v.labelHeader)
    ensures forall i :: 0 <= i < |v.data| ==> lines[i + 1] == RowFields(v.data[i])
  {
    [HeaderFields(v.labelHeader)] + seq(|v.data|, i requires 0 <= i < |v.data| => RowFields(v.data[i]))
  }

  /** Each field of a row's line is plain when its time or day label is. */
  lemma RowFieldsPlain(r: Row)
    requires Csv.Plain(r.period)
    ensures forall j :: 0 <= j < 7 ==> Csv.Plain(RowFields(r)[j])
  {
    forall j | 1 <= j < 7 ensures Csv.Plain(RowFields(r)[j]) {
      Text.NatToStringHasNo(Column(r, KeyOrder[j - 1]), ',');
      Text.NatToStringHasNo(Column(r, KeyOrder[j - 1]), '\n');
    }
  }

  /** A count field parses back to the count. */
  lemma CountFieldReadsBack(r: Row, e: Emotion)
    ensures Text.ParseIntPrefix(RowFields(r)[1 + IndexOf(e)]) == Some(Column(r, e) as int)
  {
    Text.ParseIntPrefixOfRendered(Column(r, e), "");
    assert Text.NatToString(Column(r, e)) + "" == Text.NatToString(Column(r, e));
  }

  /** For labels free of commas and line breaks, the export reads back: it
      has the header and then one line per row, in order, and each line
      splits into the row's seven fields. */
  lemma CsvRoundTrip(v: View)
    requires Csv.Plain(v.labelHeader)
    requires forall r :: r in v.data ==> Csv.Plain(r.period)
    ensures |Text.Split(CsvContent(v), '\n')| == |v.data| + 1
    ensures Text.Split(Text.Split(CsvContent(v), '\n')[0], ',') == HeaderFields(v.labelHeader)
    ensures forall i :: 0 <= i < |v.data| ==>
      Text.Split(Text.Split(CsvContent(v), '\n')[i + 1], ',') == RowFields(v.data[i])
  {
    ExportLinesPlain(v);
    Csv.DocumentReadsBack(ExportLines(v));
  }

  /** With plain labels every field of the export is plain. */
  lemma ExportLinesPlain(v: View)
    requires Csv.Plain(v.labelHeader)
    requires forall r :: r in v.data ==> Csv.Plain(r.period)
    ensures forall i, j :: 0 <= i < |ExportLines(v)| && 0 <= j < |ExportLines(v)[i]| ==> Csv.Plain(ExportLines(v)[i][j])
  {
    var rows := ExportLines(v);
    assert forall j :: 0 <= j < 7 ==> Csv.Plain(rows[0][j]);
    forall i | 1 <= i < |rows| ensures forall j :: 0 <= j < |rows[i]| ==> Csv.Plain(rows[i][j]) {
      var r := v.data[i - 1];
      assert r in v.data;
      RowFieldsPlain(r);
    }
  }

  /** Position of an emotion in the key order. */
  function IndexOf(e: Emotion): (i: nat)
    ensures i < 6 && KeyOrder[i] == e
  {
    match e
    case Feliz => 0
    case Triste => 1
    case Neutral => 2
    case Enojado => 3
    case Sorprendido => 4
    case Amor => 5
  }
}

=== FILE: camera_hook.dfy ===
/** The camera hook of `frontend/hooks/use-camera.ts`: an activation state
    machine over the media stream, the video element's `srcObject`, `isActive`,
    `error` and `hasPermission`. Media streams are named by numbers; the
    browser's answers (`getUserMedia`, `play`, `getContext`, `toDataURL`) are
    parameters. */
module CameraHook {
  import opened Wrappers

  datatype FacingMode = User | Environment

  /** The ideal constraints handed to `getUserMedia`. */
  datatype Constraints = Constraints(width: nat, height: nat, facingMode: FacingMode)

  /** `useCamera(options)`: 640 by 480 from the user-facing camera unless
      overridden. */
  function ConstraintsOf(width: Option<nat>, height: Option<nat>, facingMode: Option<FacingMode>): (c: Constraints)
    ensures width.None? ==> c.width == 640
    ensures height.None? ==> c.height == 480
    ensures facingMode.None? ==> c.facingMode == User
    ensures width.Some? ==> c.width == width.value
    ensures height.Some? ==> c.height == height.value
    ensures facingMode.Some? ==> c.facingMode == facingMode.value
  {
    Constraints(width.GetOr(640), height.GetOr(480), facingMode.GetOr(User))
  }

  /** How `getUserMedia` settles: a stream, or a rejection carrying the
      message of an `Error` (or `None` for any other value). */
  datatype MediaOutcome = Granted(stream: nat) | Denied(message: Option<string>)

  /** How `video.play()` settles. */
  datatype PlayOutcome = Played | PlayRejected(message: Option<string>)

  const CameraErrorMessage: string := "Error al acceder a la cámara"
  const JpegMime: string := "image/jpeg"
  const JpegQuality: real := 0.8

  class Camera {
    const constraints: Constraints
    /** `videoRef.current` and `canvasRef.current` are attached. */
    const videoPresent: bool
    const canvasPresent: bool
    /** `streamRef.current`. */
    var stream: Option<nat>
    /** Streams whose tracks have been stopped. */
    var stopped: set<nat>
    /** `video.srcObject`. */
    var srcObject: Option<nat>
    var canvasWidth: nat
    var canvasHeight: nat
    var isActive: bool
    var error: Option<string>
    var hasPermission: bool

    /** An active camera shows the stream it holds. */
    ghost predicate Valid()
      reads this
    {
      isActive ==> videoPresent && stream.Some? && srcObject == stream
    }

    constructor (constraints: Constraints, videoPresent: bool, canvasPresent: bool)
      ensures Valid()
      ensures this.constraints == constraints
      ensures this.videoPresent == videoPresent && this.canvasPresent == canvasPresent
      ensures stream == None && srcObject == None && stopped == {}
      ensures !isActive && error == None && !hasPermission
    {
      this.constraints := constraints;
      this.videoPresent, this.canvasPresent := videoPresent, canvasPresent;
      stream, stopped, srcObject := None, {}, None;
      canvasWidth, canvasHeight := 0, 0;
      isActive, error, hasPermission := false, None, false;
    }

    /** `stopCamera()`: stop the held stream's tracks, forget it, detach it
        from the video element and deactivate. `error` and `hasPermission`
        are not touched. */
    method StopCamera()
      requires Valid()
      modifies this
      ensures Valid()
      ensures stream == None && !isActive
      ensures srcObject == if videoPresent then None else old(srcObject)
      ensures stopped == old(stopped) + (if old(stream).Some? then {old(stream).value} else {})
      ensures error == old(error) && hasPermission == old(hasPermission)
      ensures canvasWidth == old(canvasWidth) && canvasHeight == old(canvasHeight)
    {
      if stream.Some? {
        stopped := stopped + {stream.value};
        stream := None;
      }
      if videoPresent {
        srcObject := None;
      }
      isActive := false;
    }

    /** `startCamera()` with the answers of `getUserMedia` and, when a video
        element is attached, of `play()`. A rejection at either step sets the
        error and withdraws the permission; a stream that was granted stays
        held even when `play()` rejects. `isActive` is never cleared here. */
    method StartCamera(media: MediaOutcome, play: PlayOutcome)
      requires Valid()
      modifies this
      ensures Valid()
      ensures media.Denied? ==>
        error == Some(media.message.GetOr(CameraErrorMessage)) && !hasPermission &&
        stream == old(stream) && srcObject == old(srcObject) && isActive == old(isActive)
      ensures media.Granted? ==> stream == Some(media.stream)
      ensures media.Granted? && !videoPresent ==>
        error == None && hasPermission && isActive == old(isActive) && srcObject == old(srcObject)
      ensures media.Granted? && videoPresent ==> srcObject == Some(media.stream)
      ensures media.Granted? && videoPresent && play.Played? ==>
        error == None && hasPermission && isActive
      ensures media.Granted? && videoPresent && play.PlayRejected? ==>
        error == Some(play.message.GetOr(CameraErrorMessage)) && !hasPermission && isActive == old(isActive)
      ensures stopped == old(stopped)
      ensures canvasWidth == old(canvasWidth) && canvasHeight == old(canvasHeight)
    {
      error := None;
      match media {
        case Denied(message) =>
          error := Some(message.GetOr(CameraErrorMessage));
          hasPermission := false;
        case Granted(s) =>
          stream := Some(s);
          hasPermission := true;
          if videoPresent {
            srcObject := Some(s);
            match play {
              case Played =>
                isActive := true;
              case PlayRejected(message) =>
                error := Some(message.GetOr(CameraErrorMessage));
                hasPermission := false;
            }
          }
      }
    }

    /** `captureFrame()`: null unless a video element and a canvas are
        attached and the camera is active; otherwise size the canvas to the
        video, and return the JPEG data URL at quality 0.8, or null when
        there is no 2D context or encoding throws. `encode` stands for
        `canvas.toDataURL` on the drawn canvas. */
    method CaptureFrame(videoWidth: nat, videoHeight: nat, hasContext: bool,
                        encode: (nat, nat, string, real) -> Option<string>)
      returns (frame: Option<string>)
      requires Valid()
      modifies this
      ensures Valid()
      ensures !videoPresent || !canvasPresent || !isActive ==>
        frame == None && canvasWidth == old(canvasWidth) && canvasHeight == old(canvasHeight)
      ensures videoPresent && canvasPresent && isActive ==>
        canvasWidth == videoWidth && canvasHeight == videoHeight &&
        frame == (if hasContext then encode(videoWidth, videoHeight, JpegMime, JpegQuality) else None)
      ensures stream == old(stream) && srcObject == old(srcObject) && stopped == old(stopped)
      ensures isActive == old(isActive) && error == old(error) && hasPermission == old(hasPermission)
    {
      if !videoPresent || !canvasPresent || !isActive {
        return None;
      }
      canvasWidth, canvasHeight := videoWidth, videoHeight;
      if !hasContext {
        return None;
      }
      frame := encode(canvasWidth, canvasHeight, JpegMime, JpegQuality);
    }

    /** The `visibilitychange` listener: a page that becomes hidden while the
        camera is active stops it. */
    method VisibilityChange(hidden: bool)
      requires Valid()
      modifies this
      ensures Valid()
      ensures hidden && old(isActive) ==> stream == None && !isActive
      ensures hidden && old(isActive) ==> srcObject == None
      ensures hidden && old(isActive) ==> stopped == old(stopped) + {old(stream).value}
      ensures !(hidden && old(isActive)) ==>
        stream == old(stream) && srcObject == old(srcObject) && stopped == old(stopped) &&
        isActive == old(isActive)
      ensures error == old(error) && hasPermission == old(hasPermission)
      ensures canvasWidth == old(canvasWidth) && canvasHeight == old(canvasHeight)
    {
      if hidden && isActive {
        StopCamera();
      }
    }

    /** The unmount cleanup stops the camera. */
    method Unmount()
      requires Valid()
      modifies this
      ensures Valid()
      ensures stream == None && !isActive
      ensures old(stream).Some? ==> old(stream).value in stopped
      ensures srcObject == if videoPresent then None else old(srcObject)
      ensures stopped == old(stopped) + (if old(stream).Some? then {old(stream).value} else {})
      ensures error == old(error) && hasPermission == old(hasPermission)
      ensures canvasWidth == old(canvasWidth) && canvasHeight == old(canvasHeight)
    {
      StopCamera();
    }
  }

  /** Stopping is idempotent, and a stopped camera captures nothing: after
      two stops and a capture every field holds the value one stop gives. */
  method StopThenCapture(c: Camera, w: nat, h: nat, encode: (nat, nat, string, real) -> Option<string>)
    returns (frame: Option<string>)
    requires c.Valid()
    modifies c
    ensures c.Valid()
    ensures frame == None
    ensures c.stream == None && !c.isActive
    ensures c.srcObject == if c.videoPresent then None else old(c.srcObject)
    ensures c.stopped == old(c.stopped) + (if old(c.stream).Some? then {old(c.stream).value} else {})
    ensures c.error == old(c.error) && c.hasPermission == old(c.hasPermission)
    ensures c.canvasWidth == old(c.canvasWidth) && c.canvasHeight == old(c.canvasHeight)
  {
    c.StopCamera();
    var once := (c.stream, c.srcObject, c.stopped);
    c.StopCamera();
    assert c.stream == once.0 && c.srcObject == once.1 && c.stopped == once.2;
    frame := c.CaptureFrame(w, h, true, encode);
  }

  /** A rejected `play()` leaves the granted stream held and attached while
      the permission is withdrawn and the camera stays inactive. */
  method PlayRejectedKeepsStream() {
    var c := new Camera(ConstraintsOf(None, None, None), true, true);
    c.StartCamera(Granted(7), PlayRejected(None));
    assert c.stream == Some(7) && c.srcObject == Some(7) && 7 !in c.stopped;
    assert !c.hasPermission && !c.isActive && c.error == Some(CameraErrorMessage);
  }
}

=== FILE: csv.dfy ===
/** The comma-separated exports of the analytics page, the history page and
    the history panel: each line is `fields.join(",")` and the lines are
    joined with `"\n"`; no field is quoted or escaped. */
module Csv {
  import Text

  /** `lines.map(fields => fields.join(",")).join("\n")`: the first line
      opens the document. */
  function Document(lines: seq<seq<string>>): (d: string)
    ensures |lines| >= 1 ==> Text.Join(lines[0], ',') <= d
  {
    Text.Join(seq(|lines|, i requires 0 <= i < |lines| => Text.Join(lines[i], ',')), '\n')
  }

  /** A field that needs no quoting. */
  predicate Plain(field: string) {
    ',' !in field && '\n' !in field
  }

  /** A document whose fields are all plain reads back: splitting on line
      breaks gives one line per row and splitting each line on commas gives
      its fields. */
  lemma DocumentReadsBack(lines: seq<seq<string>>)
    requires |lines| >= 1
    requires forall i :: 0 <= i < |lines| ==> |lines[i]| >= 1
    requires forall i, j :: 0 <= i < |lines| && 0 <= j < |lines[i]| ==> Plain(lines[i][j])
    ensures |Text.Split(Document(lines), '\n')| == |lines|
    ensures forall i :: 0 <= i < |lines| ==> Text.Split(Text.Split(Document(lines), '\n')[i], ',') == lines[i]
  {
    var joined := seq(|lines|, i requires 0 <= i < |lines| => Text.Join(lines[i], ','));
    forall i | 0 <= i < |lines|
      ensures '\n' !in joined[i] && Text.Split(joined[i], ',') == lines[i]
    {
      Text.JoinHasNo(lines[i], ',', '\n');
      Text.SplitJoin(lines[i], ',');
    }
    Text.SplitJoin(joined, '\n');
  }
}

=== FILE: emotion_chart.dfy ===
/** The folds behind `EmotionChart` in `frontend/components/emotion-chart.tsx`:
    per-emotion counts, the bar and pie series built from them, and the
    "Mayor %" figure. Labels and colours are presentation and not modelled. */
module EmotionChart {
  import opened Vocabulary
  import Seqs
  import Rounding

  /** One item of the `data` prop; the timestamp is in milliseconds. */
  datatype Reading = Reading(emotion: Emotion, confidence: real, timestamp: int)

  /** One bar of `chartData`. */
  datatype ChartItem = ChartItem(emotion: Emotion, count: nat, percentage: nat)

  /** One slice of `pieData`: the bar with `value` copied from `count`. */
  datatype PieItem = PieItem(item: ChartItem, value: nat)

  function EmotionsOf(data: seq<Reading>): (es: seq<Emotion>)
    ensures |es| == |data| && forall i :: 0 <= i < |data| ==> es[i] == data[i].emotion
  {
    seq(|data|, i requires 0 <= i < |data| => data[i].emotion)
  }

  lemma EmotionsSnoc(data: seq<Reading>, r: Reading)
    ensures EmotionsOf(data + [r]) == EmotionsOf(data) + [r.emotion]
  {
  }

  /** `emotionCounts`: `data.reduce` with `acc[e] = (acc[e] || 0) + 1`. */
  function EmotionCounts(data: seq<Reading>): (m: map<Emotion, nat>)
    ensures forall e :: e in m <==> e in EmotionsOf(data)
    ensures forall e :: e in m ==> m[e] == multiset(EmotionsOf(data))[e] && m[e] >= 1
  {
    if data == [] then map[]
    else
      var init, e := data[..|data| - 1], data[|data| - 1].emotion;
      assert data == init + [data[|data| - 1]];
      EmotionsSnoc(init, data[|data| - 1]);
      var m := EmotionCounts(init);
      m[e := (if e in m then m[e] else 0) + 1]
  }

  /** A count never exceeds the number of readings. */
  lemma {:induction false} CountAtMostLength<T>(s: seq<T>, x: T)
    ensures multiset(s)[x] <= |s|
  {
    if s != [] {
      CountAtMostLength(s[1..], x);
      assert s == [s[0]] + s[1..];
      assert multiset(s) == multiset{s[0]} + multiset(s[1..]);
    }
  }

  /** `chartData`: one bar per emotion present, in the order the emotions
      first appear (`Object.entries` follows insertion order), with its
      count and its rounded share of all readings. */
  function ChartData(data: seq<Reading>): (items: seq<ChartItem>)
    ensures |items| == |Seqs.Keys(EmotionsOf(data))|
    ensures forall i :: 0 <= i < |items| ==>
      items[i].emotion == Seqs.Keys(EmotionsOf(data))[i] &&
      items[i].count == multiset(EmotionsOf(data))[items[i].emotion] && items[i].count >= 1 &&
      items[i].percentage == Rounding.RoundPercent(items[i].count, |data|) && items[i].percentage <= 100
  {
    var keys := Seqs.Keys(EmotionsOf(data));
    var counts := EmotionCounts(data);
    forall e | e in keys
      ensures counts[e] <= |data|
    {
      CountAtMostLength(EmotionsOf(data), e);
    }
    seq(|keys|, i requires 0 <= i < |keys| =>
      ChartItem(keys[i], counts[keys[i]], Rounding.RoundPercent(counts[keys[i]], |data|)))
  }

  /** There is a bar for an emotion exactly when some reading has it, and
      no emotion has two bars. */
  lemma ChartDataCoversPresent(data: seq<Reading>, e: Emotion)
    ensures e in EmotionsOf(data) <==> exists i :: 0 <= i < |ChartData(data)| && ChartData(data)[i].emotion == e
    ensures forall i, j :: 0 <= i < j < |ChartData(data)| ==> ChartData(data)[i].emotion != ChartData(data)[j].emotion
  {
    var keys := Seqs.Keys(EmotionsOf(data));
    var items := ChartData(data);
    if e in EmotionsOf(data) {
      var i :| 0 <= i < |keys| && keys[i] == e;
      assert items[i].emotion == e;
    }
    assert Seqs.Distinct(keys);
  }

  /** Sum of the bar counts. */
  function TotalCount(items: seq<ChartItem>): nat {
    if items == [] then 0 else TotalCount(items[..|items| - 1]) + items[|items| - 1].count
  }

  lemma {:induction false} TotalCountIsSumCounts(items: seq<ChartItem>, keys: seq<Emotion>, m: multiset<Emotion>)
    requires |items| == |keys|
    requires forall i :: 0 <= i < |items| ==> items[i].count == m[keys[i]]
    ensures TotalCount(items) == Seqs.SumCounts(keys, m)
  {
    if items != [] {
      TotalCountIsSumCounts(items[..|items| - 1], keys[..|keys| - 1], m);
    }
  }

  /** The bars account for every reading exactly once. */
  lemma ChartCountsSumToLength(data: seq<Reading>)
    ensures TotalCount(ChartData(data)) == |data|
  {
    var keys := Seqs.Keys(EmotionsOf(data));
    TotalCountIsSumCounts(ChartData(data), keys, multiset(EmotionsOf(data)));
    Seqs.KeysCountsSum(EmotionsOf(data));
  }

  /** The empty-state message shows exactly when there is no data. */
  lemma EmptyChartIffNoData(data: seq<Reading>)
    ensures ChartData(data) == [] <==> data == []
  {
    if data != [] {
      assert data[0].emotion in EmotionsOf(data);
    }
  }

  /** `pieData`: the bars in the same order, each with `value == count`. */
  function PieData(items: seq<ChartItem>): (pie: seq<PieItem>)
    ensures |pie| == |items|
    ensures forall i :: 0 <= i < |items| ==> pie[i].item == items[i] && pie[i].value == items[i].count
  {
    seq(|items|, i requires 0 <= i < |items| => PieItem(items[i], items[i].count))
  }

  /** The pie slices add up to the number of readings, like the bars. */
  lemma PieValuesSumToLength(data: seq<Reading>)
    ensures PieTotal(PieData(ChartData(data))) == |data|
  {
    var items := ChartData(data);
    PieTotalIsTotalCount(PieData(items), items);
    ChartCountsSumToLength(data);
  }

  function PieTotal(pie: seq<PieItem>): nat {
    if pie == [] then 0 else PieTotal(pie[..|pie| - 1]) + pie[|pie| - 1].value
  }

  lemma {:induction false} PieTotalIsTotalCount(pie: seq<PieItem>, items: seq<ChartItem>)
    requires |pie| == |items| && forall i :: 0 <= i < |pie| ==> pie[i].value == items[i].count
    ensures PieTotal(pie) == TotalCount(items)
  {
    if pie != [] {
      PieTotalIsTotalCount(pie[..|pie| - 1], items[..|items| - 1]);
    }
  }

  /** "Mayor %": `Math.max(...percentages)`, or 0 without bars. */
  function MaxPercentage(items: seq<ChartItem>): (r: nat)
    ensures items == [] ==> r == 0
    ensures forall i :: 0 <= i < |items| ==> items[i].percentage <= r
    ensures items != [] ==> exists i :: 0 <= i < |items| && items[i].percentage == r
  {
    if items == [] then 0
    else
      var m := MaxPercentage(items[..|items| - 1]);
      var last := items[|items| - 1].percentage;
      if |items| > 1 && m >= last then
        assert forall i :: 0 <= i < |items| - 1 ==> items[..|items| - 1][i] == items[i];
        m
      else
        assert forall i :: 0 <= i < |items| - 1 ==> items[..|items| - 1][i] == items[i];
        last
  }

  /** The largest share shown is at most 100. */
  lemma MaxPercentageAtMost100(data: seq<Reading>)
    ensures MaxPercentage(ChartData(data)) <= 100
  {
    var items := ChartData(data);
    if items != [] {
      var i :| 0 <= i < |items| && items[i].percentage == MaxPercentage(items);
    }
  }
}

=== FILE: emotion_detection_hook.dfy ===
/** The polling detection hook of `frontend/hooks/use-emotion-detection.ts`.
    The HTTP request is split into the moment it is issued (`DetectEmotion`)
    and the moment its outcome arrives (`CompleteDetection`); the interval
    timer is a flag whose ticks are calls of `Tick`. */
module DetectionHook {
  import opened Wrappers
  import Text

  /** A reading as stored in `currentEmotion`. `emotion` is the backend's
      `clase`, which the hook casts to its emotion type without checking. */
  datatype Detection = Detection(emotion: string, confidence: real, timestamp: int, scores: map<string, real>)

  /** The JSON body of an OK response. */
  datatype ResponseBody = ResponseBody(
    success: bool,
    faceDetected: bool,
    clase: string,
    confianza: real,
    scores: map<string, real>,
    errorMessage: Option<string>)

  /** How one request ends: a non-OK status, an exception (with the message
      of an `Error` instance, or `None` for any other thrown value), or an
      OK response with a parsed body. */
  datatype RequestOutcome = HttpNotOk(status: nat) | Thrown(message: Option<string>) | Answered(body: ResponseBody)

  /** What a completed request does: a reading for `currentEmotion` and
      `onDetection`, or a message for `error` and `onError`. */
  datatype Verdict = Detected(reading: Detection) | Failed(message: string)

  const NoFaceMessage: string := "No se detectó ningún rostro"
  const DefaultErrorMessage: string := "Error al detectar emoción"
  const HttpErrorPrefix: string := "HTTP error! status: "

  /** The message of the `Error` thrown for a non-OK status. */
  function HttpErrorMessage(status: nat): (m: string)
    ensures |m| > |HttpErrorPrefix| && m[..|HttpErrorPrefix|] == HttpErrorPrefix
  {
    HttpErrorPrefix + Text.NatToString(status)
  }

  /** The status can be read back from the message, so distinct statuses give
      distinct messages. */
  lemma HttpErrorMessageNamesStatus(status: nat)
    ensures Text.ParseIntPrefix(HttpErrorMessage(status)[|HttpErrorPrefix|..]) == Some(status)
  {
    var m := HttpErrorMessage(status);
    assert m[|HttpErrorPrefix|..] == Text.NatToString(status) + "";
    Text.ParseIntPrefixOfRendered(status, "");
  }

  /** The outcome handling inside `detectEmotion`'s `try`/`catch`. */
  function Judge(o: RequestOutcome, now: int): (v: Verdict)
    ensures v.Detected? <==> o.Answered? && o.body.success && o.body.faceDetected
    ensures v.Detected? ==>
      v.reading == Detection(o.body.clase, o.body.confianza, now, o.body.scores)
    ensures o.HttpNotOk? ==> v == Failed(HttpErrorMessage(o.status))
    ensures o.Thrown? ==> v == Failed(o.message.GetOr(DefaultErrorMessage))
    ensures o.Answered? && v.Failed? ==>
      (v.message == NoFaceMessage <==> o.body.errorMessage.None? || o.body.errorMessage.value in {"", NoFaceMessage})
    ensures o.Answered? && !(o.body.success && o.body.faceDetected) ==>
      v == Failed(if o.body.errorMessage.Some? && o.body.errorMessage.value != "" then o.body.errorMessage.value else NoFaceMessage)
  {
    match o
    case HttpNotOk(status) => Failed(HttpErrorMessage(status))
    case Thrown(message) => Failed(message.GetOr(DefaultErrorMessage))
    case Answered(body) =>
      if body.success && body.faceDetected then
        Detected(Detection(body.clase, body.confianza, now, body.scores))
      else if body.errorMessage.Some? && body.errorMessage.value != "" then
        Failed(body.errorMessage.value)
      else
        Failed(NoFaceMessage)
  }

  /** Every failure carries a non-empty message, except an `Error` thrown
      with an empty message. */
  lemma FailureMessageNonEmpty(o: RequestOutcome, now: int)
    requires Judge(o, now).Failed?
    requires o != Thrown(Some(""))
    ensures Judge(o, now).message != ""
  {
  }

  /** A frame is sent only when `captureFrame` returned a non-empty string. */
  predicate Sendable(frame: Option<string>) {
    frame.Some? && frame.value != ""
  }

  class EmotionDetection {
    /** `options.interval`, 2000 by default. */
    const interval: nat
    var currentEmotion: Option<Detection>
    var isDetecting: bool
    var error: Option<string>
    /** `isDetectingRef.current`: a request is in flight. */
    var inFlight: bool
    /** `intervalRef.current` holds a running interval. */
    var intervalActive: bool

    ghost predicate Valid()
      reads this
    {
      intervalActive ==> isDetecting
    }

    constructor (interval: Option<nat>)
      ensures Valid()
      ensures this.interval == interval.GetOr(2000)
      ensures currentEmotion == None && !isDetecting && error == None && !inFlight && !intervalActive
    {
      this.interval := interval.GetOr(2000);
      currentEmotion, isDetecting, error := None, false, None;
      inFlight, intervalActive := false, false;
    }

    /** `detectEmotion(frame)` up to its first `await`: a request is issued
        only when none is in flight; an overlapping call is dropped. */
    method DetectEmotion(frame: string) returns (sent: bool)
      requires Valid()
      modifies this
      ensures Valid()
      ensures sent == !old(inFlight)
      ensures inFlight
      ensures currentEmotion == old(currentEmotion) && error == old(error)
      ensures isDetecting == old(isDetecting) && intervalActive == old(intervalActive)
    {
      if inFlight {
        return false;
      }
      inFlight := true;
      return true;
    }

    /** The rest of `detectEmotion` once the outcome is known. The `finally`
        clause clears the in-flight flag on every path. Returns the argument
        passed to `onDetection` and to `onError`, when either is called. */
    method CompleteDetection(o: RequestOutcome, now: int)
      returns (detected: Option<Detection>, reported: Option<string>)
      requires Valid() && inFlight
      modifies this
      ensures Valid()
      ensures !inFlight
      ensures Judge(o, now).Detected? ==>
        currentEmotion == Some(Judge(o, now).reading) && error == None &&
        detected == Some(Judge(o, now).reading) && reported == None
      ensures Judge(o, now).Failed? ==>
        currentEmotion == old(currentEmotion) && error == Some(Judge(o, now).message) &&
        detected == None && reported == Some(Judge(o, now).message)
      ensures isDetecting == old(isDetecting) && intervalActive == old(intervalActive)
    {
      var v := Judge(o, now);
      match v {
        case Detected(reading) =>
          currentEmotion := Some(reading);
          error := None;
          detected, reported := Some(reading), None;
        case Failed(message) =>
          error := Some(message);
          detected, reported := None, Some(message);
      }
      inFlight := false;
    }

    /** One tick of the interval (and the immediate tick of `startDetection`):
        capture a frame and detect on it when it is non-empty. */
    method Tick(frame: Option<string>) returns (sent: bool)
      requires Valid()
      modifies this
      ensures Valid()
      ensures sent <==> Sendable(frame) && !old(inFlight)
      ensures inFlight == (old(inFlight) || Sendable(frame))
      ensures currentEmotion == old(currentEmotion) && error == old(error)
      ensures isDetecting == old(isDetecting) && intervalActive == old(intervalActive)
    {
      sent := false;
      if Sendable(frame) {
        sent := DetectEmotion(frame.value);
      }
    }

    /** `startDetection(captureFrame)`: nothing when already detecting;
        otherwise start, clear the error, tick once at once and start the
        interval. `frame` is what the immediate tick captures. */
    method StartDetection(frame: Option<string>) returns (sent: bool)
      requires Valid()
      modifies this
      ensures Valid()
      ensures old(isDetecting) ==>
        !sent && inFlight == old(inFlight) && error == old(error) &&
        isDetecting && intervalActive == old(intervalActive)
      ensures !old(isDetecting) ==>
        isDetecting && intervalActive && error == None &&
        (sent <==> Sendable(frame) && !old(inFlight)) &&
        inFlight == (old(inFlight) || Sendable(frame))
      ensures currentEmotion == old(currentEmotion)
    {
      if isDetecting {
        return false;
      }
      isDetecting := true;
      error := None;
      sent := Tick(frame);
      intervalActive := true;
    }

    /** `stopDetection()`: clear the interval and stop; the reading, the error
        and an in-flight request are left alone. */
    method StopDetection()
      requires Valid()
      modifies this
      ensures Valid()
      ensures !isDetecting && !intervalActive
      ensures currentEmotion == old(currentEmotion) && error == old(error) && inFlight == old(inFlight)
    {
      intervalActive := false;
      isDetecting := false;
    }

    /** The unmount cleanup: only the interval is cleared. */
    method Unmount()
      requires Valid()
      modifies this
      ensures Valid()
      ensures !intervalActive
      ensures isDetecting == old(isDetecting) && currentEmotion == old(currentEmotion)
      ensures error == old(error) && inFlight == old(inFlight)
    {
      intervalActive := false;
    }
  }

  /** Stopping twice is the same as stopping once: the whole state after the
      second stop is the state one stop leaves. */
  method StopDetectionIdempotent(d: EmotionDetection)
    requires d.Valid()
    modifies d
    ensures d.Valid()
    ensures !d.isDetecting && !d.intervalActive
    ensures d.currentEmotion == old(d.currentEmotion) && d.error == old(d.error)
    ensures d.inFlight == old(d.inFlight)
  {
    d.StopDetection();
    var once := (d.currentEmotion, d.error, d.inFlight);
    d.StopDetection();
    assert (d.currentEmotion, d.error, d.inFlight) == once;
  }

  /** Ticks that fall while a request is in flight are dropped, not queued:
      the next request goes out only on a tick after the outcome arrived. */
  method OverlappingTicksDropped() {
    var d := new EmotionDetection(None);
    assert d.interval == 2000;
    var first := d.StartDetection(Some("frame-1"));
    assert first && d.inFlight;
    var second := d.Tick(Some("frame-2"));
    assert !second;
    var _, _ := d.CompleteDetection(HttpNotOk(500), 0);
    assert d.error == Some(HttpErrorMessage(500)) && d.currentEmotion == None;
    var third := d.Tick(Some("frame-3"));
    assert third;
    var empty := d.Tick(Some(""));
    assert !empty;
  }
}

=== FILE: emotion_history_hook.dfy ===
/** The bounded emotion history of `useEmotionHistory`: an append-only log
    capped at `maxSize` entries with first-in-first-out eviction, and the
    statistics, recent-window and filter queries computed from it. */
module EmotionHistoryHook {
  import opened Wrappers
  import opened Vocabulary
  import Seqs

  /** One recorded reading; the timestamp is in milliseconds. */
  datatype EmotionData = EmotionData(
    emotion: Emotion,
    confidence: real,
    timestamp: int,
    scores: Option<map<string, real>>)

  /** The result of `getStats`. `order` is the key order of the
      `distribution` object (the order in which classes first appear), which
      `Object.entries` follows. */
  datatype EmotionStats = EmotionStats(
    total: nat,
    order: seq<Emotion>,
    distribution: map<Emotion, nat>,
    percentages: map<Emotion, real>,
    dominant: Option<Emotion>,
    averageConfidence: real)

  /** The emotion column of a history. */
  function EmotionsOf(h: seq<EmotionData>): (r: seq<Emotion>)
    ensures |r| == |h| && forall i :: 0 <= i < |h| ==> r[i] == h[i].emotion
  {
    seq(|h|, i requires 0 <= i < |h| => h[i].emotion)
  }

  /** Sum of the confidences, accumulated from the front. */
  function SumConfidence(h: seq<EmotionData>): real {
    if h == [] then 0.0 else SumConfidence(h[..|h| - 1]) + h[|h| - 1].confidence
  }

  /** `s.slice(-n)` for every integer `n`: a suffix of `s`; for `n >= 1` the
      last `min(n, |s|)` elements, for `n == 0` (JavaScript's `-0` is `0`)
      all of `s`, and for `n < 0` all but the first `-n`. */
  function SliceFromEnd<T>(s: seq<T>, n: int): (r: seq<T>)
    ensures |r| <= |s| && r == s[|s| - |r|..]
    ensures n >= 1 ==> |r| == (if n < |s| then n else |s|)
    ensures n == 0 ==> r == s
    ensures n < 0 ==> |r| == (if -n < |s| then |s| + n else 0)
  {
    var start :=
      if n > 0 then (if n < |s| then |s| - n else 0)
      else if n == 0 then 0
      else (if -n < |s| then -n else |s|);
    s[start..]
  }

  /** The state held by one `useEmotionHistory(maxSize)` instance. */
  class EmotionHistory {
    var history: seq<EmotionData>
    const maxSize: int

    /** With a positive capacity the log never exceeds it. */
    ghost predicate Bounded()
      reads this
    {
      maxSize >= 1 ==> |history| <= maxSize
    }

    /** `useEmotionHistory(maxSize = 500)`. */
    constructor (maxSize: Option<int>)
      ensures this.maxSize == maxSize.GetOr(500) && history == []
      ensures Bounded()
    {
      this.maxSize := maxSize.GetOr(500);
      history := [];
    }

    /** `addEmotion`: append, then keep `slice(-maxSize)`. */
    method AddEmotion(e: EmotionData)
      modifies this
      ensures history == SliceFromEnd(old(history) + [e], maxSize)
      ensures old(Bounded()) ==> Bounded()
      ensures maxSize >= 1 ==> history != [] && history[|history| - 1] == e
      ensures maxSize >= 1 && |old(history)| < maxSize ==> history == old(history) + [e]
      ensures maxSize >= 1 && |old(history)| == maxSize ==> history == old(history)[1..] + [e]
    {
      var r := SliceFromEnd(history + [e], maxSize);
      if maxSize >= 1 {
        AppendWindow(history, e, maxSize);
      }
      history := r;
    }

    /** `clearHistory`. */
    method ClearHistory()
      modifies this
      ensures history == [] && Bounded()
    {
      history := [];
    }

    /** `getStats`: one pass accumulating per-class counts (in first-appearance
        key order) and the confidence sum, then percentages, the dominant
        class and the mean confidence. */
    method GetStats() returns (st: EmotionStats)
      ensures history == [] ==> st == EmotionStats(0, [], map[], map[], None, 0.0)
      ensures st.total == |history|
      ensures st.order == Seqs.Keys(EmotionsOf(history))
      ensures forall e :: e in st.distribution <==> e in EmotionsOf(history)
      ensures forall e :: e in st.distribution ==>
                st.distribution[e] == multiset(EmotionsOf(history))[e] && st.distribution[e] >= 1
      ensures st.percentages.Keys == st.distribution.Keys
      ensures forall e :: e in st.percentages ==>
                st.percentages[e] == (st.distribution[e] as real) / (|history| as real) * 100.0
      ensures history != [] ==> st.dominant.Some? && LatestMaximum(st.order, st.distribution, st.dominant.value)
      ensures history != [] ==> st.averageConfidence == SumConfidence(history) / (|history| as real)
    {
      if |history| == 0 {
        return EmotionStats(0, [], map[], map[], None, 0.0);
      }
      var order, distribution, totalConfidence := Tally(history);
      var es := EmotionsOf(history);
      var n := |history| as real;
      var percentages := map e | e in distribution :: (distribution[e] as real) / n * 100.0;
      var d := Seqs.LastMaxIndex(order, distribution);
      ReduceKeepsLatestMaximum(order, distribution);
      forall e | e in distribution ensures distribution[e] >= 1 {
        assert e in multiset(es);
      }
      st := EmotionStats(|history|, order, distribution, percentages, Some(order[d]), totalConfidence / n);
    }

    /** `getRecentHistory(count)`: `history.slice(-count)`. */
    function GetRecentHistory(count: int): (r: seq<EmotionData>)
      reads this
      ensures |r| <= |history| && r == history[|history| - |r|..]
      ensures count >= 1 ==> |r| == (if count < |history| then count else |history|)
      ensures count == 0 ==> r == history
    {
      SliceFromEnd(history, count)
    }

    /** `filterByEmotion(emotion)`: the readings of that class, in order. */
    function FilterByEmotion(emotion: Emotion): (r: seq<EmotionData>)
      reads this
      ensures forall x :: x in r <==> x in history && x.emotion == emotion
      ensures Seqs.Subsequence(r, history)
    {
      var p := (x: EmotionData) => x.emotion == emotion;
      Seqs.FilterSubsequence(history, p);
      FilterMembers(history, p);
      Seqs.Filter(history, p)
    }

    /** `filterByTimeRange(start, end)`: readings with `start <= t <= end`. */
    function FilterByTimeRange(startTime: int, endTime: int): (r: seq<EmotionData>)
      reads this
      ensures forall x :: x in r <==> x in history && startTime <= x.timestamp <= endTime
      ensures Seqs.Subsequence(r, history)
    {
      var p := (x: EmotionData) => startTime <= x.timestamp && x.timestamp <= endTime;
      Seqs.FilterSubsequence(history, p);
      FilterMembers(history, p);
      Seqs.Filter(history, p)
    }
  }

  /** The `forEach` pass of `getStats`: per-class counts keyed in order of
      first appearance, and the running sum of confidences. */
  method Tally(history: seq<EmotionData>) returns (order: seq<Emotion>, distribution: map<Emotion, nat>, totalConfidence: real)
    ensures order == Seqs.Keys(EmotionsOf(history))
    ensures forall e :: e in distribution <==> e in EmotionsOf(history)
    ensures forall e :: e in distribution ==> distribution[e] == multiset(EmotionsOf(history))[e]
    ensures totalConfidence == SumConfidence(history)
  {
    var es := EmotionsOf(history);
    order, distribution, totalConfidence := [], map[], 0.0;
    var i := 0;
    while i < |history|
      invariant 0 <= i <= |history|
      invariant Counted(es[..i], order, distribution)
      invariant totalConfidence == SumConfidence(history[..i])
    {
      var item := history[i];
      TallySnoc(history, i);
      order, distribution := CountStep(es[..i], item.emotion, order, distribution);
      totalConfidence := totalConfidence + item.confidence;
      i := i + 1;
    }
    assert es[..i] == es;
    assert history[..i] == history;
    assert Counted(es, order, distribution);
  }

  /** Extending the prefix by one reading extends its emotion column and its
      confidence sum by that reading. */
  lemma TallySnoc(history: seq<EmotionData>, i: nat)
    requires i < |history|
    ensures EmotionsOf(history)[..i + 1] == EmotionsOf(history)[..i] + [history[i].emotion]
    ensures SumConfidence(history[..i + 1]) == SumConfidence(history[..i]) + history[i].confidence
  {
    assert history[..i + 1][..i] == history[..i];
  }

  /** `order` and `distribution` are the key order and the per-class counts
      of `done`. */
  ghost predicate Counted(done: seq<Emotion>, order: seq<Emotion>, distribution: map<Emotion, nat>) {
    && order == Seqs.Keys(done)
    && (forall e :: e in distribution <==> e in done)
    && (forall e :: e in distribution ==> distribution[e] == multiset(done)[e])
  }

  /** One step of the counting pass: `distribution[emotion] =
      (distribution[emotion] || 0) + 1`, where a class seen for the first
      time also becomes the last key. */
  method CountStep(done: seq<Emotion>, x: Emotion, order: seq<Emotion>, distribution: map<Emotion, nat>)
    returns (order': seq<Emotion>, distribution': map<Emotion, nat>)
    requires Counted(done, order, distribution)
    ensures Counted(done + [x], order', distribution')
  {
    Seqs.KeysSnoc(done, x);
    var previous := if x in distribution then distribution[x] else 0;
    order' := if x in distribution then order else order + [x];
    distribution' := distribution[x := previous + 1];
  }

  /** `d` is the class `reduce((a, b) => a[1] > b[1] ? a : b)` keeps: its count
      is maximal, and every class whose first appearance comes later has a
      strictly smaller count (ties go to the later key). */
  ghost predicate LatestMaximum(order: seq<Emotion>, counts: map<Emotion, nat>, d: Emotion)
    requires forall e :: e in order ==> e in counts
  {
    exists i :: 0 <= i < |order| && order[i] == d &&
      (forall j :: 0 <= j < |order| ==> counts[order[j]] <= counts[d]) &&
      (forall j :: i < j < |order| ==> counts[order[j]] < counts[d])
  }

  /** The `reduce` picks a latest maximum. */
  lemma ReduceKeepsLatestMaximum(order: seq<Emotion>, counts: map<Emotion, nat>)
    requires |order| > 0 && forall e :: e in order ==> e in counts
    ensures LatestMaximum(order, counts, order[Seqs.LastMaxIndex(order, counts)])
  {
  }

  lemma FilterMembers(s: seq<EmotionData>, p: EmotionData -> bool)
    ensures forall x :: x in Seqs.Filter(s, p) <==> x in s && p(x)
  {
    forall x | x in s && p(x) ensures x in Seqs.Filter(s, p) {
      Seqs.FilterComplete(s, p, x);
    }
  }

  /** The per-class counts of `getStats` add up to the number of readings. */
  lemma CountsSumToTotal(h: seq<EmotionData>)
    ensures Seqs.SumCounts(Seqs.Keys(EmotionsOf(h)), multiset(EmotionsOf(h))) == |h|
  {
    Seqs.KeysCountsSum(EmotionsOf(h));
  }

  /** The per-class counts, each scaled by `100 / n`, add up to exactly 100. */
  lemma PercentagesSumTo100(h: seq<EmotionData>)
    requires h != []
    ensures Seqs.SumScaled(Seqs.Keys(EmotionsOf(h)), multiset(EmotionsOf(h)), 100.0 / (|h| as real)) == 100.0
  {
    var n := |h| as real;
    assert n * (100.0 / n) == 100.0;
    Seqs.KeysScaledSumIsWhole(EmotionsOf(h), 100.0 / n, 100.0);
  }

  /** The percentages of any statistics that `getStats` returns for a
      non-empty history (its postconditions are the requirements here),
      read in key order, add up to exactly 100. */
  lemma StatsPercentagesSumTo100(h: seq<EmotionData>, st: EmotionStats)
    requires h != [] && st.order == Seqs.Keys(EmotionsOf(h))
    requires forall e :: e in st.distribution <==> e in EmotionsOf(h)
    requires forall e :: e in st.distribution ==> st.distribution[e] == multiset(EmotionsOf(h))[e]
    requires st.percentages.Keys == st.distribution.Keys
    requires forall e :: e in st.percentages ==> st.percentages[e] == (st.distribution[e] as real) / (|h| as real) * 100.0
    ensures Seqs.SumValues(st.order, st.percentages) == 100.0
  {
    forall k | k in st.order
      ensures k in st.distribution
    {
      assert k in EmotionsOf(h);
    }
    Seqs.SumPercentages(st.order, st.distribution, st.percentages, multiset(EmotionsOf(h)), |h|, 100.0 / (|h| as real));
    PercentagesSumTo100(h);
  }

  /** For a positive capacity, appending keeps the newest `min(|s| + 1, m)`
      readings: the new one is last, and when the log was full exactly the
      oldest reading is dropped. */
  lemma AppendWindow(s: seq<EmotionData>, e: EmotionData, m: int)
    requires m >= 1
    ensures var r := SliceFromEnd(s + [e], m);
      |r| == (if |s| + 1 < m then |s| + 1 else m) &&
      r != [] && r[|r| - 1] == e &&
      (|s| < m ==> r == s + [e]) &&
      (|s| == m ==> r == s[1..] + [e])
  {
    var r := SliceFromEnd(s + [e], m);
    assert r == (s + [e])[|s| + 1 - |r|..];
    if |s| == m {
      assert (s + [e])[1..] == s[1..] + [e];
    }
  }

  /** A capacity of 0 evicts nothing: `slice(-0)` keeps the whole array, so
      `useEmotionHistory(0)` grows without bound. */
  lemma ZeroCapacityNeverEvicts(s: seq<EmotionData>, e: EmotionData)
    ensures SliceFromEnd(s + [e], 0) == s + [e]
  {
  }

  /** `getRecentHistory(0)` returns the whole history, not an empty list. */
  lemma RecentZeroIsEverything(s: seq<EmotionData>)
    ensures SliceFromEnd(s, 0) == s
  {
  }

  /** Two classes tied at two readings each, `feliz` seen first: `getStats`
      names `triste` dominant, the later key. */
  lemma TieGoesToLaterKey()
    ensures LatestMaximum([Feliz, Triste], map[Feliz := 2, Triste := 2], Triste)
    ensures !LatestMaximum([Feliz, Triste], map[Feliz := 2, Triste := 2], Feliz)
  {
    var order: seq<Emotion> := [Feliz, Triste];
    assert order[1] == Triste;
  }
}

=== FILE: emotion_tracker.dfy ===
/** The per-person smoothing tracker `EmotionTracker` of
    `backend/model/emotion_detector.py` (repeated verbatim in
    `backend/model/example.py`), with the box clamping and the snapshot copy
    of the same file. Times are seconds and weights exact reals. */
module Tracker {
  import opened Wrappers
  import Seqs
  import StreamClient

  /** One `(current_time, emotion, confidence)` tuple of a tracker's deque. */
  datatype Entry = Entry(time: real, emotion: string, confidence: real)

  /** One `current_emotions` value: `(emotion, confidence, last_update)`. */
  datatype Cached = Cached(emotion: string, confidence: real, updated: real)

  /** What `get_smoothed_emotion` returns, or the `ZeroDivisionError` it raises. */
  datatype Smoothed = Smoothed(emotion: Option<string>, confidence: real) | ZeroDivisionError

  // ---------------------------------------------------------------------------
  // The sliding window
  // ---------------------------------------------------------------------------

  predicate Sorted(q: seq<Entry>) {
    forall i, j :: 0 <= i < j < |q| ==> q[i].time <= q[j].time
  }

  /** The deque after the eviction loop: front entries older than `cutoff`
      are popped until the front is recent enough or the deque is empty. */
  function DropStale(q: seq<Entry>, cutoff: real): (r: seq<Entry>)
    ensures r == [] || r[0].time >= cutoff
  {
    if q != [] && q[0].time < cutoff then DropStale(q[1..], cutoff) else q
  }

  /** Only front entries are popped: the result is a suffix of the deque. */
  lemma {:induction false} DropStaleIsSuffix(q: seq<Entry>, cutoff: real)
    ensures |DropStale(q, cutoff)| <= |q|
    ensures DropStale(q, cutoff) == q[|q| - |DropStale(q, cutoff)|..]
  {
    if q != [] && q[0].time < cutoff {
      DropStaleIsSuffix(q[1..], cutoff);
      var r := DropStale(q, cutoff);
      assert q[1..][|q| - 1 - |r|..] == q[|q| - |r|..];
    }
  }

  /** The newest entry survives eviction when it is recent enough. */
  lemma {:induction false} DropStaleKeepsNewest(q: seq<Entry>, cutoff: real)
    requires q != [] && q[|q| - 1].time >= cutoff
    ensures DropStale(q, cutoff) != []
    ensures DropStale(q, cutoff)[|DropStale(q, cutoff)| - 1] == q[|q| - 1]
  {
    if q[0].time < cutoff {
      assert |q| > 1;
      DropStaleKeepsNewest(q[1..], cutoff);
    }
  }

  /** On a time-sorted deque eviction leaves exactly the entries at or after
      the cutoff, still sorted. */
  lemma {:induction false} DropStaleSorted(q: seq<Entry>, cutoff: real)
    requires Sorted(q)
    ensures Sorted(DropStale(q, cutoff))
    ensures forall e :: e in DropStale(q, cutoff) ==> e.time >= cutoff
    ensures forall e :: e in q && e.time >= cutoff ==> e in DropStale(q, cutoff)
  {
    if q != [] && q[0].time < cutoff {
      DropStaleSorted(q[1..], cutoff);
      forall e | e in q && e.time >= cutoff
        ensures e in q[1..]
      {
        var i :| 0 <= i < |q| && q[i] == e;
        assert i != 0;
        assert q[1..][i - 1] == e;
      }
    } else if q != [] {
      forall e | e in q
        ensures e.time >= cutoff
      {
        var i :| 0 <= i < |q| && q[i] == e;
        assert q[0].time <= q[i].time;
      }
    }
  }

  // ---------------------------------------------------------------------------
  // The weighted vote
  // ---------------------------------------------------------------------------

  /** `1 - age / window_seconds`: how much a reading of age `t - e.time`
      still counts. */
  function DecayFactor(e: Entry, t: real, w: real): real
    requires w != 0.0
  {
    1.0 - (t - e.time) / w
  }

  /** `confidence * (1 - age / window_seconds)`. */
  function Weight(e: Entry, t: real, w: real): real
    requires w != 0.0
  {
    e.confidence * DecayFactor(e, t, w)
  }

  /** The weight of every reading at time `t` for window `w`. */
  function WeightAt(t: real, w: real): Entry -> real
    requires w != 0.0
  {
    e => Weight(e, t, w)
  }

  /** The decay factor of every reading at time `t` for window `w`. */
  function DecayAt(t: real, w: real): Entry -> real
    requires w != 0.0
  {
    e => DecayFactor(e, t, w)
  }

  function EmotionsOf(q: seq<Entry>): (es: seq<string>)
    ensures |es| == |q| && forall i :: 0 <= i < |q| ==> es[i] == q[i].emotion
  {
    seq(|q|, i requires 0 <= i < |q| => q[i].emotion)
  }

  /** `emotion_scores[k]` after the loop: the summed weight of the entries
      labelled `k`. */
  function Score(q: seq<Entry>, k: string, wt: Entry -> real): real {
    if q == [] then 0.0
    else Score(q[..|q| - 1], k, wt) + (if q[|q| - 1].emotion == k then wt(q[|q| - 1]) else 0.0)
  }

  /** `total_weight` after the loop. */
  function Total(q: seq<Entry>, wt: Entry -> real): real {
    if q == [] then 0.0 else Total(q[..|q| - 1], wt) + wt(q[|q| - 1])
  }

  /** The scores dictionary, keyed by the labels present. */
  function Scores(q: seq<Entry>, wt: Entry -> real): (m: map<string, real>)
    ensures forall k :: k in m <==> k in EmotionsOf(q)
  {
    map k | k in EmotionsOf(q) :: Score(q, k, wt)
  }

  /** `max(emotion_scores, key=emotion_scores.get)`: a label of maximal
      score; among equal scores the first in insertion order. */
  function Winner(q: seq<Entry>, wt: Entry -> real): (best: string)
    requires q != []
    ensures best in EmotionsOf(q)
    ensures forall k :: k in EmotionsOf(q) ==> Score(q, k, wt) <= Score(q, best, wt)
    ensures var keys := Seqs.Keys(EmotionsOf(q));
      forall j, b :: 0 <= j < b < |keys| && keys[b] == best ==> Score(q, keys[j], wt) < Score(q, best, wt)
  {
    var keys := Seqs.Keys(EmotionsOf(q));
    assert q[0].emotion in EmotionsOf(q);
    var i := Seqs.FirstMaxIndex(keys, Scores(q, wt));
    assert forall b :: 0 <= b < |keys| && keys[b] == keys[i] ==> b == i by {
      assert Seqs.Distinct(keys);
    }
    keys[i]
  }

  /** The vote on a non-empty deque under weights `wt`: the winner with the
      confidence `min(1.0, score / (total / number_of_labels))`; a zero
      total raises. */
  function Elect(q: seq<Entry>, wt: Entry -> real): (r: Smoothed)
    requires q != []
    ensures r.ZeroDivisionError? <==> Total(q, wt) == 0.0
    ensures r.Smoothed? ==> r.emotion == Some(Winner(q, wt)) && r.confidence <= 1.0
  {
    if Total(q, wt) == 0.0 then ZeroDivisionError
    else
      var best := Winner(q, wt);
      var ratio := Score(q, best, wt) / (Total(q, wt) / (|Seqs.Keys(EmotionsOf(q))| as real));
      Smoothed(Some(best), if 1.0 < ratio then 1.0 else ratio)
  }

  /** The result of the weighted vote at time `t` with window `w`; a zero
      window raises before any score is computed. */
  function Smooth(q: seq<Entry>, t: real, w: real): (r: Smoothed)
    requires q != []
    ensures w == 0.0 ==> r == ZeroDivisionError
    ensures w != 0.0 ==> r == Elect(q, WeightAt(t, w))
  {
    if w == 0.0 then ZeroDivisionError else Elect(q, WeightAt(t, w))
  }

  /** Appending an entry adds its weight to its own label's score only. */
  lemma ScoreSnoc(q: seq<Entry>, e: Entry, k: string, wt: Entry -> real)
    ensures Score(q + [e], k, wt) == Score(q, k, wt) + (if e.emotion == k then wt(e) else 0.0)
    ensures Total(q + [e], wt) == Total(q, wt) + wt(e)
  {
    assert (q + [e])[..|q + [e]| - 1] == q;
  }

  /** A label that does not occur scores nothing. */
  lemma {:induction false} ScoreAbsent(q: seq<Entry>, k: string, wt: Entry -> real)
    requires k !in EmotionsOf(q)
    ensures Score(q, k, wt) == 0.0
  {
    if q != [] {
      var p := q[..|q| - 1];
      assert forall i :: 0 <= i < |p| ==> EmotionsOf(p)[i] == EmotionsOf(q)[i];
      assert k !in EmotionsOf(p);
      assert EmotionsOf(q)[|q| - 1] == q[|q| - 1].emotion;
      ScoreAbsent(p, k, wt);
    }
  }

  /** Sum of the scores of `keys`. */
  function SumScores(keys: seq<string>, q: seq<Entry>, wt: Entry -> real): real {
    if keys == [] then 0.0 else SumScores(keys[..|keys| - 1], q, wt) + Score(q, keys[|keys| - 1], wt)
  }

  lemma {:induction false} SumScoresSnoc(keys: seq<string>, q: seq<Entry>, e: Entry, wt: Entry -> real)
    requires Seqs.Distinct(keys)
    ensures SumScores(keys, q + [e], wt) == SumScores(keys, q, wt) + (if e.emotion in keys then wt(e) else 0.0)
  {
    if keys != [] {
      var init := keys[..|keys| - 1];
      assert keys == init + [keys[|keys| - 1]];
      SumScoresSnoc(init, q, e, wt);
      ScoreSnoc(q, e, keys[|keys| - 1], wt);
      assert e.emotion in keys <==> e.emotion in init || e.emotion == keys[|keys| - 1];
    }
  }

  /** The per-label scores add up to the total weight. */
  lemma {:induction false} ScoresSumToTotal(q: seq<Entry>, wt: Entry -> real)
    ensures SumScores(Seqs.Keys(EmotionsOf(q)), q, wt) == Total(q, wt)
  {
    if q != [] {
      var p, e := q[..|q| - 1], q[|q| - 1];
      assert q == p + [e];
      assert EmotionsOf(q) == EmotionsOf(p) + [e.emotion];
      Seqs.KeysSnoc(EmotionsOf(p), e.emotion);
      ScoresSumToTotal(p, wt);
      var keys := Seqs.Keys(EmotionsOf(p));
      SumScoresSnoc(keys, p, e, wt);
      ScoreSnoc(p, e, e.emotion, wt);
      if e.emotion !in EmotionsOf(p) {
        assert Seqs.Keys(EmotionsOf(q)) == keys + [e.emotion];
        assert (keys + [e.emotion])[..|keys|] == keys;
        ScoreAbsent(p, e.emotion, wt);
      }
    }
  }

  /** `n` copies of `m` added up. */
  function Times(n: nat, m: real): real {
    if n == 0 then 0.0 else Times(n - 1, m) + m
  }

  lemma {:induction false} TimesIsProduct(n: nat, m: real)
    ensures Times(n, m) == (n as real) * m
  {
    if n > 0 {
      TimesIsProduct(n - 1, m);
      assert (n as real) * m == ((n - 1) as real) * m + m;
    }
  }

  /** A sum of `n` scores none above `m` is at most `n` copies of `m`. */
  lemma {:induction false} SumScoresBounded(keys: seq<string>, q: seq<Entry>, wt: Entry -> real, m: real)
    requires forall k :: k in keys ==> Score(q, k, wt) <= m
    ensures SumScores(keys, q, wt) <= Times(|keys|, m)
  {
    if keys != [] {
      var init := keys[..|keys| - 1];
      assert forall k :: k in init ==> k in keys;
      SumScoresBounded(init, q, wt, m);
    }
  }

  /** A value at least the mean of `n` values summing to `total` caps to
      1. */
  lemma CappedRatioIsOne(top: real, total: real, n: nat)
    requires n > 0 && total > 0.0 && total <= Times(n, top)
    ensures (if 1.0 < top / (total / (n as real)) then 1.0 else top / (total / (n as real))) == 1.0
  {
    TimesIsProduct(n, top);
    var mean := total / (n as real);
    assert mean * (n as real) == total;
    assert mean <= top;
    assert mean > 0.0;
    assert top / mean >= 1.0 by {
      assert (top / mean) * mean == top;
    }
  }

  lemma FractionBelowOne(a: real, w: real)
    requires 0.0 <= a < w
    ensures 0.0 <= a / w < 1.0
  {
    assert (a / w) * w == a;
  }

  /** The winning label's score is at least the mean score, so the ratio the
      tracker reports is at least 1 whenever the total weight is positive, and
      after the cap the reported confidence is exactly 1.0, whatever the
      readings' own confidences. */
  lemma {:induction false} ElectedConfidenceAlwaysOne(q: seq<Entry>, wt: Entry -> real)
    requires q != [] && Total(q, wt) > 0.0
    ensures Elect(q, wt).Smoothed? && Elect(q, wt).confidence == 1.0
  {
    var n := |Seqs.Keys(EmotionsOf(q))|;
    assert q[0].emotion in EmotionsOf(q);
    WinnerAtLeastMean(q, wt);
    CappedRatioIsOne(Score(q, Winner(q, wt), wt), Total(q, wt), n);
  }

  /** The total weight is at most the number of labels times the winning
      score. */
  lemma {:induction false} WinnerAtLeastMean(q: seq<Entry>, wt: Entry -> real)
    requires q != []
    ensures Total(q, wt) <= Times(|Seqs.Keys(EmotionsOf(q))|, Score(q, Winner(q, wt), wt))
  {
    var keys := Seqs.Keys(EmotionsOf(q));
    var top := Score(q, Winner(q, wt), wt);
    ScoresSumToTotal(q, wt);
    assert forall k :: k in keys ==> Score(q, k, wt) <= top;
    SumScoresBounded(keys, q, wt, top);
  }

  /** A single fresh reading of confidence 0.6 is reported with confidence
      1.0. */
  lemma OneReadingReportedAsCertain()
    ensures Smooth([Entry(10.0, "Happy", 0.6)], 10.0, 5.0) == Smoothed(Some("Happy"), 1.0)
  {
    var q := [Entry(10.0, "Happy", 0.6)];
    var wt := WeightAt(10.0, 5.0);
    assert q[..0] == [];
    assert wt(q[0]) == 0.6;
    assert Total(q, wt) == 0.6;
    ElectedConfidenceAlwaysOne(q, wt);
    assert EmotionsOf(q) == ["Happy"];
  }

  /** A deque of two readings with different labels: two keys in deque
      order, each scoring its own reading's weight, and the heavier wins. */
  lemma TwoReadings(a: Entry, b: Entry, wt: Entry -> real)
    requires a.emotion != b.emotion
    ensures EmotionsOf([a, b]) == [a.emotion, b.emotion]
    ensures Seqs.Keys(EmotionsOf([a, b])) == [a.emotion, b.emotion]
    ensures Score([a, b], a.emotion, wt) == wt(a) && Score([a, b], b.emotion, wt) == wt(b)
    ensures Total([a, b], wt) == wt(a) + wt(b)
    ensures wt(a) < wt(b) ==> Winner([a, b], wt) == b.emotion
  {
    var q := [a, b];
    assert q[..1] == [a] && q[..1][..0] == [];
    assert EmotionsOf(q)[..1] == [a.emotion] && EmotionsOf(q)[..1][..0] == [];
    assert [a] == [] + [a] && q == [a] + [b];
    ScoreSnoc([], a, a.emotion, wt);
    ScoreSnoc([], a, b.emotion, wt);
    ScoreSnoc([a], b, a.emotion, wt);
    ScoreSnoc([a], b, b.emotion, wt);
  }

  /** The as-written vote on two such readings when the later one is
      heavier and the total is not zero. */
  lemma TwoReadingsElect(a: Entry, b: Entry, wt: Entry -> real)
    requires a.emotion != b.emotion && wt(a) < wt(b) && wt(a) + wt(b) != 0.0
    ensures Elect([a, b], wt).Smoothed? && Elect([a, b], wt).emotion == Some(b.emotion)
    ensures var ratio := wt(b) / ((wt(a) + wt(b)) / 2.0);
      Elect([a, b], wt).confidence == if 1.0 < ratio then 1.0 else ratio
  {
    TwoReadings(a, b, wt);
  }

  /** Readings older than the window weigh negatively as written. Two
      readings that have both left a 5 s window, scored at time 6 (weights
      -0.18 and -0.06), elect the less negative label with confidence 0.5. */
  lemma StaleReadingsWeighNegative()
    ensures Smooth([Entry(0.0, "Happy", 0.9), Entry(0.5, "Sad", 0.6)], 6.0, 5.0) == Smoothed(Some("Sad"), 0.5)
  {
    var a, b := Entry(0.0, "Happy", 0.9), Entry(0.5, "Sad", 0.6);
    var wt := WeightAt(6.0, 5.0);
    assert wt(a) == -0.18 && wt(b) == -0.06;
    TwoReadingsElect(a, b, wt);
    var r := Elect([a, b], wt);
    assert r.confidence == 0.5 by {
      assert (wt(a) + wt(b)) / 2.0 == -0.12;
      assert -0.06 / -0.12 == 0.5;
    }
    assert r == Smoothed(Some("Sad"), 0.5);
  }

  /** With one stale and one live reading the as-written confidence is
      negative. */
  lemma StaleReadingGivesNegativeConfidence()
    ensures Smooth([Entry(0.0, "Happy", 0.9), Entry(4.5, "Sad", 0.5)], 9.0, 5.0).Smoothed?
    ensures Smooth([Entry(0.0, "Happy", 0.9), Entry(4.5, "Sad", 0.5)], 9.0, 5.0).confidence < 0.0
  {
    var a, b := Entry(0.0, "Happy", 0.9), Entry(4.5, "Sad", 0.5);
    var wt := WeightAt(9.0, 5.0);
    assert wt(a) == -0.72 && wt(b) == 0.05;
    TwoReadingsElect(a, b, wt);
    var r := Elect([a, b], wt);
    assert r.Smoothed? && r.confidence < 0.0 by {
      assert (wt(a) + wt(b)) / 2.0 == -0.335;
    }
  }

  /** Readings whose confidence is a probability, as the classifier's
      softmax scores are. */
  predicate Probabilities(q: seq<Entry>) {
    forall e :: e in q ==> 0.0 <= e.confidence <= 1.0
  }

  /** Probabilities whose age lies inside the window. */
  predicate Fresh(q: seq<Entry>, t: real, w: real) {
    Probabilities(q) && forall e :: e in q ==> 0.0 <= t - e.time < w
  }

  /** The decay factor of a reading inside the window; a reading of age `w`
      or more counts zero instead of negatively. */
  function LiveDecay(e: Entry, t: real, w: real): (d: real)
    requires w > 0.0
    ensures d >= 0.0
    ensures d > 0.0 <==> t - e.time < w
    ensures d > 0.0 ==> d == DecayFactor(e, t, w)
  {
    if t - e.time < w then
      BelowWindow(t - e.time, w);
      DecayFactor(e, t, w)
    else 0.0
  }

  lemma BelowWindow(a: real, w: real)
    requires w > 0.0 && a < w
    ensures 1.0 - a / w > 0.0
  {
    assert (a / w) * w == a;
  }

  /** The live decay factor of every reading at time `t` for window `w`. */
  function LiveDecayAt(t: real, w: real): Entry -> real
    requires w > 0.0
  {
    e => LiveDecay(e, t, w)
  }

  /** The live weight `confidence * LiveDecay` of every reading. */
  function LiveWeightAt(t: real, w: real): Entry -> real
    requires w > 0.0
  {
    (e: Entry) => e.confidence * LiveDecay(e, t, w)
  }

  /** The confidence the tracker evidently means to report: the recency-
      weighted mean confidence of label `k`'s readings inside the window, and
      0 when it has none there. */
  function WeightedMeanConfidence(q: seq<Entry>, k: string, t: real, w: real): (c: real)
    requires w > 0.0 && Probabilities(q)
    ensures 0.0 <= c <= 1.0
    ensures c * Score(q, k, LiveDecayAt(t, w)) == Score(q, k, LiveWeightAt(t, w))
    ensures Score(q, k, LiveDecayAt(t, w)) == 0.0 ==> c == 0.0
  {
    LiveScoreBounds(q, k, t, w);
    var d := Score(q, k, LiveDecayAt(t, w));
    if d == 0.0 then 0.0
    else
      FractionAtMostOne(Score(q, k, LiveWeightAt(t, w)), d);
      Score(q, k, LiveWeightAt(t, w)) / d
  }

  /** A label's live weights sum to between zero and its live decay
      factors. */
  lemma LiveScoreBounds(q: seq<Entry>, k: string, t: real, w: real)
    requires w > 0.0 && Probabilities(q)
    ensures 0.0 <= Score(q, k, LiveWeightAt(t, w)) <= Score(q, k, LiveDecayAt(t, w))
  {
    LiveWeights(q, t, w);
    WeightedMeanBounds(q, k, LiveWeightAt(t, w), LiveDecayAt(t, w));
  }

  lemma FractionAtMostOne(a: real, d: real)
    requires 0.0 <= a <= d && d > 0.0
    ensures 0.0 <= a / d <= 1.0 && (a / d) * d == a
  {
  }

  /** The corrected vote: readings outside the window count zero; with none
      inside it there is no emotion, as for an empty deque; otherwise the
      label of largest live weight, with its weighted mean confidence. */
  function SmoothCorrected(q: seq<Entry>, t: real, w: real): (r: Smoothed)
    requires w > 0.0 && Probabilities(q)
    ensures r.Smoothed? && 0.0 <= r.confidence <= 1.0
    ensures r.emotion.None? <==> Total(q, LiveDecayAt(t, w)) == 0.0
    ensures r.emotion.None? ==> r.confidence == 0.0
    ensures r.emotion.Some? ==>
      r.emotion.value in EmotionsOf(q) &&
      (forall k :: k in EmotionsOf(q) ==> Score(q, k, LiveWeightAt(t, w)) <= Score(q, r.emotion.value, LiveWeightAt(t, w))) &&
      r.confidence == WeightedMeanConfidence(q, r.emotion.value, t, w)
  {
    if Total(q, LiveDecayAt(t, w)) == 0.0 then Smoothed(None, 0.0)
    else
      var best := Winner(q, LiveWeightAt(t, w));
      Smoothed(Some(best), WeightedMeanConfidence(q, best, t, w))
  }

  /** Corrected, the two stale readings give no emotion. */
  lemma StaleReadingsCorrected()
    ensures SmoothCorrected([Entry(0.0, "Happy", 0.9), Entry(0.5, "Sad", 0.6)], 6.0, 5.0) == Smoothed(None, 0.0)
  {
    var a, b := Entry(0.0, "Happy", 0.9), Entry(0.5, "Sad", 0.6);
    assert LiveDecayAt(6.0, 5.0)(a) == 0.0 && LiveDecayAt(6.0, 5.0)(b) == 0.0;
    TwoReadings(a, b, LiveDecayAt(6.0, 5.0));
  }

  /** Corrected, a person unseen for a whole window, all of whose readings
      have aged out, is reported with no emotion and confidence 0. */
  lemma AllStaleCorrected(q: seq<Entry>, t: real, w: real)
    requires w > 0.0 && Probabilities(q)
    requires forall e :: e in q ==> t - e.time >= w
    ensures SmoothCorrected(q, t, w) == Smoothed(None, 0.0)
  {
    TotalZero(q, LiveDecayAt(t, w));
  }

  /** Weights that vanish on every reading have a zero total. */
  lemma {:induction false} TotalZero(q: seq<Entry>, f: Entry -> real)
    requires forall e :: e in q ==> f(e) == 0.0
    ensures Total(q, f) == 0.0
  {
    if q != [] {
      var p := q[..|q| - 1];
      assert forall e :: e in p ==> e in q;
      assert q[|q| - 1] in q;
      TotalZero(p, f);
    }
  }

  /** Inside the window nothing is dropped: the corrected vote elects the
      as-written winner, and its confidence is the plain ratio of the
      winner's summed weights to its summed decay factors. */
  lemma {:induction false} FreshCorrectedAgrees(q: seq<Entry>, t: real, w: real)
    requires w > 0.0 && Fresh(q, t, w) && q != []
    ensures var best := Winner(q, WeightAt(t, w));
      Score(q, best, DecayAt(t, w)) > 0.0 &&
      SmoothCorrected(q, t, w) == Smoothed(Some(best), Score(q, best, WeightAt(t, w)) / Score(q, best, DecayAt(t, w)))
  {
    var dc, wt := LiveDecayAt(t, w), LiveWeightAt(t, w);
    FreshWeights(q, t, w);
    forall e | e in q ensures dc(e) == DecayAt(t, w)(e) && wt(e) == WeightAt(t, w)(e) {
      FractionBelowOne(t - e.time, w);
    }
    ScoresAgree(q, dc, DecayAt(t, w));
    ScoresAgree(q, wt, WeightAt(t, w));
    assert Winner(q, wt) == Winner(q, WeightAt(t, w));
    var best := Winner(q, wt);
    WeightedMeanBounds(q, best, WeightAt(t, w), DecayAt(t, w));
    TotalPositive(q, dc);
  }

  /** Weights that agree on every reading give the same scores and the same
      total. */
  lemma {:induction false} ScoresAgree(q: seq<Entry>, f: Entry -> real, g: Entry -> real)
    requires forall e :: e in q ==> f(e) == g(e)
    ensures forall k :: Score(q, k, f) == Score(q, k, g)
    ensures Total(q, f) == Total(q, g) && Scores(q, f) == Scores(q, g)
  {
    if q != [] {
      var p := q[..|q| - 1];
      assert forall e :: e in p ==> e in q;
      assert q[|q| - 1] in q;
      ScoresAgree(p, f, g);
    }
    forall k ensures Score(q, k, f) == Score(q, k, g) {
    }
  }

  /** Positive weights on a non-empty deque have a positive total. */
  lemma {:induction false} TotalPositive(q: seq<Entry>, f: Entry -> real)
    requires q != [] && forall e :: e in q ==> f(e) > 0.0
    ensures Total(q, f) > 0.0
  {
    var p := q[..|q| - 1];
    assert q[|q| - 1] in q;
    if p != [] {
      assert forall e :: e in p ==> e in q;
      TotalPositive(p, f);
    }
  }

  /** In a fresh deque every decay factor is positive and every weight lies
      between zero and its decay factor. */
  lemma FreshWeights(q: seq<Entry>, t: real, w: real)
    requires w > 0.0 && Fresh(q, t, w)
    ensures forall e :: e in q ==>
      DecayAt(t, w)(e) > 0.0 && 0.0 <= WeightAt(t, w)(e) <= DecayAt(t, w)(e)
  {
    forall e | e in q
      ensures DecayAt(t, w)(e) > 0.0 && 0.0 <= WeightAt(t, w)(e) <= DecayAt(t, w)(e)
    {
      FractionBelowOne(t - e.time, w);
      ScaledBelow(e.confidence, DecayFactor(e, t, w));
    }
  }

  /** Every live weight lies between zero and its live decay factor. */
  lemma LiveWeights(q: seq<Entry>, t: real, w: real)
    requires w > 0.0 && Probabilities(q)
    ensures forall e :: e in q ==>
      LiveDecayAt(t, w)(e) >= 0.0 && 0.0 <= LiveWeightAt(t, w)(e) <= LiveDecayAt(t, w)(e)
  {
    forall e | e in q
      ensures LiveDecayAt(t, w)(e) >= 0.0 && 0.0 <= LiveWeightAt(t, w)(e) <= LiveDecayAt(t, w)(e)
    {
      assert LiveDecayAt(t, w)(e) == LiveDecay(e, t, w) >= 0.0;
      assert LiveWeightAt(t, w)(e) == e.confidence * LiveDecay(e, t, w);
      ScaledBelow(e.confidence, LiveDecay(e, t, w));
    }
  }

  /** Scores under weights bounded by non-negative decay factors lie between
      zero and the summed factors, which are positive for a label present
      when every factor is. */
  lemma {:induction false} WeightedMeanBounds(q: seq<Entry>, k: string, wt: Entry -> real, dc: Entry -> real)
    requires forall e :: e in q ==> dc(e) >= 0.0 && 0.0 <= wt(e) <= dc(e)
    ensures 0.0 <= Score(q, k, wt) <= Score(q, k, dc)
    ensures k in EmotionsOf(q) && (forall e :: e in q ==> dc(e) > 0.0) ==> Score(q, k, dc) > 0.0
  {
    if q != [] {
      var p, e := q[..|q| - 1], q[|q| - 1];
      assert forall x :: x in p ==> x in q;
      WeightedMeanBounds(p, k, wt, dc);
      assert e in q;
      if k in EmotionsOf(q) && e.emotion != k {
        var i :| 0 <= i < |q| && EmotionsOf(q)[i] == k;
        assert i < |p| && EmotionsOf(p)[i] == k;
      }
    }
  }

  lemma ScaledBelow(c: real, d: real)
    requires 0.0 <= c <= 1.0 && d >= 0.0
    ensures 0.0 <= c * d <= d
  {
  }

  /** For the single reading above, the corrected confidence is the reading's
      own confidence. */
  lemma OneReadingWeightedMean()
    ensures WeightedMeanConfidence([Entry(10.0, "Happy", 0.6)], "Happy", 10.0, 5.0) == 0.6
    ensures SmoothCorrected([Entry(10.0, "Happy", 0.6)], 10.0, 5.0) == Smoothed(Some("Happy"), 0.6)
  {
    var q := [Entry(10.0, "Happy", 0.6)];
    assert q[..0] == [];
    assert EmotionsOf(q) == ["Happy"];
    assert LiveDecayAt(10.0, 5.0)(q[0]) == 1.0;
    assert Score(q, "Happy", LiveDecayAt(10.0, 5.0)) == 1.0;
    assert Score(q, "Happy", LiveWeightAt(10.0, 5.0)) == 0.6;
    assert Total(q, LiveDecayAt(10.0, 5.0)) == 1.0;
  }

  // ---------------------------------------------------------------------------
  // The tracker object
  // ---------------------------------------------------------------------------

  /** The ids `cleanup_old_trackers` removes: not seen for longer than
      `timeout`. */
  function Expired(lastSeen: map<int, real>, t: real, timeout: real): (s: set<int>)
    ensures forall id :: id in s <==> id in lastSeen && t - lastSeen[id] > timeout
  {
    set id | id in lastSeen && t - lastSeen[id] > timeout
  }

  /** Whether `get_smoothed_emotion` answers from the cache. */
  predicate UsesCache(cache: map<int, Cached>, id: int, t: real, interval: real) {
    id in cache && t - cache[id].updated < interval
  }

  class EmotionTracker {
    const windowSeconds: real
    const updateInterval: real
    var history: map<int, seq<Entry>>
    var currentEmotions: map<int, Cached>
    var lastSeen: map<int, real>
    /** The keys of `last_seen` in the dictionary's insertion order, the
        order in which `cleanup_old_trackers` visits them. */
    var seenOrder: seq<int>

    /** Every tracked id has a deque and a last-seen time; only tracked ids
        have a cached result. */
    ghost predicate Valid()
      reads this
    {
      history.Keys == lastSeen.Keys && currentEmotions.Keys <= history.Keys &&
      Seqs.Distinct(seenOrder) && (forall id :: id in seenOrder <==> id in lastSeen)
    }

    /** `EmotionTracker(window_seconds=5, update_interval=1.0)`. */
    constructor (windowSeconds: Option<real>, updateInterval: Option<real>)
      ensures Valid()
      ensures this.windowSeconds == windowSeconds.GetOr(5.0)
      ensures this.updateInterval == updateInterval.GetOr(1.0)
      ensures history == map[] && currentEmotions == map[] && lastSeen == map[]
    {
      this.windowSeconds := windowSeconds.GetOr(5.0);
      this.updateInterval := updateInterval.GetOr(1.0);
      history, currentEmotions, lastSeen, seenOrder := map[], map[], map[], [];
    }

    /** `add_detection`: append at the back, record the time, then pop stale
        entries from the front. */
    method AddDetection(id: int, emotion: string, confidence: real, t: real)
      requires Valid()
      modifies this
      ensures Valid()
      ensures history == old(history)[id := DropStale(
        (if id in old(history) then old(history)[id] else []) + [Entry(t, emotion, confidence)],
        t - windowSeconds)]
      ensures lastSeen == old(lastSeen)[id := t]
      ensures currentEmotions == old(currentEmotions)
    {
      var q := (if id in history then history[id] else []) + [Entry(t, emotion, confidence)];
      if id !in lastSeen {
        seenOrder := seenOrder + [id];
      }
      lastSeen := lastSeen[id := t];
      var cutoff := t - windowSeconds;
      q := EvictStale(q, cutoff);
      history := history[id := q];
    }

    /** `get_smoothed_emotion`: a fresh cached answer is returned as is;
        a missing or empty deque gives `(None, 0.0)`; otherwise the weighted
        vote runs and its answer is cached. */
    method GetSmoothedEmotion(id: int, t: real) returns (r: Smoothed)
      requires Valid()
      modifies this
      ensures Valid()
      ensures history == old(history) && lastSeen == old(lastSeen)
      ensures UsesCache(old(currentEmotions), id, t, updateInterval) ==>
        r == Smoothed(Some(old(currentEmotions)[id].emotion), old(currentEmotions)[id].confidence) &&
        currentEmotions == old(currentEmotions)
      ensures !UsesCache(old(currentEmotions), id, t, updateInterval) && (id !in history || history[id] == []) ==>
        r == Smoothed(None, 0.0) && currentEmotions == old(currentEmotions)
      ensures !UsesCache(old(currentEmotions), id, t, updateInterval) && id in history && history[id] != [] ==>
        r == Smooth(history[id], t, windowSeconds) &&
        currentEmotions == (if r.Smoothed? then old(currentEmotions)[id := Cached(r.emotion.value, r.confidence, t)]
                            else old(currentEmotions))
    {
      if id in currentEmotions && t - currentEmotions[id].updated < updateInterval {
        return Smoothed(Some(currentEmotions[id].emotion), currentEmotions[id].confidence);
      }
      if id !in history || history[id] == [] {
        return Smoothed(None, 0.0);
      }
      var q := history[id];
      if windowSeconds == 0.0 {
        return ZeroDivisionError;
      }
      var keys, scores, total := Vote(q, WeightAt(t, windowSeconds));
      if total == 0.0 {
        return ZeroDivisionError;
      }
      assert q[0].emotion in EmotionsOf(q);
      var best := keys[Seqs.FirstMaxIndex(keys, scores)];
      var ratio := scores[best] / (total / (|keys| as real));
      var confidence := if 1.0 < ratio then 1.0 else ratio;
      currentEmotions := currentEmotions[id := Cached(best, confidence, t)];
      r := Smoothed(Some(best), confidence);
    }

    /** `cleanup_old_trackers`: collect the timed-out ids, then delete each
        from the three dictionaries. */
    method CleanupOldTrackers(t: real, timeout: real)
      requires Valid()
      modifies this
      ensures Valid()
      ensures history == old(history) - Expired(old(lastSeen), t, timeout)
      ensures currentEmotions == old(currentEmotions) - Expired(old(lastSeen), t, timeout)
      ensures lastSeen == old(lastSeen) - Expired(old(lastSeen), t, timeout)
      ensures forall id :: id in lastSeen ==> t - lastSeen[id] <= timeout
    {
      var toRemove := CollectExpired(seenOrder, lastSeen, t, timeout);
      ghost var h0, c0, l0 := history, currentEmotions, lastSeen;
      ghost var removed: set<int> := {};
      var j := 0;
      while j < |toRemove|
        invariant 0 <= j <= |toRemove|
        invariant Valid()
        invariant forall id :: id in removed <==> id in toRemove[..j]
        invariant history == h0 - removed
        invariant currentEmotions == c0 - removed
        invariant lastSeen == l0 - removed
      {
        var id := toRemove[j];
        assert toRemove[..j + 1] == toRemove[..j] + [id];
        Forget(id);
        MinusStep(h0, removed, id);
        MinusStep(c0, removed, id);
        MinusStep(l0, removed, id);
        removed := removed + {id};
        j := j + 1;
      }
      assert toRemove[..j] == toRemove;
      forall id
        ensures id in removed <==> id in Expired(l0, t, timeout)
      {
        assert id in removed <==> id in toRemove;
      }
      assert removed == Expired(l0, t, timeout);
    }

    /** The deletions of one id in `cleanup_old_trackers`, each guarded by
        membership. */
    method Forget(id: int)
      requires Valid()
      modifies this
      ensures Valid()
      ensures history == old(history) - {id}
      ensures currentEmotions == old(currentEmotions) - {id}
      ensures lastSeen == old(lastSeen) - {id}
    {
      if id in history {
        history := history - {id};
      }
      if id in currentEmotions {
        currentEmotions := currentEmotions - {id};
      }
      if id in lastSeen {
        lastSeen := lastSeen - {id};
        seenOrder := Without(seenOrder, id);
      }
    }
  }

  /** Removing keys one at a time removes them all. */
  lemma MinusStep<K, V>(m: map<K, V>, s: set<K>, x: K)
    ensures (m - s) - {x} == m - (s + {x})
  {
  }

  /** `seq` minus every occurrence of `x`: deleting a key of an ordered
      dictionary keeps the order of the others. */
  function Without(s: seq<int>, x: int): (r: seq<int>)
    ensures forall y :: y in r <==> y in s && y != x
    ensures Seqs.Distinct(s) ==> Seqs.Distinct(r)
  {
    if s == [] then []
    else
      var rest := Without(s[1..], x);
      assert Seqs.Distinct(s) ==> Seqs.Distinct(s[1..]) && s[0] !in s[1..];
      if s[0] == x then rest else [s[0]] + rest
  }

  /** The eviction loop of `add_detection`. */
  method EvictStale(q: seq<Entry>, cutoff: real) returns (r: seq<Entry>)
    ensures r == DropStale(q, cutoff)
  {
    r := q;
    while r != [] && r[0].time < cutoff
      invariant DropStale(r, cutoff) == DropStale(q, cutoff)
      decreases |r|
    {
      r := r[1..];
    }
  }

  /** The collection loop of `cleanup_old_trackers`, visiting the keys of
      `last_seen` in insertion order. */
  method CollectExpired(order: seq<int>, lastSeen: map<int, real>, t: real, timeout: real) returns (toRemove: seq<int>)
    requires forall id :: id in order <==> id in lastSeen
    ensures forall id :: id in toRemove <==> id in Expired(lastSeen, t, timeout)
  {
    toRemove := [];
    var i := 0;
    while i < |order|
      invariant 0 <= i <= |order|
      invariant forall id :: id in toRemove <==> id in order[..i] && id in lastSeen && t - lastSeen[id] > timeout
    {
      var id := order[i];
      assert order[..i + 1] == order[..i] + [id];
      assert id in order;
      if t - lastSeen[id] > timeout {
        toRemove := toRemove + [id];
      }
      i := i + 1;
    }
    assert order[..i] == order;
  }

  /** The scoring loop of `get_smoothed_emotion`: labels in order of first
      appearance (the key order of the `defaultdict`), their scores and the
      total weight, with `wt` giving each entry's weight. */
  method Vote(q: seq<Entry>, wt: Entry -> real) returns (keys: seq<string>, scores: map<string, real>, total: real)
    ensures keys == Seqs.Keys(EmotionsOf(q))
    ensures scores == Scores(q, wt)
    ensures total == Total(q, wt)
  {
    keys, scores, total := [], map[], 0.0;
    var i := 0;
    while i < |q|
      invariant 0 <= i <= |q|
      invariant keys == Seqs.Keys(EmotionsOf(q[..i]))
      invariant scores == Scores(q[..i], wt)
      invariant total == Total(q[..i], wt)
    {
      keys, scores, total := Accumulate(q, i, wt, keys, scores, total);
      i := i + 1;
    }
    assert q[..i] == q;
  }

  /** `scores[k] += w` on a `defaultdict(float)`: a missing key starts at
      zero. */
  function AddScore(scores: map<string, real>, k: string, w: real): map<string, real> {
    scores[k := (if k in scores then scores[k] else 0.0) + w]
  }

  /** One pass of the scoring loop: `emotion_scores[emotion] += weight` on a
      `defaultdict(float)` (a missing label enters at the end with 0) and
      `total_weight += weight`. */
  method Accumulate(q: seq<Entry>, i: nat, wt: Entry -> real, keys: seq<string>, scores: map<string, real>, total: real)
    returns (keys': seq<string>, scores': map<string, real>, total': real)
    requires i < |q|
    requires keys == Seqs.Keys(EmotionsOf(q[..i])) && scores == Scores(q[..i], wt) && total == Total(q[..i], wt)
    ensures keys' == Seqs.Keys(EmotionsOf(q[..i + 1]))
    ensures scores' == Scores(q[..i + 1], wt)
    ensures total' == Total(q[..i + 1], wt)
  {
    var p, e := q[..i], q[i];
    assert q[..i + 1] == p + [e];
    var weight := wt(e);
    keys' := if e.emotion in scores then keys else keys + [e.emotion];
    KeysStep(p, e, wt);
    scores' := AddScore(scores, e.emotion, weight);
    ScoresStep(p, e, wt);
    total' := total + weight;
    TotalStep(p, e, wt);
  }

  /** One pass of the scoring loop, stated on the dictionary itself: the key
      order gains the label only when the dictionary lacks it. */
  lemma KeysStep(p: seq<Entry>, e: Entry, wt: Entry -> real)
    ensures Seqs.Keys(EmotionsOf(p + [e])) ==
      if e.emotion in Scores(p, wt) then Seqs.Keys(EmotionsOf(p)) else Seqs.Keys(EmotionsOf(p)) + [e.emotion]
  {
    EmotionsSnoc(p, e);
    Seqs.KeysSnoc(EmotionsOf(p), e.emotion);
  }
  /** The label's score grows by the weight, from its old value or zero. */
  lemma ScoresStep(p: seq<Entry>, e: Entry, wt: Entry -> real)
    ensures Scores(p + [e], wt) == AddScore(Scores(p, wt), e.emotion, wt(e))
  {
    ScoresSnoc(p, e, wt);
  }

  /** The total grows by the weight. */
  lemma TotalStep(p: seq<Entry>, e: Entry, wt: Entry -> real)
    ensures Total(p + [e], wt) == Total(p, wt) + wt(e)
  {
    ScoresSnoc(p, e, wt);
  }
  /** Appending an entry adds its weight to its label's score, starting from
      zero for a new label, and to the total. */
  lemma {:induction false} ScoresSnoc(p: seq<Entry>, e: Entry, wt: Entry -> real)
    ensures Scores(p + [e], wt) ==
      Scores(p, wt)[e.emotion := (if e.emotion in EmotionsOf(p) then Score(p, e.emotion, wt) else 0.0) + wt(e)]
    ensures Total(p + [e], wt) == Total(p, wt) + wt(e)
  {
    EmotionsSnoc(p, e);
    var a := Scores(p + [e], wt);
    var b := Scores(p, wt)[e.emotion := (if e.emotion in EmotionsOf(p) then Score(p, e.emotion, wt) else 0.0) + wt(e)];
    forall k
      ensures k in a <==> k in b
    {
    }
    forall k | k in a
      ensures a[k] == b[k]
    {
      ScoreSnoc(p, e, k, wt);
      if k == e.emotion && k !in EmotionsOf(p) {
        ScoreAbsent(p, k, wt);
      }
    }
    assert a == b;
    ScoreSnoc(p, e, e.emotion, wt);
  }

  lemma EmotionsSnoc(p: seq<Entry>, e: Entry)
    ensures EmotionsOf(p + [e]) == EmotionsOf(p) + [e.emotion]
    ensures forall k :: k in EmotionsOf(p + [e]) <==> k in EmotionsOf(p) || k == e.emotion
  {
    assert EmotionsOf(p + [e]) == EmotionsOf(p) + [e.emotion];
  }

  /** Appending a reading no older than the last keeps a deque sorted. */
  lemma SnocSorted(q: seq<Entry>, e: Entry)
    requires Sorted(q) && (q != [] ==> q[|q| - 1].time <= e.time)
    ensures Sorted(q + [e])
  {
    var a := q + [e];
    forall i, j | 0 <= i < j < |a|
      ensures a[i].time <= a[j].time
    {
      if j == |a| - 1 && i < |q| {
        assert q[i].time <= q[|q| - 1].time;
      }
    }
  }

  /** Adding at non-decreasing times keeps a deque sorted and inside the
      window, and the new reading is kept whenever the window is not
      negative. */
  lemma AddKeepsWindow(q: seq<Entry>, e: Entry, w: real)
    requires Sorted(q) && (q != [] ==> q[|q| - 1].time <= e.time)
    ensures Sorted(DropStale(q + [e], e.time - w))
    ensures forall x :: x in DropStale(q + [e], e.time - w) ==> e.time - w <= x.time <= e.time
    ensures w >= 0.0 ==>
      (DropStale(q + [e], e.time - w) != [] &&
       DropStale(q + [e], e.time - w)[|DropStale(q + [e], e.time - w)| - 1] == e)
  {
    var a := q + [e];
    var cutoff := e.time - w;
    SnocSorted(q, e);
    DropStaleSorted(a, cutoff);
    KeptNoNewerThanLast(a, cutoff);
    if w >= 0.0 {
      DropStaleKeepsNewest(a, cutoff);
    }
  }

  /** No reading kept by eviction from a sorted deque is newer than its last. */
  lemma KeptNoNewerThanLast(a: seq<Entry>, cutoff: real)
    requires Sorted(a) && a != []
    ensures forall x :: x in DropStale(a, cutoff) ==> x.time <= a[|a| - 1].time
  {
    DropStaleIsSuffix(a, cutoff);
    var r := DropStale(a, cutoff);
    forall x | x in r
      ensures x.time <= a[|a| - 1].time
    {
      var i :| 0 <= i < |r| && r[i] == x;
      assert a[|a| - |r| + i] == x;
    }
  }

  /** The instance in `example.py`: a three-second window keeps the readings
      of the last three seconds and drops older ones. */
  method ThreeSecondWindow() {
    var tracker := new EmotionTracker(Some(3.0), Some(1.0));
    tracker.AddDetection(7, "Happy", 0.9, 0.0);
    tracker.AddDetection(7, "Sad", 0.8, 1.0);
    tracker.AddDetection(7, "Happy", 0.7, 4.0);
    assert tracker.history[7] == [Entry(1.0, "Sad", 0.8), Entry(4.0, "Happy", 0.7)];
    tracker.CleanupOldTrackers(20.0, 10.0);
    assert 7 !in tracker.history && 7 !in tracker.lastSeen;
  }

  // ---------------------------------------------------------------------------
  // Per-frame helpers of the detection loop
  // ---------------------------------------------------------------------------

  /** Python's `int()` on a float: truncation toward zero. */
  function Trunc(x: real): (n: int)
    ensures x >= 0.0 ==> 0 <= n && n as real <= x < n as real + 1.0
    ensures x < 0.0 ==> n <= 0 && n as real - 1.0 < x <= n as real
  {
    if x >= 0.0 then x.Floor else -((-x).Floor)
  }

  datatype Box = Box(x1: int, y1: int, x2: int, y2: int)

  /** The person box after `map(int, xyxy)` and clamping to the frame. */
  function ClampBox(x1: real, y1: real, x2: real, y2: real, width: nat, height: nat): (b: Box)
    ensures b.x1 >= 0 && b.y1 >= 0 && b.x2 <= width && b.y2 <= height
    ensures b.x1 >= Trunc(x1) && b.y1 >= Trunc(y1) && b.x2 <= Trunc(x2) && b.y2 <= Trunc(y2)
    ensures Trunc(x1) >= 0 ==> b.x1 == Trunc(x1)
    ensures Trunc(y1) >= 0 ==> b.y1 == Trunc(y1)
    ensures Trunc(x2) <= width ==> b.x2 == Trunc(x2)
    ensures Trunc(y2) <= height ==> b.y2 == Trunc(y2)
  {
    var a, c, d, e := Trunc(x1), Trunc(y1), Trunc(x2), Trunc(y2);
    Box(if a < 0 then 0 else a, if c < 0 then 0 else c,
        if d > width then width else d, if e > height then height else e)
  }

  /** The person record sent to clients, built from the smoothed answer:
      a falsy confidence is sent as 0.0. */
  function PersonRecord(id: int, b: Box, s: Smoothed, hasFace: bool): (p: StreamClient.PersonDetection)
    requires s.Smoothed?
    ensures p.emotion == s.emotion && p.id == id && p.hasFace == hasFace
    ensures p.bbox == [b.x1, b.y1, b.x2, b.y2]
    ensures p.confidence == s.confidence
  {
    StreamClient.PersonDetection(id, [b.x1, b.y1, b.x2, b.y2], s.emotion, if s.confidence != 0.0 then s.confidence else 0.0, hasFace)
  }

  /** A person whose tracker has no readings yet reaches the browser without
      a label, so the client reports no emotion for that message. */
  lemma UntrackedPersonNotReported(id: int, b: Box, hasFace: bool, frame: Option<string>, rest: seq<StreamClient.PersonDetection>,
                                   frameCallbackSet: bool, now: int)
    ensures var p := PersonRecord(id, b, Smoothed(None, 0.0), hasFace);
      StreamClient.OnMessage(StreamClient.Parsed(StreamClient.WireMessage(frame, Some([p] + rest))), frameCallbackSet, now).emotion == None
  {
  }

  /** `get_current_data`: an empty people list before the first frame,
      otherwise a copy of the latest list. */
  function CurrentData(current: Option<seq<StreamClient.PersonDetection>>): (people: seq<StreamClient.PersonDetection>)
    ensures current.None? ==> people == []
    ensures current.Some? ==> people == current.value
  {
    match current
    case None => []
    case Some(list) => list[..]
  }
}

=== FILE: history_page.dfy ===
/** The pure computations of the history page, `frontend/app/history/page.tsx`:
    the emotion and date filters over the record list, the active-filter
    flag, the duration and confidence statistics and the CSV lines. The day
    boundaries the page derives with calendar arithmetic are inputs. */
module HistoryPage {
  import opened Wrappers
  import opened Vocabulary
  import Seqs
  import Text
  import Csv

  /** One entry of the record list. Timestamps are milliseconds. */
  datatype Record = Record(id: nat, emotion: Emotion, confidence: real, timestamp: int, duration: string)

  /** Midnight today and the three earlier starting points, as computed with
      `setDate`/`setMonth`. */
  datatype Boundaries = Boundaries(today: int, yesterday: int, weekAgo: int, monthAgo: int)

  /** `customDate`: empty, a date that starts at `start` and whose next day
      starts at `nextDay`, or a string `new Date` cannot read (an invalid
      date, against which every comparison is false). */
  datatype CustomDate = NoDate | Day(start: int, nextDay: int) | InvalidDate

  /** The filter selections the page holds. */
  datatype Selection = Selection(emotion: string, dateFilter: string, customDate: CustomDate)

  /** The emotion filter: `"all"` or the record's own key. */
  predicate EmotionPasses(selected: string, r: Record) {
    selected == "all" || r.emotion.Key() == selected
  }

  /** The date filter for one timestamp. An unknown `dateFilter` matches no
      case of the `switch` and filters nothing. */
  predicate DatePasses(dateFilter: string, b: Boundaries, custom: CustomDate, t: int) {
    if dateFilter == "today" then t >= b.today
    else if dateFilter == "yesterday" then b.yesterday <= t < b.today
    else if dateFilter == "week" then t >= b.weekAgo
    else if dateFilter == "month" then t >= b.monthAgo
    else if dateFilter == "custom" then
      match custom
      case NoDate => true
      case Day(start, nextDay) => start <= t < nextDay
      case InvalidDate => false
    else true
  }

  predicate Passes(sel: Selection, b: Boundaries, r: Record) {
    EmotionPasses(sel.emotion, r) && DatePasses(sel.dateFilter, b, sel.customDate, r.timestamp)
  }

  /** `getFilteredHistory()`: the emotion filter, then the date filter, then
      newest first. The result is the record list filtered by both tests and
      reversed, so it holds exactly the passing records in reverse order. */
  function FilteredHistory(records: seq<Record>, sel: Selection, b: Boundaries): (r: seq<Record>)
    ensures Seqs.Reverse(r) == Seqs.Filter(records, x => Passes(sel, b, x))
    ensures forall x :: x in r <==> x in records && Passes(sel, b, x)
  {
    var byEmotion := if sel.emotion != "all" then Seqs.Filter(records, x => EmotionPasses(sel.emotion, x)) else records;
    var byDate := if sel.dateFilter != "all" then Seqs.Filter(byEmotion, (x: Record) => DatePasses(sel.dateFilter, b, sel.customDate, x.timestamp)) else byEmotion;
    FilteredHistorySpec(records, sel, b, byEmotion, byDate);
    Seqs.Reverse(byDate)
  }

  lemma FilteredHistorySpec(records: seq<Record>, sel: Selection, b: Boundaries, byEmotion: seq<Record>, byDate: seq<Record>)
    requires byEmotion == if sel.emotion != "all" then Seqs.Filter(records, x => EmotionPasses(sel.emotion, x)) else records
    requires byDate == if sel.dateFilter != "all" then Seqs.Filter(byEmotion, (x: Record) => DatePasses(sel.dateFilter, b, sel.customDate, x.timestamp)) else byEmotion
    ensures Seqs.Reverse(Seqs.Reverse(byDate)) == Seqs.Filter(records, x => Passes(sel, b, x))
    ensures forall x :: x in Seqs.Reverse(byDate) <==> x in records && Passes(sel, b, x)
  {
    var both := (x: Record) => Passes(sel, b, x);
    FiltersCompose(records, sel, b, byEmotion, byDate);
    Seqs.ReverseReverse(byDate);
    forall x ensures x in Seqs.Reverse(byDate) <==> x in records && Passes(sel, b, x) {
      Seqs.ReverseMembers(byDate, x);
      if x in records && Passes(sel, b, x) {
        Seqs.FilterComplete(records, both, x);
      }
    }
  }

  /** The emotion filter followed by the date filter, each skipped on "all",
      is one filter by `Passes`. */
  lemma FiltersCompose(records: seq<Record>, sel: Selection, b: Boundaries, byEmotion: seq<Record>, byDate: seq<Record>)
    requires byEmotion == if sel.emotion != "all" then Seqs.Filter(records, x => EmotionPasses(sel.emotion, x)) else records
    requires byDate == if sel.dateFilter != "all" then Seqs.Filter(byEmotion, (x: Record) => DatePasses(sel.dateFilter, b, sel.customDate, x.timestamp)) else byEmotion
    ensures byDate == Seqs.Filter(records, x => Passes(sel, b, x))
  {
    var e := (x: Record) => EmotionPasses(sel.emotion, x);
    var d := (x: Record) => DatePasses(sel.dateFilter, b, sel.customDate, x.timestamp);
    var both := (x: Record) => Passes(sel, b, x);
    if sel.emotion != "all" && sel.dateFilter != "all" {
      Seqs.FilterFilter(records, e, d, both);
    } else if sel.emotion != "all" {
      Seqs.FilterSame(records, e, both);
    } else if sel.dateFilter != "all" {
      Seqs.FilterSame(records, d, both);
    } else {
      Seqs.FilterAll(records, both);
    }
  }

  /** The result keeps the original relative order of what it keeps: read
      back to front it is an order-preserving subsequence of the records. */
  lemma FilteredHistoryKeepsOrder(records: seq<Record>, sel: Selection, b: Boundaries)
    ensures Seqs.Subsequence(Seqs.Reverse(FilteredHistory(records, sel, b)), records)
  {
    Seqs.FilterSubsequence(records, x => Passes(sel, b, x));
  }

  /** `hasActiveFilters`. */
  predicate HasActiveFilters(sel: Selection) {
    sel.emotion != "all" || sel.dateFilter != "all"
  }

  /** `clearFilters()`. */
  function ClearFilters(): (sel: Selection)
    ensures !HasActiveFilters(sel) && sel.customDate == NoDate
  {
    Selection("all", "all", NoDate)
  }

  /** Without an active filter the page lists every record, newest first;
      with the emotion filter off and the custom date left empty, the
      "custom" choice filters nothing either. */
  lemma InactiveFiltersKeepEverything(records: seq<Record>, sel: Selection, b: Boundaries)
    requires !HasActiveFilters(sel) ||
      (sel.emotion == "all" && sel.dateFilter == "custom" && sel.customDate == NoDate)
    ensures FilteredHistory(records, sel, b) == Seqs.Reverse(records)
  {
    var r := FilteredHistory(records, sel, b);
    var keep := (x: Record) => Passes(sel, b, x);
    forall x | x in records
      ensures keep(x)
    {
      assert EmotionPasses(sel.emotion, x);
      assert DatePasses(sel.dateFilter, b, sel.customDate, x.timestamp);
    }
    Seqs.FilterAll(records, keep);
    assert Seqs.Reverse(r) == records;
    Seqs.ReverseReverse(r);
  }

  /** "today", "week" and "month" set only a lower bound: a later timestamp
      never falls out. "yesterday" and a custom day are half-open: the day's
      end is excluded. */
  lemma DateFilterShapes(b: Boundaries, custom: CustomDate, t: int, later: int)
    requires t <= later
    ensures forall f :: f in ["today", "week", "month", "all"] && DatePasses(f, b, custom, t) ==> DatePasses(f, b, custom, later)
    ensures !DatePasses("yesterday", b, custom, b.today)
    ensures custom.Day? ==> DatePasses("custom", b, custom, custom.start) == (custom.start < custom.nextDay) && !DatePasses("custom", b, custom, custom.nextDay)
    ensures custom.InvalidDate? ==> !DatePasses("custom", b, custom, t)
  {
  }

  /** `parseInt(record.duration.split(' ')[0])`; `None` stands for `NaN`. */
  function LeadingMinutes(duration: string): (r: Option<int>)
    ensures duration == [] || duration[0] == ' ' ==> r.None?
  {
    Text.ParseIntPrefix(Text.Split(duration, ' ')[0])
  }

  /** A duration written as a number of minutes followed by a non-digit, as
      in "2m 15s", counts as that number of minutes (a lone 0 must not be
      followed by 'x' or 'X', which `parseInt` reads as a hexadecimal
      prefix). */
  lemma LeadingMinutesOfRendered(minutes: nat, rest: string)
    requires rest == [] || !Text.IsDigit(rest[0])
    requires minutes == 0 ==> rest == [] || (rest[0] != 'x' && rest[0] != 'X')
    ensures LeadingMinutes(Text.NatToString(minutes) + rest) == Some(minutes)
  {
    Text.NatToStringHasNo(minutes, ' ');
    Text.SplitSeparatorFreePrefix(Text.NatToString(minutes), rest, ' ');
    Text.SplitFirstPiece(rest, ' ');
    Text.ParseIntPrefixOfRendered(minutes, Text.Split(rest, ' ')[0]);
  }

  /** A duration starting "0x" or "0X" is read as hexadecimal, as in
      "0x5m 0s", which counts as five minutes. */
  lemma HexLeadingMinutes(x: char, h: string, rest: string)
    requires x == 'x' || x == 'X'
    requires h != [] && Text.AllHexDigits(h)
    requires rest == [] || !Text.IsHexDigit(rest[0])
    ensures LeadingMinutes(['0', x] + h + rest) == Some(Text.HexValue(h))
  {
    var p := ['0', x] + h;
    assert ' ' !in p by {
      forall i | 0 <= i < |p| ensures p[i] != ' ' {
        if i >= 2 { assert p[i] == h[i - 2]; }
      }
    }
    Text.SplitSeparatorFreePrefix(p, rest, ' ');
    Text.SplitFirstPiece(rest, ' ');
    var piece := Text.Split(rest, ' ')[0];
    assert p + rest == ['0', x] + h + rest;
    Text.ParseHexThen(x, h, piece);
  }

  /** `totalDuration`: the sum of the leading minutes; one `NaN` makes the
      whole sum `NaN`. */
  function TotalDuration(records: seq<Record>): (total: Option<int>)
    ensures total.Some? <==> forall x :: x in records ==> LeadingMinutes(x.duration).Some?
  {
    if records == [] then Some(0)
    else
      var front := records[..|records| - 1];
      var last := records[|records| - 1];
      assert forall x :: x in records <==> x in front || x == last;
      var before := TotalDuration(front);
      var m := LeadingMinutes(last.duration);
      if before.Some? && m.Some? then Some(before.value + m.value) else None
  }

  /** Durations written in the page's own format add up by their minutes;
      a piece without a leading number, such as the empty piece before a
      leading space, poisons the total. */
  lemma TotalDurationExamples(a: Record, b: Record, c: Record)
    requires a.duration == "2m 15s" && b.duration == "4m 05s" && c.duration == " 30s"
    ensures TotalDuration([a, b]) == Some(6)
    ensures TotalDuration([a, b, c]) == None
  {
    assert "2m 15s" == Text.NatToString(2) + "m 15s";
    assert "4m 05s" == Text.NatToString(4) + "m 05s";
    LeadingMinutesOfRendered(2, "m 15s");
    LeadingMinutesOfRendered(4, "m 05s");
    assert [a, b][..1] == [a] && [a][..0] == [];
    assert TotalDuration([a]) == Some(2);
    assert Text.Split(" 30s", ' ')[0] == "";
    assert LeadingMinutes(c.duration) == None;
    assert c in [a, b, c];
  }

  function SumConfidence(records: seq<Record>): real {
    if records == [] then 0.0 else SumConfidence(records[..|records| - 1]) + records[|records| - 1].confidence
  }

  /** `averageConfidence`: 0 for an empty list, else the mean. */
  function AverageConfidence(records: seq<Record>): (avg: real)
    ensures records == [] ==> avg == 0.0
    ensures records != [] ==> avg * (|records| as real) == SumConfidence(records)
  {
    if |records| > 0 then SumConfidence(records) / (|records| as real) else 0.0
  }

  lemma {:induction false} SumConfidenceBounds(records: seq<Record>)
    requires forall x :: x in records ==> 0.0 <= x.confidence <= 1.0
    ensures 0.0 <= SumConfidence(records) <= |records| as real
  {
    if records != [] {
      var front := records[..|records| - 1];
      assert forall x :: x in front ==> x in records;
      assert records[|records| - 1] in records;
      SumConfidenceBounds(front);
    }
  }

  /** Confidences in [0, 1] average to a value in [0, 1]. */
  lemma AverageConfidenceBounds(records: seq<Record>)
    requires forall x :: x in records ==> 0.0 <= x.confidence <= 1.0
    ensures 0.0 <= AverageConfidence(records) <= 1.0
  {
    SumConfidenceBounds(records);
  }

  /** How the page renders the three formatted fields (`toFixed`,
      `toLocaleDateString`, `toLocaleTimeString`). */
  datatype Formats = Formats(percent: real -> string, date: int -> string, time: int -> string)

  /** The header exactly as `history/page.tsx` writes it: its "Emoción" and
      "Duración" carry U+8D38 where the other pages have 'ó' (the panel's
      header is `HistoryPanel.HeaderFields`). */
  const HeaderFields: seq<string> := ["ID", "Emoci\U{8D38}n", "Confianza", "Fecha", "Hora", "Duraci\U{8D38}n"]

  /** The six fields of a record's CSV line. */
  function RecordFields(r: Record, f: Formats): (fields: seq<string>)
    ensures |fields| == 6 && fields[1] == r.emotion.Label() && fields[5] == r.duration
  {
    [Text.NatToString(r.id), r.emotion.Label(), f.percent(r.confidence), f.date(r.timestamp), f.time(r.timestamp), r.duration]
  }

  /** `csvContent` of `exportData`: the header and one line per listed
      record, in the listed (newest-first) order. The header line comes
      first, and with nothing listed it is the whole export. */
  function CsvContent(listed: seq<Record>, f: Formats): (c: string)
    ensures Text.Join(HeaderFields, ',') <= c
    ensures listed == [] ==> c == Text.Join(HeaderFields, ',')
  {
    Csv.Document(ExportLines(listed, f))
  }

  /** The fields of the export, line by line. */
  function ExportLines(listed: seq<Record>, f: Formats): (lines: seq<seq<string>>)
    ensures |lines| == |listed| + 1 && lines[0] == HeaderFields
    ensures forall i :: 0 <= i < |listed| ==> lines[i + 1] == RecordFields(listed[i], f)
  {
    [HeaderFields] + seq(|listed|, i requires 0 <= i < |listed| => RecordFields(listed[i], f))
  }

  /** Each field of a record's line is plain when its formatted fields and
      its duration are. */
  lemma RecordFieldsPlain(x: Record, f: Formats)
    requires Csv.Plain(f.percent(x.confidence)) && Csv.Plain(f.date(x.timestamp))
    requires Csv.Plain(f.time(x.timestamp)) && Csv.Plain(x.duration)
    ensures forall j :: 0 <= j < 6 ==> Csv.Plain(RecordFields(x, f)[j])
  {
    LabelIsPlainAndInjective(x.emotion, x.emotion);
    Text.NatToStringHasNo(x.id, ',');
    Text.NatToStringHasNo(x.id, '\n');
  }

  /** The first field of a record's line parses back to its id. */
  lemma IdFieldReadsBack(x: Record, f: Formats)
    ensures Text.ParseIntPrefix(RecordFields(x, f)[0]) == Some(x.id as int)
  {
    Text.ParseIntPrefixOfRendered(x.id, "");
    assert Text.NatToString(x.id) + "" == Text.NatToString(x.id);
  }

  /** When the formatted fields and durations contain no comma or line break,
      the export reads back: a header, then for each listed record a line
      whose first field parses to its id and whose other fields are its
      label, its formatted fields and its duration. */
  lemma CsvReadsBack(listed: seq<Record>, f: Formats)
    requires forall x :: x in listed ==>
      Csv.Plain(f.percent(x.confidence)) && Csv.Plain(f.date(x.timestamp)) &&
      Csv.Plain(f.time(x.timestamp)) && Csv.Plain(x.duration)
    ensures |Text.Split(CsvContent(listed, f), '\n')| == |listed| + 1
    ensures Text.Split(Text.Split(CsvContent(listed, f), '\n')[0], ',') == HeaderFields
    ensures forall i :: 0 <= i < |listed| ==>
      Text.Split(Text.Split(CsvContent(listed, f), '\n')[i + 1], ',') == RecordFields(listed[i], f)
  {
    ExportLinesPlain(listed, f);
    Csv.DocumentReadsBack(ExportLines(listed, f));
  }

  /** With plain formatted fields and durations every field of the export is
      plain. */
  lemma ExportLinesPlain(listed: seq<Record>, f: Formats)
    requires forall x :: x in listed ==>
      Csv.Plain(f.percent(x.confidence)) && Csv.Plain(f.date(x.timestamp)) &&
      Csv.Plain(f.time(x.timestamp)) && Csv.Plain(x.duration)
    ensures forall i, j :: 0 <= i < |ExportLines(listed, f)| && 0 <= j < |ExportLines(listed, f)[i]| ==>
      Csv.Plain(ExportLines(listed, f)[i][j])
  {
    var rows := ExportLines(listed, f);
    assert forall j :: 0 <= j < 6 ==> Csv.Plain(HeaderFields[j]);
    forall i | 1 <= i < |rows| ensures forall j :: 0 <= j < |rows[i]| ==> Csv.Plain(rows[i][j]) {
      var x := listed[i - 1];
      assert x in listed;
      RecordFieldsPlain(x, f);
    }
  }
}

=== FILE: history_panel.dfy ===
/** The pure parts of the history panel, `frontend/components/emotion-history.tsx`:
    the newest-first copy it lists, its CSV export and when the export button
    is disabled. Its `formatTime` is `RelativeTime.FormatTime`. */
module HistoryPanel {
  import opened Vocabulary
  import Seqs
  import Text
  import Csv

  /** One reading handed to the panel; the timestamp is in milliseconds. */
  datatype EmotionData = EmotionData(emotion: Emotion, confidence: real, timestamp: int)

  /** `reversedData`: a reversed copy; the value `data` is not touched. */
  function ReversedData(data: seq<EmotionData>): (r: seq<EmotionData>)
    ensures |r| == |data|
    ensures forall i :: 0 <= i < |data| ==> r[i] == data[|data| - 1 - i]
    ensures Seqs.Reverse(r) == data
  {
    Seqs.ReverseReverse(data);
    Seqs.Reverse(data)
  }

  predicate Chronological(data: seq<EmotionData>) {
    forall i, j :: 0 <= i < j < |data| ==> data[i].timestamp <= data[j].timestamp
  }

  /** Readings handed over oldest first are listed newest first. */
  lemma ReversedDataNewestFirst(data: seq<EmotionData>)
    requires Chronological(data)
    ensures forall i, j :: 0 <= i < j < |data| ==>
      ReversedData(data)[i].timestamp >= ReversedData(data)[j].timestamp
  {
  }

  /** How the panel renders its formatted fields (`toFixed`,
      `toLocaleDateString`, `toLocaleTimeString`). */
  datatype Formats = Formats(percent: real -> string, date: int -> string, time: int -> string)

  const HeaderFields: seq<string> := ["Emoción", "Confianza", "Fecha", "Hora"]

  function ItemFields(item: EmotionData, f: Formats): (fields: seq<string>)
    ensures |fields| == 4 && fields[0] == item.emotion.Label()
  {
    [item.emotion.Label(), f.percent(item.confidence), f.date(item.timestamp), f.time(item.timestamp)]
  }

  /** `csvContent` of `exportData`: the header, then one line per item of
      `data` in its original (not reversed) order. The header line comes
      first, and with no data it is the whole export. */
  function CsvContent(data: seq<EmotionData>, f: Formats): (c: string)
    ensures Text.Join(HeaderFields, ',') <= c
    ensures data == [] ==> c == Text.Join(HeaderFields, ',')
  {
    Csv.Document(ExportLines(data, f))
  }

  /** The fields of the export, line by line. */
  function ExportLines(data: seq<EmotionData>, f: Formats): (lines: seq<seq<string>>)
    ensures |lines| == |data| + 1 && lines[0] == HeaderFields
    ensures forall i :: 0 <= i < |data| ==> lines[i + 1] == ItemFields(data[i], f)
  {
    [HeaderFields] + seq(|data|, i requires 0 <= i < |data| => ItemFields(data[i], f))
  }

  /** When the formatted fields contain no comma or line break, the export
      reads back: a header, then one line per item in the order of `data`,
      whose first field names the item's emotion. */
  lemma CsvReadsBack(data: seq<EmotionData>, f: Formats)
    requires forall x :: x in data ==>
      Csv.Plain(f.percent(x.confidence)) && Csv.Plain(f.date(x.timestamp)) && Csv.Plain(f.time(x.timestamp))
    ensures |Text.Split(CsvContent(data, f), '\n')| == |data| + 1
    ensures Text.Split(Text.Split(CsvContent(data, f), '\n')[0], ',') == HeaderFields
    ensures forall i :: 0 <= i < |data| ==>
      Text.Split(Text.Split(CsvContent(data, f), '\n')[i + 1], ',') == ItemFields(data[i], f)
  {
    ExportLinesPlain(data, f);
    Csv.DocumentReadsBack(ExportLines(data, f));
  }

  /** With plain formatted fields every field of the export is plain. */
  lemma ExportLinesPlain(data: seq<EmotionData>, f: Formats)
    requires forall x :: x in data ==>
      Csv.Plain(f.percent(x.confidence)) && Csv.Plain(f.date(x.timestamp)) && Csv.Plain(f.time(x.timestamp))
    ensures forall i, j :: 0 <= i < |ExportLines(data, f)| && 0 <= j < |ExportLines(data, f)[i]| ==>
      Csv.Plain(ExportLines(data, f)[i][j])
  {
    var rows := ExportLines(data, f);
    assert Csv.Plain("Emoción");
    assert forall j :: 0 <= j < 4 ==> Csv.Plain(HeaderFields[j]);
    forall i | 1 <= i < |rows| ensures forall j :: 0 <= j < |rows[i]| ==> Csv.Plain(rows[i][j]) {
      var x := data[i - 1];
      assert x in data;
      assert rows[i] == ItemFields(x, f);
      LabelIsPlainAndInjective(x.emotion, x.emotion);
    }
  }

  /** The export button's `disabled` condition. */
  predicate ExportDisabled(isExporting: bool, data: seq<EmotionData>) {
    isExporting || |data| == 0
  }

  /** An export that can be started writes at least one reading after the
      header, and the first line after the header names the first reading. */
  lemma EnabledExportHasData(isExporting: bool, data: seq<EmotionData>, f: Formats)
    requires !ExportDisabled(isExporting, data)
    requires forall x :: x in data ==>
      Csv.Plain(f.percent(x.confidence)) && Csv.Plain(f.date(x.timestamp)) && Csv.Plain(f.time(x.timestamp))
    ensures !isExporting && |data| >= 1
    ensures |Text.Split(CsvContent(data, f), '\n')| >= 2
    ensures Text.Split(Text.Split(CsvContent(data, f), '\n')[1], ',')[0] == data[0].emotion.Label()
  {
    CsvReadsBack(data, f);
  }
}

=== FILE: relative_time.dfy ===
/** `formatTime(date)`, written out identically in the history page and the
    history panel: the elapsed milliseconds `now - date` as "Ahora" or as a
    whole number of minutes, hours or days, each by floor division. */
module RelativeTime {
  import opened Wrappers
  import Text

  const MinuteMs: int := 60000
  const HourMs: int := 3600000
  const DayMs: int := 86400000

  /** The bucket an elapsed time falls in, with its count. */
  datatype Elapsed = JustNow | Minutes(n: nat) | Hours(n: nat) | Days(n: nat)

  /** The branch `formatTime` takes on the difference `diff`. Dafny's `/` by
      a positive constant is `Math.floor` of the quotient, negative `diff`
      included. */
  function Bucket(diff: int): (b: Elapsed)
    ensures b.JustNow? <==> diff < MinuteMs
    ensures b.Minutes? <==> MinuteMs <= diff < HourMs
    ensures b.Hours? <==> HourMs <= diff < DayMs
    ensures b.Minutes? ==> 1 <= b.n < 60 && b.n * MinuteMs <= diff < (b.n + 1) * MinuteMs
    ensures b.Hours? ==> 1 <= b.n < 24 && b.n * HourMs <= diff < (b.n + 1) * HourMs
    ensures b.Days? ==> 1 <= b.n && b.n * DayMs <= diff < (b.n + 1) * DayMs
  {
    var minutes := diff / MinuteMs;
    var hours := diff / HourMs;
    var days := diff / DayMs;
    if minutes < 1 then JustNow
    else if minutes < 60 then Minutes(minutes)
    else if hours < 24 then Hours(hours)
    else Days(days)
  }

  /** The text shown for a bucket. */
  function Render(b: Elapsed): string {
    match b
    case JustNow => "Ahora"
    case Minutes(n) => "Hace " + Text.NatToString(n) + "m"
    case Hours(n) => "Hace " + Text.NatToString(n) + "h"
    case Days(n) => "Hace " + Text.NatToString(n) + "d"
  }

  function Unit(b: Elapsed): char {
    match b
    case JustNow => ' '
    case Minutes(_) => 'm'
    case Hours(_) => 'h'
    case Days(_) => 'd'
  }

  /** `formatTime`: the clock reading is a parameter. "Ahora" means less than
      a minute has passed; otherwise the text is "Hace " followed by the
      elapsed time floored to whole minutes, hours or days and its unit. */
  function FormatTime(now: int, date: int): (r: string)
    ensures r == "Ahora" <==> now - date < MinuteMs
    ensures MinuteMs <= now - date < HourMs ==> (|r| > 6 && r[..5] == "Hace " &&
      Text.ParseIntPrefix(r[5..]) == Some((now - date) / MinuteMs) && r[|r| - 1] == 'm')
    ensures HourMs <= now - date < DayMs ==> (|r| > 6 && r[..5] == "Hace " &&
      Text.ParseIntPrefix(r[5..]) == Some((now - date) / HourMs) && r[|r| - 1] == 'h')
    ensures DayMs <= now - date ==> (|r| > 6 && r[..5] == "Hace " &&
      Text.ParseIntPrefix(r[5..]) == Some((now - date) / DayMs) && r[|r| - 1] == 'd')
  {
    RenderReadsBack(Bucket(now - date));
    Render(Bucket(now - date))
  }

  /** A rendered bucket reads back: the count follows "Hace " and the unit is
      the last character; "Ahora" is only ever the text of `JustNow`. */
  lemma RenderReadsBack(b: Elapsed)
    ensures b.JustNow? <==> Render(b) == "Ahora"
    ensures !b.JustNow? ==>
      |Render(b)| > 6 && Render(b)[..5] == "Hace " &&
      Text.ParseIntPrefix(Render(b)[5..]) == Some(b.n) &&
      Render(b)[|Render(b)| - 1] == Unit(b)
  {
    if !b.JustNow? {
      var r := Render(b);
      var digits := Text.NatToString(b.n);
      assert r == "Hace " + digits + [Unit(b)];
      assert r[5..] == digits + [Unit(b)];
      Text.ParseIntPrefixOfRendered(b.n, [Unit(b)]);
      assert r[..5] == "Hace ";
    }
  }

  /** Distinct buckets are shown as distinct texts. */
  lemma RenderInjective(a: Elapsed, b: Elapsed)
    ensures Render(a) == Render(b) ==> a == b
  {
    RenderReadsBack(a);
    RenderReadsBack(b);
  }

  /** A later clock never moves a time into an earlier bucket: "Ahora" turns
      into minutes, minutes into hours, hours into days. */
  lemma BucketMonotone(d1: int, d2: int)
    requires d1 <= d2
    ensures Bucket(d2).JustNow? ==> Bucket(d1).JustNow?
    ensures Bucket(d2).Minutes? ==> Bucket(d1).JustNow? || (Bucket(d1).Minutes? && Bucket(d1).n <= Bucket(d2).n)
    ensures Bucket(d1).Days? ==> Bucket(d2).Days? && Bucket(d1).n <= Bucket(d2).n
  {
  }
}

=== FILE: rounding.dfy ===
/** `Math.round` applied to a percentage `count / total * 100` of whole
    counts, computed exactly: JavaScript rounds halves up, so the result is
    the floor of `100 * count / total + 1/2`. */
module Rounding {

  /** `total > 0 ? Math.round((count / total) * 100) : 0`. The bracket
      `2t*p <= 200c + t < 2t*(p + 1)` says that `p` is within half a point of
      `100c/t`, halves going up. */
  function RoundPercent(count: nat, total: nat): (p: nat)
    ensures total == 0 ==> p == 0
    ensures total > 0 ==> 2 * total * p <= 200 * count + total < 2 * total * (p + 1)
    ensures count <= total ==> p <= 100
  {
    if total > 0 then
      var p := (200 * count + total) / (2 * total);
      DivBounds(200 * count + total, 2 * total);
      if count <= total then
        BelowByBound(p, 2 * total, 101);
        p
      else p
    else 0
  }

  /** Euclidean division brackets its dividend. */
  lemma DivBounds(x: nat, d: nat)
    requires d > 0
    ensures d * (x / d) <= x < d * (x / d + 1)
  {
  }

  /** `d * p < d * b` with `d > 0` forces `p < b`. */
  lemma BelowByBound(p: nat, d: nat, b: nat)
    requires d > 0 && d * p < d * b
    ensures p < b
  {
    if p >= b {
      MulMonotone(d, b, p);
    }
  }

  lemma MulMonotone(d: nat, a: nat, b: nat)
    requires a <= b
    ensures d * a <= d * b
  {
  }

  /** One of three is 33%, a half is 50%, and an exact half point such as
      12.5% rounds up. */
  lemma RoundPercentExamples()
    ensures RoundPercent(1, 3) == 33 && RoundPercent(1, 2) == 50 && RoundPercent(1, 8) == 13
    ensures RoundPercent(5, 5) == 100 && RoundPercent(0, 7) == 0 && RoundPercent(3, 0) == 0
  {
  }
}

=== FILE: seqs.dfy ===
/** Generic folds over sequences that several source files perform with
    `filter`, `reverse`, `reduce` and dictionary-counting loops. */
module Seqs {

  /** No element occurs twice. */
  predicate Distinct<T(==)>(s: seq<T>) {
    forall i, j :: 0 <= i < j < |s| ==> s[i] != s[j]
  }

  /** The order-preserving subsequence relation: `a` is obtained from `b` by
      deleting elements. */
  predicate Subsequence<T(==)>(a: seq<T>, b: seq<T>)
    decreases |b|
  {
    if b == [] then a == []
    else Subsequence(a, b[1..]) || (a != [] && a[0] == b[0] && Subsequence(a[1..], b[1..]))
  }

  // ---------------------------------------------------------------------------
  // Keys in order of first appearance (the insertion order of a dictionary
  // that is filled by walking the sequence from the front)
  // ---------------------------------------------------------------------------

  /** The distinct elements of `s`, each placed where it first occurs. */
  function Keys<T(==,!new)>(s: seq<T>): (r: seq<T>)
    ensures forall x :: x in r <==> x in s
    ensures Distinct(r)
    ensures |r| <= |s|
  {
    if s == [] then []
    else
      var p := Keys(s[..|s| - 1]);
      assert s == s[..|s| - 1] + [s[|s| - 1]];
      if s[|s| - 1] in p then p else p + [s[|s| - 1]]
  }

  /** Extending a sequence by one element extends its keys only when the
      element is new. */
  lemma KeysSnoc<T(!new)>(s: seq<T>, x: T)
    ensures Keys(s + [x]) == if x in s then Keys(s) else Keys(s) + [x]
  {
    assert (s + [x])[..|s + [x]| - 1] == s;
  }

  /** Sum of the multiplicities that `m` gives to `keys`. */
  function SumCounts<T>(keys: seq<T>, m: multiset<T>): nat {
    if keys == [] then 0 else SumCounts(keys[..|keys| - 1], m) + m[keys[|keys| - 1]]
  }

  lemma {:induction false} SumCountsAdd<T>(keys: seq<T>, m: multiset<T>, x: T)
    requires Distinct(keys)
    ensures SumCounts(keys, m + multiset{x}) == SumCounts(keys, m) + (if x in keys then 1 else 0)
  {
    if keys != [] {
      var init := keys[..|keys| - 1];
      assert keys == init + [keys[|keys| - 1]];
      assert Distinct(init);
      SumCountsAdd(init, m, x);
      assert x in keys <==> x in init || x == keys[|keys| - 1];
    }
  }

  /** Counting every key once, in first-appearance order, accounts for every
      element of the sequence: the per-key counts sum to the length. */
  lemma {:induction false} KeysCountsSum<T(!new)>(s: seq<T>)
    ensures SumCounts(Keys(s), multiset(s)) == |s|
  {
    if s != [] {
      var p, x := s[..|s| - 1], s[|s| - 1];
      assert s == p + [x];
      KeysCountsSum(p);
      SumCountsAdd(Keys(p), multiset(p), x);
      if x !in Keys(p) {
        assert Keys(s) == Keys(p) + [x];
        assert (Keys(p) + [x])[..|Keys(p)|] == Keys(p);
        assert multiset(p)[x] == 0;
      }
    }
  }

  /** Sum over `keys` of `m[k] * c`, the shape of a table of percentages. */
  function SumScaled<T>(keys: seq<T>, m: multiset<T>, c: real): real {
    if keys == [] then 0.0 else SumScaled(keys[..|keys| - 1], m, c) + (m[keys[|keys| - 1]] as real) * c
  }

  lemma {:induction false} SumScaledFactor<T>(keys: seq<T>, m: multiset<T>, c: real)
    ensures SumScaled(keys, m, c) == (SumCounts(keys, m) as real) * c
  {
    if keys != [] {
      SumScaledFactor(keys[..|keys| - 1], m, c);
    }
  }

  /** Per-key counts that add up to `n`, each scaled by `c`, add up to
      `n * c`. */
  lemma SumScaledIsWhole<T>(keys: seq<T>, m: multiset<T>, c: real, n: nat, w: real)
    requires SumCounts(keys, m) == n && (n as real) * c == w
    ensures SumScaled(keys, m, c) == w
  {
    SumScaledFactor(keys, m, c);
  }

  /** Sum over `keys` of the values a table gives them (a missing key adds
      nothing). */
  function SumValues<T>(keys: seq<T>, table: map<T, real>): real {
    if keys == [] then 0.0
    else
      var k := keys[|keys| - 1];
      SumValues(keys[..|keys| - 1], table) + (if k in table then table[k] else 0.0)
  }

  /** A table of percentages `counts[k] / n * 100`, with the counts taken
      from `m`, sums over `keys` to the counts scaled by `c = 100 / n`. */
  lemma SumPercentages<T>(keys: seq<T>, counts: map<T, nat>, table: map<T, real>, m: multiset<T>, n: nat, c: real)
    requires n > 0 && c == 100.0 / (n as real)
    requires forall k :: k in keys ==> k in counts && counts[k] == m[k]
    requires table.Keys == counts.Keys
    requires forall k :: k in table ==> table[k] == (counts[k] as real) / (n as real) * 100.0
    ensures SumValues(keys, table) == SumScaled(keys, m, c)
  {
    forall k | k in keys
      ensures k in table && table[k] == (m[k] as real) * c
    {
      PercentEntry(counts, table, m, n, c, k);
    }
    SumValuesScaled(keys, table, m, c);
  }

  /** One entry of such a table is its count scaled by `c`. */
  lemma PercentEntry<T>(counts: map<T, nat>, table: map<T, real>, m: multiset<T>, n: nat, c: real, k: T)
    requires n > 0 && c == 100.0 / (n as real)
    requires k in counts && counts[k] == m[k] && k in table
    requires table[k] == (counts[k] as real) / (n as real) * 100.0
    ensures table[k] == (m[k] as real) * c
  {
    PercentOfCount(m[k], n);
  }

  /** A table holding `m[k] * c` for each key sums to the scaled counts. */
  lemma {:induction false} SumValuesScaled<T>(keys: seq<T>, table: map<T, real>, m: multiset<T>, c: real)
    requires forall k :: k in keys ==> k in table && table[k] == (m[k] as real) * c
    ensures SumValues(keys, table) == SumScaled(keys, m, c)
  {
    if keys != [] {
      SumValuesScaled(keys[..|keys| - 1], table, m, c);
    }
  }

  /** `d / n * 100` is `d` scaled by `100 / n`. */
  lemma PercentOfCount(d: nat, n: nat)
    requires n > 0
    ensures (d as real) / (n as real) * 100.0 == (d as real) * (100.0 / (n as real))
  {
  }

  /** When `c` is the share of one element in a whole worth `w`, the scaled
      per-key counts add up to `w`. */
  lemma KeysScaledSumIsWhole<T(!new)>(s: seq<T>, c: real, w: real)
    requires (|s| as real) * c == w
    ensures SumScaled(Keys(s), multiset(s), c) == w
  {
    KeysCountsSum(s);
    SumScaledIsWhole(Keys(s), multiset(s), c, |s|, w);
  }

  // ---------------------------------------------------------------------------
  // Filter and reverse
  // ---------------------------------------------------------------------------

  /** `s.filter(p)`: the elements satisfying `p`, in their original order. */
  function Filter<T(!new)>(s: seq<T>, p: T -> bool): (r: seq<T>)
    ensures |r| <= |s|
    ensures forall x :: x in r ==> x in s && p(x)
  {
    if s == [] then [] else (if p(s[0]) then [s[0]] else []) + Filter(s[1..], p)
  }

  /** Nothing satisfying `p` is lost. */
  lemma {:induction false} FilterComplete<T(!new)>(s: seq<T>, p: T -> bool, x: T)
    requires x in s && p(x)
    ensures x in Filter(s, p)
  {
    if s[0] != x {
      FilterComplete(s[1..], p, x);
    }
  }

  /** Filtering distributes over concatenation: relative order is kept. */
  lemma {:induction false} FilterConcat<T(!new)>(a: seq<T>, b: seq<T>, p: T -> bool)
    ensures Filter(a + b, p) == Filter(a, p) + Filter(b, p)
  {
    if a != [] {
      assert (a + b)[0] == a[0] && (a + b)[1..] == a[1..] + b;
      FilterConcat(a[1..], b, p);
    } else {
      assert a + b == b;
    }
  }

  /** The result of a filter is an order-preserving subsequence of its input. */
  lemma {:induction false} FilterSubsequence<T(!new)>(s: seq<T>, p: T -> bool)
    ensures Subsequence(Filter(s, p), s)
  {
    if s != [] {
      FilterSubsequence(s[1..], p);
      if p(s[0]) {
        var r := Filter(s, p);
        assert r == [s[0]] + Filter(s[1..], p);
        assert r != [] && r[0] == s[0] && r[1..] == Filter(s[1..], p);
      } else {
        assert Filter(s, p) == [] + Filter(s[1..], p) == Filter(s[1..], p);
      }
    }
  }

  /** A filter keeps everything when every element passes. */
  lemma {:induction false} FilterAll<T(!new)>(s: seq<T>, p: T -> bool)
    requires forall x :: x in s ==> p(x)
    ensures Filter(s, p) == s
  {
    if s != [] {
      FilterAll(s[1..], p);
    }
  }

  /** Filtering depends only on which elements the predicate accepts. */
  lemma {:induction false} FilterSame<T(!new)>(s: seq<T>, p: T -> bool, q: T -> bool)
    requires forall x :: p(x) == q(x)
    ensures Filter(s, p) == Filter(s, q)
  {
    if s != [] {
      FilterSame(s[1..], p, q);
    }
  }

  /** Two filters in a row are one filter on the conjunction. */
  lemma {:induction false} FilterFilter<T(!new)>(s: seq<T>, p: T -> bool, q: T -> bool, both: T -> bool)
    requires forall x :: both(x) == (p(x) && q(x))
    ensures Filter(Filter(s, p), q) == Filter(s, both)
  {
    if s != [] {
      var head, tail := s[0], s[1..];
      FilterFilter(tail, p, q, both);
      var rest := Filter(tail, p);
      if p(head) {
        var f := [head] + rest;
        assert Filter(s, p) == f;
        assert f[0] == head && f[1..] == rest;
        assert Filter(f, q) == (if q(head) then [head] else []) + Filter(rest, q);
      } else {
        assert Filter(s, p) == [] + rest == rest;
      }
      assert Filter(s, both) == (if both(head) then [head] else []) + Filter(tail, both);
    }
  }

  /** `[...s].reverse()`: a reversed copy. */
  function Reverse<T>(s: seq<T>): (r: seq<T>)
    ensures |r| == |s|
    ensures forall i :: 0 <= i < |s| ==> r[i] == s[|s| - 1 - i]
  {
    if s == [] then [] else Reverse(s[1..]) + [s[0]]
  }

  /** Reversing twice gives the original back. */
  lemma ReverseReverse<T>(s: seq<T>)
    ensures Reverse(Reverse(s)) == s
  {
  }

  /** Reversal keeps exactly the same elements. */
  lemma ReverseMembers<T>(s: seq<T>, x: T)
    ensures x in Reverse(s) <==> x in s
  {
    if x in s {
      var i :| 0 <= i < |s| && s[i] == x;
      assert Reverse(s)[|s| - 1 - i] == x;
    }
  }

  // ---------------------------------------------------------------------------
  // Arg-max folds with their two tie rules
  // ---------------------------------------------------------------------------

  /** Index picked by `entries.reduce((a, b) => a[1] > b[1] ? a : b)`: the
      accumulator survives only when strictly greater, so among equal maxima
      the LAST one wins. */
  function LastMaxIndex<T>(keys: seq<T>, m: map<T, int>): (i: nat)
    requires |keys| > 0
    requires forall k :: k in keys ==> k in m
    ensures i < |keys|
    ensures forall j :: 0 <= j < |keys| ==> m[keys[j]] <= m[keys[i]]
    ensures forall j :: i < j < |keys| ==> m[keys[j]] < m[keys[i]]
  {
    if |keys| == 1 then 0
    else
      var a := LastMaxIndex(keys[..|keys| - 1], m);
      assert keys[..|keys| - 1][a] == keys[a];
      if m[keys[a]] > m[keys[|keys| - 1]] then a else |keys| - 1
  }

  /** Index picked by Python's `max(d, key=d.get)` over a dictionary whose
      insertion order is `keys`: a later key replaces the current choice only
      when strictly greater, so among equal maxima the FIRST one wins. */
  function FirstMaxIndex<T>(keys: seq<T>, m: map<T, real>): (i: nat)
    requires |keys| > 0
    requires forall k :: k in keys ==> k in m
    ensures i < |keys|
    ensures forall j :: 0 <= j < |keys| ==> m[keys[j]] <= m[keys[i]]
    ensures forall j :: 0 <= j < i ==> m[keys[j]] < m[keys[i]]
  {
    if |keys| == 1 then 0
    else
      var a := FirstMaxIndex(keys[..|keys| - 1], m);
      assert keys[..|keys| - 1][a] == keys[a];
      if m[keys[|keys| - 1]] > m[keys[a]] then |keys| - 1 else a
  }
}

=== FILE: spotify_client.dfy ===
/** The Spotify client of `frontend/lib/spotify-client.ts`: the playlist-key
    table and the way `playEmotion`, `pauseMusic` and `getDevices` turn the
    outcome of their request into a result. The request itself is an input:
    how `fetch` settled and what `response.json()` yields. */
module SpotifyClient {
  import opened Wrappers
  import opened StreamVocabulary
  import StreamClient

  /** The keys the backend knows its playlists by. */
  const PlaylistKeys: seq<string> := ["happy", "sad", "neutral", "angry", "surprise", "disgust", "fear"]

  predicate IsLowerWord(s: string) {
    forall i :: 0 <= i < |s| ==> 'a' <= s[i] <= 'z'
  }

  /** `emotionMapping`: the English lowercase key sent for each emotion. */
  function PlaylistKey(e: StreamEmotion): (key: string)
    ensures key in PlaylistKeys
    ensures key != "" && IsLowerWord(key)
  {
    match e
    case Feliz => "happy"
    case Triste => "sad"
    case Neutral => "neutral"
    case Enojado => "angry"
    case Sorprendido => "surprise"
    case Disgusto => "disgust"
    case Miedo => "fear"
  }

  /** Distinct emotions are sent as distinct keys. */
  lemma PlaylistKeyInjective(a: StreamEmotion, b: StreamEmotion)
    ensures PlaylistKey(a) == PlaylistKey(b) ==> a == b
  {
  }

  /** Every playlist key is the key of some emotion. */
  lemma {:induction false} PlaylistKeysCovered(key: string)
    requires key in PlaylistKeys
    ensures exists e :: PlaylistKey(e) == key
  {
    var i :| 0 <= i < |PlaylistKeys| && PlaylistKeys[i] == key;
    if i == 0 { assert PlaylistKey(Feliz) == key; }
    else if i == 1 { assert PlaylistKey(Triste) == key; }
    else if i == 2 { assert PlaylistKey(Neutral) == key; }
    else if i == 3 { assert PlaylistKey(Enojado) == key; }
    else if i == 4 { assert PlaylistKey(Sorprendido) == key; }
    else if i == 5 { assert PlaylistKey(Disgusto) == key; }
    else { assert PlaylistKey(Miedo) == key; }
  }

  function LowerChar(c: char): char {
    if 'A' <= c <= 'Z' then (c as int + 32) as char else c
  }

  /** ASCII lower-casing. */
  function ToLower(s: string): (r: string)
    ensures |r| == |s| && forall i :: 0 <= i < |s| ==> r[i] == LowerChar(s[i])
  {
    seq(|s|, i requires 0 <= i < |s| => LowerChar(s[i]))
  }

  /** A label received from the stream and passed on to the player reaches
      the backend as the lowercase form of the label the stream sent. */
  lemma {:induction false} WireLabelToPlaylistKey(tag: string)
    requires tag in StreamClient.WireLabels
    ensures PlaylistKey(StreamClient.DecodeLabel(tag)) == ToLower(tag)
  {
    var i :| 0 <= i < |StreamClient.WireLabels| && StreamClient.WireLabels[i] == tag;
    if i < 4 {
      LowerWireLabelsFront(i);
    } else {
      LowerWireLabelsBack(i);
    }
  }

  lemma LowerWireLabelsFront(i: nat)
    requires i < 4
    ensures PlaylistKey(StreamClient.DecodeLabel(StreamClient.WireLabels[i])) == ToLower(StreamClient.WireLabels[i])
  {
    var l := ToLower(StreamClient.WireLabels[i]);
    if i == 0 { assert l == "happy"; }
    else if i == 1 { assert l == "sad"; }
    else if i == 2 { assert l == "angry"; }
    else { assert l == "surprise"; }
  }

  lemma LowerWireLabelsBack(i: nat)
    requires 4 <= i < 7
    ensures PlaylistKey(StreamClient.DecodeLabel(StreamClient.WireLabels[i])) == ToLower(StreamClient.WireLabels[i])
  {
    var l := ToLower(StreamClient.WireLabels[i]);
    if i == 4 { assert l == "disgust"; }
    else if i == 5 { assert l == "fear"; }
    else { assert l == "neutral"; }
  }

  /** `NEXT_PUBLIC_API_URL`, or the local backend when it is unset or empty. */
  function BackendUrl(env: Option<string>): (url: string)
    ensures StreamClient.Truthy(env) ==> url == env.value
    ensures !StreamClient.Truthy(env) ==> url == "http://localhost:8000"
  {
    if env.Some? && env.value != "" then env.value else "http://localhost:8000"
  }

  /** The JSON body `{"emotion": key}` that `playEmotion` posts. */
  function PlayRequestBody(e: StreamEmotion): (body: string) {
    "{\"emotion\":\"" + PlaylistKey(e) + "\"}"
  }

  /** The posted body names the emotion: its key sits between a fixed
      prefix and a fixed suffix, so distinct emotions post distinct bodies. */
  lemma PlayRequestBodyNamesKey(e: StreamEmotion)
    ensures |PlayRequestBody(e)| == 14 + |PlaylistKey(e)|
    ensures PlayRequestBody(e)[12..|PlayRequestBody(e)| - 2] == PlaylistKey(e)
  {
  }

  lemma PlayRequestBodyInjective(a: StreamEmotion, b: StreamEmotion)
    ensures PlayRequestBody(a) == PlayRequestBody(b) ==> a == b
  {
    PlayRequestBodyNamesKey(a);
    PlayRequestBodyNamesKey(b);
    PlaylistKeyInjective(a, b);
  }

  /** What `response.json()` yields: a parse failure (it rejects), `null`
      (reading a property of it throws), or any other value, of which only
      a truthy `devices` property matters. */
  datatype Body = Unparsable | JsonNull | JsonValue(devices: Option<seq<string>>)

  /** How the request settles: `fetch` rejects, or a response arrives. */
  datatype FetchOutcome = NetworkError | Response(ok: bool, body: Body)

  /** `playEmotion(emotion)`: every path inside the `try` that fails or
      throws ends in `false`; only an OK response whose body can be read
      gives `true`. It never throws. */
  function PlayEmotion(o: FetchOutcome): (played: bool)
    ensures played <==> o.Response? && o.ok && o.body.JsonValue?
  {
    match o
    case NetworkError => false
    case Response(ok, body) =>
      if !ok then false
      else
        match body
        case Unparsable => false
        case JsonNull => false
        case JsonValue(_) => true
  }

  /** `pauseMusic()`: the same branching as `playEmotion`. */
  function PauseMusic(o: FetchOutcome): (paused: bool)
    ensures paused <==> o.Response? && o.ok && o.body.JsonValue?
  {
    match o
    case NetworkError => false
    case Response(ok, body) =>
      ok && match body
            case Unparsable => false
            case JsonNull => false
            case JsonValue(_) => true
  }

  /** `getDevices()`: the `devices` of an OK response (`[]` when absent), and
      `[]` on any failure. */
  function GetDevices(o: FetchOutcome): (devices: seq<string>)
    ensures o.Response? && o.ok && o.body.JsonValue? && o.body.devices.Some? ==>
      devices == o.body.devices.value
    ensures !(o.Response? && o.ok && o.body.JsonValue?) ==> devices == []
    ensures o.Response? && o.ok && o.body.JsonValue? && o.body.devices.None? ==> devices == []
  {
    match o
    case NetworkError => []
    case Response(ok, body) =>
      if !ok then []
      else
        match body
        case Unparsable => []
        case JsonNull => []
        case JsonValue(devices) => devices.GetOr([])
  }

  /** The three wrappers agree on which outcomes are failures: a request
      that plays also pauses, and one that fails lists no devices. */
  lemma WrappersAgree(o: FetchOutcome)
    ensures PlayEmotion(o) == PauseMusic(o)
    ensures !PlayEmotion(o) ==> GetDevices(o) == []
  {
  }
}

=== FILE: text.dfy ===
/** String helpers standing for JavaScript built-ins the core relies on:
    number-to-string conversion in template literals, `parseInt`,
    `Array.prototype.join` and `String.prototype.split` with a one-character
    separator. */
module Text {
  import opened Wrappers

  predicate IsDigit(c: char) {
    '0' <= c <= '9'
  }

  predicate AllDigits(s: string) {
    forall i :: 0 <= i < |s| ==> IsDigit(s[i])
  }

  function DigitChar(d: nat): (c: char)
    requires d < 10
    ensures IsDigit(c) && (c as int) - ('0' as int) == d
  {
    (('0' as int) + d) as char
  }

  /** Decimal rendering of a natural number, as `${n}` prints it. */
  function NatToString(n: nat): (s: string)
    ensures |s| >= 1 && AllDigits(s)
    ensures |s| > 1 ==> s[0] != '0'
  {
    if n < 10 then [DigitChar(n)]
    else
      var p := NatToString(n / 10);
      assert |p| > 1 ==> (p + [DigitChar(n % 10)])[0] == p[0];
      p + [DigitChar(n % 10)]
  }

  /** Decimal rendering of an integer, with a leading minus sign when negative. */
  function IntToString(n: int): string {
    if n < 0 then "-" + NatToString(-n) else NatToString(n)
  }

  /** The value of a run of decimal digits. */
  function DigitsValue(s: string): nat
    requires AllDigits(s)
  {
    if s == [] then 0
    else DigitsValue(s[..|s| - 1]) * 10 + ((s[|s| - 1] as int) - ('0' as int))
  }

  /** Reading back a rendered number gives the number. */
  lemma {:induction false} NatToStringValue(n: nat)
    ensures DigitsValue(NatToString(n)) == n
  {
    if n >= 10 {
      NatToStringValue(n / 10);
      var s := NatToString(n);
      assert s[..|s| - 1] == NatToString(n / 10);
    }
  }

  /** Length of the leading run of decimal digits. */
  function LeadingDigits(s: string): (k: nat)
    ensures k <= |s| && AllDigits(s[..k])
    ensures k < |s| ==> !IsDigit(s[k])
  {
    if s == [] || !IsDigit(s[0]) then 0
    else
      var k := LeadingDigits(s[1..]);
      assert s[..k + 1] == [s[0]] + s[1..][..k];
      k + 1
  }

  predicate IsHexDigit(c: char) {
    IsDigit(c) || 'a' <= c <= 'f' || 'A' <= c <= 'F'
  }

  predicate AllHexDigits(s: string) {
    forall i :: 0 <= i < |s| ==> IsHexDigit(s[i])
  }

  function HexDigitValue(c: char): (d: nat)
    requires IsHexDigit(c)
    ensures d < 16
  {
    if IsDigit(c) then (c as int) - ('0' as int)
    else if 'a' <= c <= 'f' then (c as int) - ('a' as int) + 10
    else (c as int) - ('A' as int) + 10
  }

  /** The value of a run of hexadecimal digits. */
  function HexValue(s: string): nat
    requires AllHexDigits(s)
  {
    if s == [] then 0
    else HexValue(s[..|s| - 1]) * 16 + HexDigitValue(s[|s| - 1])
  }

  /** Length of the leading run of hexadecimal digits. */
  function LeadingHexDigits(s: string): (k: nat)
    ensures k <= |s| && AllHexDigits(s[..k])
    ensures k < |s| ==> !IsHexDigit(s[k])
  {
    if s == [] || !IsHexDigit(s[0]) then 0
    else
      var k := LeadingHexDigits(s[1..]);
      assert s[..k + 1] == [s[0]] + s[1..][..k];
      k + 1
  }

  /** A "0x" or "0X" prefix, which makes `parseInt` without a radix read
      hexadecimal. */
  predicate HexPrefixed(s: string) {
    |s| >= 2 && s[0] == '0' && (s[1] == 'x' || s[1] == 'X')
  }

  /** `parseInt(s)` (no radix) on a string without leading white space: an
      optional sign, then, after a "0x"/"0X" prefix, the longest run of
      hexadecimal digits, and otherwise the longest run of decimal digits;
      `None` stands for `NaN` (no digit at all). A number needs a digit, only
      a leading '-' makes it negative, and text that starts with a decimal
      digit and is not a hexadecimal prefix always reads as a number. */
  function ParseIntPrefix(s: string): (r: Option<int>)
    ensures r.Some? ==> exists i :: 0 <= i < |s| && IsDigit(s[i])
    ensures r.Some? && r.value < 0 ==> |s| > 0 && s[0] == '-'
    ensures |s| > 0 && IsDigit(s[0]) && !HexPrefixed(s) ==> r.Some?
  {
    var negative := |s| > 0 && s[0] == '-';
    var rest := if |s| > 0 && (s[0] == '-' || s[0] == '+') then s[1..] else s;
    var magnitude: Option<nat> :=
      if HexPrefixed(rest) then
        var k := LeadingHexDigits(rest[2..]);
        if k == 0 then None else Some(HexValue(rest[2..][..k]))
      else
        var k := LeadingDigits(rest);
        if k == 0 then None else Some(DigitsValue(rest[..k]));
    if magnitude.None? then None
    else
      var m: int := magnitude.value;
      if negative then Some(-m) else Some(m)
  }

  /** `parseInt` reads back a rendered number followed by any text that does
      not continue it: a non-digit, and after a lone 0 neither 'x' nor 'X'
      (which would make it a hexadecimal prefix), as in `parseInt("2m")`. */
  lemma ParseIntPrefixOfRendered(n: nat, rest: string)
    requires rest == [] || !IsDigit(rest[0])
    requires n == 0 ==> rest == [] || (rest[0] != 'x' && rest[0] != 'X')
    ensures ParseIntPrefix(NatToString(n) + rest) == Some(n)
  {
    var s := NatToString(n);
    var t := s + rest;
    if n == 0 {
      assert s == "0";
    }
    assert !HexPrefixed(t);
    LeadingDigitsOfDigitsThen(s, rest);
    assert t[..|s|] == s;
    NatToStringValue(n);
  }

  /** After "0x" or "0X", a run of hexadecimal digits followed by anything
      that does not continue it reads as the run's value. */
  lemma ParseHexThen(x: char, h: string, rest: string)
    requires x == 'x' || x == 'X'
    requires h != [] && AllHexDigits(h)
    requires rest == [] || !IsHexDigit(rest[0])
    ensures ParseIntPrefix(['0', x] + h + rest) == Some(HexValue(h))
  {
    var s := ['0', x] + h + rest;
    assert HexPrefixed(s);
    assert s[2..] == h + rest;
    LeadingHexDigitsOfHexThen(h, rest);
    assert (h + rest)[..|h|] == h;
  }

  /** `parseInt` without a radix reads hexadecimal after "0x" and stops at
      the first character that is not a digit of base 16; with no digit
      after the prefix it gives `NaN`. */
  lemma ParseIntPrefixExamples()
    ensures ParseIntPrefix("0x1A") == Some(26)
    ensures ParseIntPrefix("0xg") == None
  {
    assert "0x1A" == ['0', 'x'] + "1A" + "";
    ParseHexThen('x', "1A", "");
    assert "1A"[..1] == "1" && "1"[..0] == "";
    var g := "0xg";
    assert HexPrefixed(g) && g[2..] == "g";
  }

  lemma {:induction false} LeadingHexDigitsOfHexThen(h: string, rest: string)
    requires AllHexDigits(h)
    requires rest == [] || !IsHexDigit(rest[0])
    ensures LeadingHexDigits(h + rest) == |h|
  {
    if h != [] {
      assert (h + rest)[1..] == h[1..] + rest;
      LeadingHexDigitsOfHexThen(h[1..], rest);
    } else {
      assert h + rest == rest;
    }
  }

  lemma {:induction false} LeadingDigitsOfDigitsThen(s: string, rest: string)
    requires AllDigits(s)
    requires rest == [] || !IsDigit(rest[0])
    ensures LeadingDigits(s + rest) == |s|
  {
    if s != [] {
      assert (s + rest)[1..] == s[1..] + rest;
      LeadingDigitsOfDigitsThen(s[1..], rest);
    } else {
      assert s + rest == rest;
    }
  }

  /** `parts.join(sep)`: the first part opens the result. */
  function Join(parts: seq<string>, sep: char): (r: string)
    ensures |parts| >= 1 ==> parts[0] <= r
  {
    if parts == [] then ""
    else if |parts| == 1 then parts[0]
    else parts[0] + [sep] + Join(parts[1..], sep)
  }

  /** `s.split(sep)` for a one-character separator: the pieces between
      separators, empty pieces included; never empty. */
  function Split(s: string, sep: char): (r: seq<string>)
    ensures |r| >= 1
  {
    if s == [] then [""]
    else
      var t := Split(s[1..], sep);
      if s[0] == sep then [""] + t else [[s[0]] + t[0]] + t[1..]
  }

  lemma {:induction false} SplitSeparatorFreePrefix(p: string, t: string, sep: char)
    requires sep !in p
    ensures Split(p + t, sep) == [p + Split(t, sep)[0]] + Split(t, sep)[1..]
  {
    if p == [] {
      var r := Split(t, sep);
      assert p + t == t && p + r[0] == r[0];
      assert r == [r[0]] + r[1..];
    } else {
      assert (p + t)[0] == p[0] && (p + t)[1..] == p[1..] + t;
      SplitSeparatorFreePrefix(p[1..], t, sep);
      assert [p[0]] + (p[1..] + Split(t, sep)[0]) == p + Split(t, sep)[0];
    }
  }

  /** Splitting a joined list on the separator recovers the list, provided no
      part contains the separator. */
  lemma {:induction false} SplitJoin(parts: seq<string>, sep: char)
    requires |parts| >= 1
    requires forall i :: 0 <= i < |parts| ==> sep !in parts[i]
    ensures Split(Join(parts, sep), sep) == parts
  {
    if |parts| == 1 {
      SplitSeparatorFreePrefix(parts[0], "", sep);
      assert parts[0] + "" == parts[0];
    } else {
      var rest := Join(parts[1..], sep);
      SplitJoin(parts[1..], sep);
      assert Join(parts, sep) == parts[0] + ([sep] + rest);
      SplitSeparatorFreePrefix(parts[0], [sep] + rest, sep);
      assert ([sep] + rest)[1..] == rest;
      assert parts[0] + "" == parts[0];
    }
  }

  /** No piece of a split holds the separator, and joining the pieces back
      with it gives the string. */
  lemma {:induction false} JoinSplit(s: string, sep: char)
    ensures forall i :: 0 <= i < |Split(s, sep)| ==> sep !in Split(s, sep)[i]
    ensures Join(Split(s, sep), sep) == s
  {
    if s != [] {
      var t := Split(s[1..], sep);
      JoinSplit(s[1..], sep);
      if s[0] == sep {
        assert Split(s, sep) == [""] + t;
        assert Join([""] + t, sep) == "" + [sep] + Join(t, sep);
        assert s == [s[0]] + s[1..];
      } else {
        var r := Split(s, sep);
        assert r == [[s[0]] + t[0]] + t[1..];
        if |t| == 1 {
          assert Join(t, sep) == t[0];
        } else {
          assert Join(t, sep) == t[0] + [sep] + Join(t[1..], sep);
          assert r[1..] == t[1..];
        }
        assert s == [s[0]] + s[1..];
      }
    }
  }

  /** A decimal rendering contains no separator character of a CSV file. */
  lemma NatToStringHasNo(n: nat, c: char)
    requires !IsDigit(c)
    ensures c !in NatToString(n)
  {
  }

  /** Joining pieces free of `c` with a separator other than `c` gives a
      string free of `c`. */
  lemma {:induction false} JoinHasNo(parts: seq<string>, sep: char, c: char)
    requires c != sep
    requires forall i :: 0 <= i < |parts| ==> c !in parts[i]
    ensures c !in Join(parts, sep)
  {
    if |parts| > 1 {
      JoinHasNo(parts[1..], sep, c);
    }
  }

  /** The first piece of a split is empty or starts with the string's first
      character. */
  lemma SplitFirstPiece(s: string, sep: char)
    ensures Split(s, sep)[0] == [] || (s != [] && s[0] != sep && Split(s, sep)[0][0] == s[0])
  {
  }
}

=== FILE: vocabulary.dfy ===
/** The six-member emotion vocabulary of the React hooks, the charts and the
    history and analytics pages (it has `amor`, and no `disgusto`/`miedo`). */
module Vocabulary {

  datatype Emotion = Feliz | Triste | Neutral | Enojado | Sorprendido | Amor {

    /** The string the source uses for the member. */
    function Key(): string {
      match this
      case Feliz => "feliz"
      case Triste => "triste"
      case Neutral => "neutral"
      case Enojado => "enojado"
      case Sorprendido => "sorprendido"
      case Amor => "amor"
    }

    /** `emotionLabels`: the capitalised name shown and exported. */
    function Label(): string {
      match this
      case Feliz => "Feliz"
      case Triste => "Triste"
      case Neutral => "Neutral"
      case Enojado => "Enojado"
      case Sorprendido => "Sorprendido"
      case Amor => "Amor"
    }
  }

  /** Distinct emotions have distinct labels, and no label contains a comma
      or a line break, so a label is a plain CSV field. */
  lemma LabelIsPlainAndInjective(a: Emotion, b: Emotion)
    ensures a.Label() == b.Label() ==> a == b
    ensures ',' !in a.Label() && '\n' !in a.Label()
  {
  }
}

/** The seven-member vocabulary of the streaming client and the playlist
    client (it has `disgusto` and `miedo`, and no `amor`). */
module StreamVocabulary {

  datatype StreamEmotion = Feliz | Triste | Neutral | Enojado | Sorprendido | Disgusto | Miedo
}

=== FILE: websocket_client.dfy ===
/** The streaming client of `frontend/lib/websocket.ts`: the wire-label
    table, the per-message decode rule and the `EmotionWebSocket` reconnect
    state machine. Sockets and timers are named by numbers; their events
    (open, close, timer expiry) are methods the environment calls. */
module StreamClient {
  import opened Wrappers
  import opened StreamVocabulary

  // ---------------------------------------------------------------------------
  // Wire-label table
  // ---------------------------------------------------------------------------

  /** The seven labels the backend classifier emits. */
  const WireLabels: seq<string> := ["Happy", "Sad", "Angry", "Surprise", "Disgust", "Fear", "Neutral"]

  /** The own entries of `emotionMapping`. */
  function TableEntry(tag: string): Option<StreamEmotion> {
    match tag
    case "Happy" => Some(Feliz)
    case "Sad" => Some(Triste)
    case "Angry" => Some(Enojado)
    case "Surprise" => Some(Sorprendido)
    case "Disgust" => Some(Disgusto)
    case "Fear" => Some(Miedo)
    case "Neutral" => Some(Neutral)
    case _ => None
  }

  /** `emotionMapping[label] || 'neutral'`, reading only the table's own
      entries: every label decodes to a member of the vocabulary, and labels
      outside the table decode to `neutral`. */
  function DecodeLabel(tag: string): (e: StreamEmotion)
    ensures tag !in WireLabels ==> e == Neutral
    ensures tag in WireLabels ==> TableEntry(tag) == Some(e)
  {
    match TableEntry(tag)
    case Some(e) => e
    case None => Neutral
  }

  /** The wire label the backend uses for each member. */
  function WireLabelOf(e: StreamEmotion): string {
    match e
    case Feliz => "Happy"
    case Triste => "Sad"
    case Enojado => "Angry"
    case Sorprendido => "Surprise"
    case Disgusto => "Disgust"
    case Miedo => "Fear"
    case Neutral => "Neutral"
  }

  /** Every member has exactly one wire label: decoding a member's label gives
      the member back, and the seven labels are the labels of the seven
      members, so the table is a bijection. */
  lemma DecodeLabelRoundTrip(e: StreamEmotion)
    ensures WireLabelOf(e) in WireLabels
    ensures DecodeLabel(WireLabelOf(e)) == e
  {
  }

  lemma {:induction false} WireLabelsAreLabelsOfMembers(tag: string)
    requires tag in WireLabels
    ensures WireLabelOf(DecodeLabel(tag)) == tag
  {
    var i :| 0 <= i < |WireLabels| && WireLabels[i] == tag;
    assert i == 0 || i == 1 || i == 2 || i == 3 || i == 4 || i == 5 || i == 6;
  }

  /** The wire labels decode to seven distinct members. */
  lemma DecodeLabelInjective(a: string, b: string)
    requires a in WireLabels && b in WireLabels && a != b
    ensures DecodeLabel(a) != DecodeLabel(b)
  {
    WireLabelsAreLabelsOfMembers(a);
    WireLabelsAreLabelsOfMembers(b);
  }

  // ---------------------------------------------------------------------------
  // The table lookup as written, on a JavaScript object literal
  // ---------------------------------------------------------------------------

  /** Names every object literal inherits from `Object.prototype`; reading one
      of them yields a function (or the prototype object), never `undefined`. */
  const InheritedNames: set<string> := {
    "constructor", "toString", "toLocaleString", "valueOf", "hasOwnProperty",
    "isPrototypeOf", "propertyIsEnumerable", "__proto__", "__defineGetter__",
    "__defineSetter__", "__lookupGetter__", "__lookupSetter__"}

  /** What `emotionMapping[label] || 'neutral'` evaluates to. */
  datatype LookupValue = Member(e: StreamEmotion) | InheritedMember(name: string)

  function DecodeLabelAsWritten(tag: string): (v: LookupValue)
    ensures TableEntry(tag).Some? ==> v == Member(TableEntry(tag).value)
  {
    match TableEntry(tag)
    case Some(e) => Member(e)
    case None => if tag in InheritedNames then InheritedMember(tag) else Member(Neutral)
  }

  /** The fallback does not catch inherited names: the label "toString"
      decodes to a function, not to `neutral`. */
  lemma InheritedLabelEscapesFallback()
    ensures DecodeLabelAsWritten("toString") == InheritedMember("toString")
    ensures DecodeLabel("toString") == Neutral
  {
    assert "toString" !in WireLabels;
  }

  /** Apart from inherited names the two lookups agree. */
  lemma DecodeLabelAgreesAsWritten(tag: string)
    requires tag !in InheritedNames
    ensures DecodeLabelAsWritten(tag) == Member(DecodeLabel(tag))
  {
  }

  // ---------------------------------------------------------------------------
  // Message decoding
  // ---------------------------------------------------------------------------

  /** One tracked person in a message; `emotion` is `null` when no face was
      classified. */
  datatype PersonDetection = PersonDetection(
    id: int,
    bbox: seq<int>,
    emotion: Option<string>,
    confidence: real,
    hasFace: bool)

  /** A parsed message. Absent or `null` fields are `None`. */
  datatype WireMessage = WireMessage(
    frame: Option<string>,
    emotions: Option<seq<PersonDetection>>)

  /** The text of one inbound message, as `JSON.parse` sees it. */
  datatype RawMessage = Parsed(message: WireMessage) | Unparsable

  /** The reading handed to the emotion callback; `timestamp` is the
      receive time in milliseconds. */
  datatype EmotionData = EmotionData(emotion: StreamEmotion, confidence: real, timestamp: int)

  /** The callbacks one message triggers. */
  datatype MessageEffects = MessageEffects(frame: Option<string>, emotion: Option<EmotionData>)

  /** A JavaScript string is truthy when it is present and not empty. */
  predicate Truthy(s: Option<string>) {
    s.Some? && s.value != ""
  }

  /** The person whose reading is reported: the first, when its label is
      truthy and its confidence positive. */
  predicate Reportable(m: WireMessage) {
    m.emotions.Some? && |m.emotions.value| > 0 &&
    Truthy(m.emotions.value[0].emotion) && m.emotions.value[0].confidence > 0.0
  }

  /** `ws.onmessage`: a frame callback for a truthy frame when one is
      registered, and one emotion callback for a reportable first person;
      a parse failure is caught and triggers nothing. */
  function OnMessage(raw: RawMessage, frameCallbackSet: bool, now: int): (fx: MessageEffects)
    ensures raw.Unparsable? ==> fx == MessageEffects(None, None)
    ensures fx.frame.Some? <==> raw.Parsed? && frameCallbackSet && Truthy(raw.message.frame)
    ensures fx.frame.Some? ==> fx.frame == raw.message.frame
    ensures fx.emotion.Some? <==> raw.Parsed? && Reportable(raw.message)
    ensures fx.emotion.Some? ==>
      var person := raw.message.emotions.value[0];
      fx.emotion.value == EmotionData(DecodeLabel(person.emotion.value), person.confidence, now)
  {
    match raw
    case Unparsable => MessageEffects(None, None)
    case Parsed(m) =>
      var frame := if frameCallbackSet && Truthy(m.frame) then m.frame else None;
      var emotion :=
        if Reportable(m) then
          var person := m.emotions.value[0];
          Some(EmotionData(DecodeLabel(person.emotion.value), person.confidence, now))
        else None;
      MessageEffects(frame, emotion)
  }

  /** Only the first person matters: whatever follows it is ignored. */
  lemma LaterPersonsIgnored(frame: Option<string>, first: PersonDetection, rest: seq<PersonDetection>,
                            frameCallbackSet: bool, now: int)
    ensures OnMessage(Parsed(WireMessage(frame, Some([first] + rest))), frameCallbackSet, now)
         == OnMessage(Parsed(WireMessage(frame, Some([first]))), frameCallbackSet, now)
  {
  }

  /** The frame callback does not depend on the persons at all. */
  lemma FrameIndependentOfPersons(frame: Option<string>, a: Option<seq<PersonDetection>>,
                                  b: Option<seq<PersonDetection>>, frameCallbackSet: bool, now: int)
    ensures OnMessage(Parsed(WireMessage(frame, a)), frameCallbackSet, now).frame
         == OnMessage(Parsed(WireMessage(frame, b)), frameCallbackSet, now).frame
  {
  }

  // ---------------------------------------------------------------------------
  // Reconnect back-off
  // ---------------------------------------------------------------------------

  const MaxReconnectAttempts: nat := 5

  function Pow2(n: nat): (p: nat)
    ensures p >= 1
  {
    if n == 0 then 1 else 2 * Pow2(n - 1)
  }

  /** `Math.min(1000 * Math.pow(2, n), 10000)`. */
  function ReconnectDelay(n: nat): (d: nat)
    ensures d <= 10000
  {
    if 1000 * Pow2(n) < 10000 then 1000 * Pow2(n) else 10000
  }

  lemma {:induction false} Pow2Monotone(a: nat, b: nat)
    requires a <= b
    ensures Pow2(a) <= Pow2(b)
    decreases b
  {
    if a < b {
      Pow2Monotone(a, b - 1);
    }
  }

  /** The delay never shrinks as the attempt counter grows. */
  lemma ReconnectDelayMonotone(a: nat, b: nat)
    requires a <= b
    ensures ReconnectDelay(a) <= ReconnectDelay(b)
  {
    Pow2Monotone(a, b);
  }

  /** The five delays scheduled without an intervening open. */
  lemma ReconnectDelaySchedule()
    ensures [ReconnectDelay(1), ReconnectDelay(2), ReconnectDelay(3), ReconnectDelay(4), ReconnectDelay(5)]
         == [2000, 4000, 8000, 10000, 10000]
  {
    assert Pow2(1) == 2 && Pow2(2) == 4 && Pow2(3) == 8 && Pow2(4) == 16 && Pow2(5) == 32;
  }

  // ---------------------------------------------------------------------------
  // The client object
  // ---------------------------------------------------------------------------

  /** `WebSocket.readyState`. */
  datatype ReadyState = Connecting | Open | Closing | Closed

  class EmotionWebSocket {
    /** `this.ws`: the socket the client currently refers to. */
    var ws: Option<nat>
    /** Every socket this client created; each keeps the handlers `connect`
        attached to it, whether or not `ws` still refers to it. */
    var sockets: map<nat, ReadyState>
    var nextSocket: nat
    var reconnectAttempts: nat
    /** Pending reconnect timers and their delays in milliseconds. */
    var timers: map<nat, nat>
    var nextTimer: nat
    /** `this.reconnectTimeout`: the last timer scheduled. */
    var reconnectTimeout: Option<nat>
    var emotionCallbackSet: bool
    var frameCallbackSet: bool
    /** Set by `DisconnectAndStay`, the corrected disconnect, and cleared by
        `Connect`; the client as written never sets it. */
    var manualStop: bool

    ghost predicate Valid()
      reads this
    {
      reconnectAttempts <= MaxReconnectAttempts &&
      (ws.Some? ==> ws.value in sockets) &&
      (forall id :: id in sockets ==> id < nextSocket) &&
      (forall t :: t in timers ==> t < nextTimer && timers[t] <= 10000)
    }

    constructor ()
      ensures Valid()
      ensures ws == None && sockets == map[] && timers == map[] && reconnectTimeout == None
      ensures reconnectAttempts == 0 && !emotionCallbackSet && !frameCallbackSet && !manualStop
      ensures nextSocket == 0 && nextTimer == 0
    {
      ws, sockets, nextSocket := None, map[], 0;
      reconnectAttempts := 0;
      timers, nextTimer, reconnectTimeout := map[], 0, None;
      emotionCallbackSet, frameCallbackSet, manualStop := false, false, false;
    }

    /** `isConnected()`: `ws` refers to an open socket. */
    predicate IsConnected()
      reads this
      requires Valid()
    {
      ws.Some? && sockets[ws.value] == Open
    }

    /** `connect(onEmotion, onFrame?)`: registers the callbacks and opens a new
        socket; when the constructor throws, the error is logged and `ws` is
        left as it was. The previous socket is neither closed nor detached. */
    method Connect(withFrameCallback: bool, constructorThrows: bool)
      requires Valid()
      modifies this
      ensures Valid()
      ensures emotionCallbackSet && frameCallbackSet == withFrameCallback
      ensures constructorThrows ==> ws == old(ws) && sockets == old(sockets)
      ensures !constructorThrows ==>
        old(nextSocket) !in old(sockets) &&
        ws == Some(old(nextSocket)) && sockets == old(sockets)[old(nextSocket) := Connecting]
      ensures reconnectAttempts == old(reconnectAttempts) && timers == old(timers)
      ensures reconnectTimeout == old(reconnectTimeout) && !manualStop
      ensures nextSocket == old(nextSocket) + (if constructorThrows then 0 else 1)
      ensures nextTimer == old(nextTimer)
      ensures !constructorThrows ==> !IsConnected()
    {
      emotionCallbackSet, frameCallbackSet := true, withFrameCallback;
      manualStop := false;
      if !constructorThrows {
        ws := Some(nextSocket);
        sockets := sockets[nextSocket := Connecting];
        nextSocket := nextSocket + 1;
      }
    }

    /** `onopen` of socket `id`: the attempt counter starts over. */
    method SocketOpened(id: nat)
      requires Valid() && id in sockets && sockets[id] == Connecting
      modifies this
      ensures Valid()
      ensures reconnectAttempts == 0
      ensures sockets == old(sockets)[id := Open]
      ensures ws == old(ws) && timers == old(timers) && reconnectTimeout == old(reconnectTimeout)
      ensures nextSocket == old(nextSocket) && nextTimer == old(nextTimer) && manualStop == old(manualStop)
      ensures emotionCallbackSet == old(emotionCallbackSet) && frameCallbackSet == old(frameCallbackSet)
      ensures ws == Some(id) ==> IsConnected()
    {
      sockets := sockets[id := Open];
      reconnectAttempts := 0;
    }

    /** `onclose` of socket `id` (also after a failed connection attempt, and
        also for a socket `ws` no longer refers to): `attemptReconnect`. */
    method SocketClosed(id: nat)
      requires Valid() && id in sockets && sockets[id] != Closed
      modifies this
      ensures Valid()
      ensures sockets == old(sockets)[id := Closed] && ws == old(ws)
      ensures manualStop == old(manualStop) && nextSocket == old(nextSocket)
      ensures emotionCallbackSet == old(emotionCallbackSet) && frameCallbackSet == old(frameCallbackSet)
      ensures !old(manualStop) && old(reconnectAttempts) < MaxReconnectAttempts ==>
        reconnectAttempts == old(reconnectAttempts) + 1 &&
        reconnectTimeout == Some(old(nextTimer)) &&
        timers == old(timers)[old(nextTimer) := ReconnectDelay(reconnectAttempts)]
      ensures old(manualStop) || old(reconnectAttempts) >= MaxReconnectAttempts ==>
        reconnectAttempts == old(reconnectAttempts) && timers == old(timers) &&
        reconnectTimeout == old(reconnectTimeout)
      ensures ws == Some(id) ==> !IsConnected()
    {
      sockets := sockets[id := Closed];
      if !manualStop {
        AttemptReconnect();
      }
    }

    /** `attemptReconnect()`: gives up after five attempts; otherwise counts
        the attempt and schedules a reconnect after the back-off delay. An
        earlier pending timer is not cancelled. */
    method AttemptReconnect()
      requires Valid()
      modifies this
      ensures Valid()
      ensures old(reconnectAttempts) >= MaxReconnectAttempts ==>
        reconnectAttempts == old(reconnectAttempts) && timers == old(timers) &&
        reconnectTimeout == old(reconnectTimeout)
      ensures old(reconnectAttempts) < MaxReconnectAttempts ==>
        reconnectAttempts == old(reconnectAttempts) + 1 &&
        old(nextTimer) !in old(timers) &&
        reconnectTimeout == Some(old(nextTimer)) &&
        timers == old(timers)[old(nextTimer) := ReconnectDelay(reconnectAttempts)]
      ensures ws == old(ws) && sockets == old(sockets) && manualStop == old(manualStop)
      ensures nextSocket == old(nextSocket)
      ensures emotionCallbackSet == old(emotionCallbackSet) && frameCallbackSet == old(frameCallbackSet)
    {
      if reconnectAttempts >= MaxReconnectAttempts {
        return;
      }
      reconnectAttempts := reconnectAttempts + 1;
      var delay := ReconnectDelay(reconnectAttempts);
      timers := timers[nextTimer := delay];
      reconnectTimeout := Some(nextTimer);
      nextTimer := nextTimer + 1;
    }

    /** Timer `t` expires: reconnect with the registered callbacks. */
    method FireReconnect(t: nat, constructorThrows: bool)
      requires Valid() && t in timers
      modifies this
      ensures Valid()
      ensures timers == old(timers) - {t}
      ensures reconnectAttempts == old(reconnectAttempts)
      ensures old(emotionCallbackSet) && !constructorThrows ==>
        ws == Some(old(nextSocket)) && sockets == old(sockets)[old(nextSocket) := Connecting]
      ensures !old(emotionCallbackSet) || constructorThrows ==> ws == old(ws) && sockets == old(sockets)
      ensures nextSocket == old(nextSocket) + (if old(emotionCallbackSet) && !constructorThrows then 1 else 0)
      ensures nextTimer == old(nextTimer) && reconnectTimeout == old(reconnectTimeout)
      ensures manualStop == (old(manualStop) && !old(emotionCallbackSet))
      ensures emotionCallbackSet == old(emotionCallbackSet) && frameCallbackSet == old(frameCallbackSet)
    {
      timers := timers - {t};
      if emotionCallbackSet {
        Connect(frameCallbackSet, constructorThrows);
      }
    }

    /** `disconnect()`: cancels the last scheduled timer, closes the socket and
        forgets it. Nothing stops the closed socket's `onclose` handler. */
    method Disconnect()
      requires Valid()
      modifies this
      ensures Valid()
      ensures ws == None
      ensures old(reconnectTimeout).Some? ==> timers == old(timers) - {old(reconnectTimeout).value}
      ensures old(reconnectTimeout).None? ==> timers == old(timers)
      ensures old(ws).Some? ==> sockets == old(sockets)[old(ws).value := AfterClose(old(sockets)[old(ws).value])]
      ensures old(ws).None? ==> sockets == old(sockets)
      ensures reconnectAttempts == old(reconnectAttempts) && manualStop == old(manualStop)
      ensures emotionCallbackSet == old(emotionCallbackSet) && frameCallbackSet == old(frameCallbackSet)
      ensures nextSocket == old(nextSocket) && nextTimer == old(nextTimer)
      ensures reconnectTimeout == old(reconnectTimeout)
      ensures !IsConnected()
    {
      if reconnectTimeout.Some? {
        timers := timers - {reconnectTimeout.value};
      }
      if ws.Some? {
        sockets := sockets[ws.value := AfterClose(sockets[ws.value])];
        ws := None;
      }
    }

    /** The disconnect the client evidently intends: as `Disconnect`, and
        every pending timer is cancelled and no later close event reconnects. */
    method DisconnectAndStay()
      requires Valid()
      modifies this
      ensures Valid()
      ensures ws == None && timers == map[] && manualStop
      ensures old(ws).Some? ==> sockets == old(sockets)[old(ws).value := AfterClose(old(sockets)[old(ws).value])]
      ensures old(ws).None? ==> sockets == old(sockets)
      ensures reconnectAttempts == old(reconnectAttempts)
      ensures !IsConnected()
    {
      manualStop := true;
      timers := map[];
      if ws.Some? {
        sockets := sockets[ws.value := AfterClose(sockets[ws.value])];
        ws := None;
      }
    }
  }

  /** `ws.close()` moves a connecting or open socket to closing. */
  function AfterClose(s: ReadyState): ReadyState {
    if s == Connecting || s == Open then Closing else s
  }

  /** With no open in between, five closes schedule delays of 2, 4, 8, 10 and
      10 seconds, and a sixth close schedules nothing. */
  method ReconnectScenario() {
    var c := new EmotionWebSocket();
    c.Connect(false, false);
    ReconnectDelaySchedule();
    var expected := [2000, 4000, 8000, 10000, 10000];
    var k := 0;
    while k < 5
      invariant 0 <= k <= 5
      invariant c.Valid() && !c.manualStop && c.emotionCallbackSet
      invariant c.reconnectAttempts == k
      invariant c.ws == Some(k) && k in c.sockets && c.sockets[k] == Connecting && c.nextSocket == k + 1
      modifies c
    {
      c.SocketClosed(k);
      var t := c.reconnectTimeout.value;
      assert c.timers[t] == expected[k];
      c.FireReconnect(t, false);
      k := k + 1;
    }
    var before := c.timers;
    c.SocketClosed(5);
    assert c.reconnectAttempts == 5 && c.timers == before;
  }

  /** `disconnect()` does not end the session: the close event of the socket
      it closed schedules a reconnect, whose timer opens a new socket. */
  method DisconnectThenReconnect() {
    var c := new EmotionWebSocket();
    c.Connect(false, false);
    c.SocketOpened(0);
    assert c.IsConnected();
    c.Disconnect();
    assert !c.IsConnected() && c.ws == None && c.sockets[0] == Closing;
    c.SocketClosed(0);
    var t := c.reconnectTimeout.value;
    assert t in c.timers;
    c.FireReconnect(t, false);
    assert c.ws == Some(1);
  }

  /** With the corrected disconnect the same close event schedules nothing. */
  method DisconnectAndStayScenario() {
    var c := new EmotionWebSocket();
    c.Connect(false, false);
    c.SocketOpened(0);
    c.DisconnectAndStay();
    c.SocketClosed(0);
    assert c.ws == None && c.timers == map[];
  }
}

=== FILE: wrappers.dfy ===
/** The usual optional-value wrapper, standing for a JavaScript `null`/`undefined`
    or a Python `None` wherever the source has one. */
module Wrappers {

  datatype Option<+T> = None | Some(value: T) {

    /** The wrapped value, or `default` when there is none. */
    function GetOr(default: T): T {
      match this
      case Some(v) => v
      case None => default
    }
  }
}
